=== FILE: README.md ===
# CoolBudgetTech storefront core in Dafny

This project is a Dafny model of the client and middleware logic of the CoolBudgetTech
storefront, an Astro + React shop for budget gadgets. It covers:

- the product catalogue and its static media table, media classification by
  file extension, and the media sort order;
- the header search: the match predicate, the six-result cut-off, the 300 ms
  debounce, the 100 ms evaluation delay, and the results panel;
- the product slideshow: wrap-around navigation, the rendered view, and the
  keyboard hook;
- the auth middleware: route classification, the bearer token, and redirects,
  plus the client-side `requireAuth`;
- the auth store: the session atoms, the first-sign-in address insert, and
  sign-up metadata;
- the address-book operations of `supabase.ts` over an in-memory address table,
  with the invariant "at most one default per user and address type";
- the change-password form, the user menu (display name, initials, open/close),
  the order history views, and the persisted preferences.

Each source file is one module:

| module | file |
|---|---|
| `Catalog` | `catalog.dfy` |
| `ProductMedia` | `product_media.dfy` |
| `Media` | `media.dfy` |
| `Search`, `SearchDebounce` | `search.dfy`, `search_debounce.dfy` |
| `Uri` | `uri.dfy` |
| `Slideshow` | `slideshow.dfy` |
| `RouteGuard` | `route_guard.dfy` |
| `AuthStore` | `auth_store.dfy` |
| `Addresses` | `addresses.dfy` |
| `ProfileSettings` | `profile_settings.dfy` |
| `UserMenu` | `user_menu.dfy` |
| `OrderHistory` | `order_history.dfy` |
| `Stores` | `stores.dfy` |

Shared modules:

- `Wrappers` holds `Option` and `Result`.
- `Text` holds string helpers: case mapping, substring search, `trim`, `split`,
  `lastIndexOf` and `replace`.

`ShippedText` and `ShippedSearch` (`shipped_search.dfy`) evaluate the search over the
eleven products the shop ships with.

How the source's runtime is represented:

- **Supabase.** The Supabase client is an oracle. Every answer it could give
  becomes a parameter: whether it is configured, the signed-in user, a
  generated id, an error message.
- **Database tables.** A database table is a sequence of rows.
- **Time.** Time in the search box is a discrete clock of one tick per
  millisecond.
- **Prices.** Prices are integer pence and nothing computes with them.

Behaviour worth noting:

- **No generation counter.** The code has no generation counter, so a result
  computed for an edited query is still shown (`SearchDebounce.StaleResultsShown`).
- **Blank queries.** A blank query clears the results only when the debounce
  timer fires, not at once (`SearchDebounce.BlankClearsAfterDebounce`).
- **Untrimmed search term.** The term handed to the search is the raw query.
  Only the blank test trims it (`Search.RawTermMatters`).

## Model

| member | source | states |
|---|---|---|
| Text.FoldedIncludesSpec | src/components/SearchWithResults.tsx:55-57 | `a.toLowerCase().includes(b.toLowerCase())` holds exactly when the lower-cased `b` occurs at some position of the lower-cased `a` |
| Search.Matches | src/components/SearchWithResults.tsx:54-58 | a product matches exactly when the lower-cased term occurs in its lower-cased name, description or category |
| Search.Filter | src/components/SearchWithResults.tsx:54-57 | the filtered list is no longer than the catalogue and every entry matches the term |
| Search.FilterMembership | src/components/SearchWithResults.tsx:54-57 | a product is in the filtered list exactly when it is in the catalogue and matches |
| Search.FilterAppend | src/components/SearchWithResults.tsx:54-57 | filtering a concatenation is the concatenation of the filtered parts, so catalogue order is kept |
| Search.FilterSameTerms | src/components/SearchWithResults.tsx:54-57 | two terms that match the same products filter any catalogue identically |
| Search.PerformSearch | src/components/SearchWithResults.tsx:54-58 | the list has min(6, number of matches) entries |
| Search.PerformSearchSpec | src/components/SearchWithResults.tsx:54-58 | the list is the leading part of the matches in catalogue order; it holds every match when there are at most six; a product left out is either not a match or comes after six earlier matches |
| Search.SearchIgnoresCase | src/components/SearchWithResults.tsx:54-57 | two terms with the same lower-case form give the same results |
| Search.ExtendingNarrows | src/components/SearchWithResults.tsx:54-57 | a product matching a longer term also matches any prefix of it |
| Search.RawTermMatters | src/components/SearchWithResults.tsx:26-27 | the untrimmed query is the search term: " smart" misses a product whose fields contain "smart" but no " smart" |
| Search.ShowPanel | src/components/SearchWithResults.tsx:107-168 | the panel is closed exactly when hidden and shows the spinner exactly when open and loading; an open, idle panel lists the results exactly when there are any, and then exactly those; "View all results" appears exactly when six are listed; "No products found" exactly for no results under a non-blank query |
| Search.Thumbnail | src/components/SearchWithResults.tsx:129 | the thumbnail is the primary picture's url when that exists and is non-empty, otherwise the product's own image |
| Search.ThumbnailLeadsPage | src/components/SearchWithResults.tsx:129 | the dropdown thumbnail of any product is the url of the first picture its product page shows |
| Search.SubmitTarget | src/components/SearchWithResults.tsx:66-81 | submitting goes nowhere for a blank query, otherwise to "/search?query=" followed by the encoded raw query |
| Search.ProductPage | src/components/SearchWithResults.tsx:73-75 | a result click goes to "/products/" followed by the slug, recoverable from the target |
| Uri.EncodedIsSafe | src/components/SearchWithResults.tsx:69 | `encodeURIComponent` output holds only unreserved characters and "%XX" escapes |
| Uri.UnreservedUnchanged | src/components/SearchWithResults.tsx:69 | a string of unreserved characters encodes to itself |
| Uri.RoundTrip | src/components/SearchWithResults.tsx:69 | decoding the encoding gives back the query, for every string |
| Uri.EncodingInjective | src/components/SearchWithResults.tsx:69 | distinct queries give distinct search addresses |
| Uri.Examples | src/components/SearchWithResults.tsx:69 | "a b" encodes to "a%20b" and "&" to "%26" |
| SearchDebounce.OnChange | src/components/SearchWithResults.tsx:24-35 | a changed query replaces the timer with a fresh 300 ms one for the new text; results, panel and in-flight work are untouched |
| SearchDebounce.OnClickOutside | src/components/SearchWithResults.tsx:38-47 | a click outside closes the panel and changes nothing else |
| SearchDebounce.Fire | src/components/SearchWithResults.tsx:25-32 | when the timer fires, a non-blank term starts exactly one evaluation of that term, due 100 ms later, and sets `isLoading` but leaves the panel as it was, so a closed panel shows no spinner; a blank term clears the results and closes the panel without starting a search |
| SearchDebounce.Commit | src/components/SearchWithResults.tsx:53-63 | an evaluation that lands commits its term, shows the first six matches for it, opens the panel and stops the spinner; the query and timer are untouched |
| SearchDebounce.OnTick | src/components/SearchWithResults.tsx:24-64 | a millisecond passes; committed terms are only added; a search starts only for the term a timer captured, and only when that timer falls due |
| SearchDebounce.InitInv | src/components/SearchWithResults.tsx:16-35 | the mounted component satisfies the machine invariant |
| SearchDebounce.TickInv | src/components/SearchWithResults.tsx:24-64 | a millisecond passing keeps the invariant |
| SearchDebounce.ChangeInv | src/components/SearchWithResults.tsx:24-35 | a query change keeps the invariant and starts or commits nothing |
| SearchDebounce.StepInv | src/components/SearchWithResults.tsx:24-64 | every event keeps the invariant |
| SearchDebounce.RunInv | src/components/SearchWithResults.tsx:24-64 | along any event sequence the invariant holds: at most one evaluation is in flight, the committed terms are a prefix of the started ones (commits keep start order), the started log only grows, and listed results are those of the last committed term |
| SearchDebounce.TicksInv | src/components/SearchWithResults.tsx:24-64 | any number of ticks keeps the invariant |
| SearchDebounce.SettlesWithin400 | src/components/SearchWithResults.tsx:24-64 | 400 ms without input leave no timer and nothing in flight; the results are those of the current query, or none for a blank query |
| SearchDebounce.BurstStartsNothing | src/components/SearchWithResults.tsx:24-35 | keystrokes less than 300 ms apart start no search; the remaining timer carries the last text |
| SearchDebounce.BurstRunsOnce | src/components/SearchWithResults.tsx:24-64 | after such a burst and a 400 ms pause exactly one search ran, on the last text (none when it is blank), and its results are listed |
| SearchDebounce.AfterPause | src/components/SearchWithResults.tsx:24-64 | from a running timer, 400 ms run the timer's query exactly once and settle the box |
| SearchDebounce.BlankClearsAfterDebounce | src/components/SearchWithResults.tsx:25-31 | after blanking the query the old results stay for 299 ms, then they are cleared and the panel hides |
| SearchDebounce.BlankTimerFires | src/components/SearchWithResults.tsx:25-32 | a fresh timer for a blank query, with nothing in flight, clears the results and closes the panel 300 ms later without starting a search |
| SearchDebounce.StaleResultsShown | src/components/SearchWithResults.tsx:49-64 | an evaluation whose query was edited while it ran still commits, so the panel lists results for the old term under the new query |
| SearchDebounce.AfterMount | src/components/SearchWithResults.tsx:24-35 | 300 ms after mounting, the empty query's timer has fired and the box is quiet, closed and empty |
| SearchDebounce.StartsAfterDebounce | src/components/SearchWithResults.tsx:24-64 | from a quiet box a non-blank change starts exactly one evaluation of it after 300 ms, due 100 ms later, with `isLoading` set and the term logged as started |
| SearchDebounce.InFlightReachable | src/components/SearchWithResults.tsx:24-64 | typing "a" after mounting and waiting 300 ms reaches a state with one search in flight |
| SearchDebounce.PanelSpec | src/components/SearchWithResults.tsx:107-168 | the spinner shows exactly while a search is in flight and the panel is open; every listed result matches the term it was committed for |
| Media.GetMediaType | src/lib/media-utils.ts:16-28 | a name is an image exactly when its lower-cased form ends with an image extension; otherwise a video exactly when it ends with a video extension; otherwise it is unclassified |
| Media.ExtensionAt | src/lib/media-utils.ts:17 | the extension is the lower-cased suffix from the last '.' |
| Media.GetMediaTypeIgnoresCase | src/lib/media-utils.ts:17 | names with the same lower-case form get the same classification |
| Media.NoDotIsUnclassified | src/lib/media-utils.ts:17-27 | a name without '.' is never media, since the clamped substring is the whole name |
| Media.UpperCaseImage | src/lib/media-utils.ts:8-20 | "MAIN.PNG" is an image |
| Media.MainPngIsImage | src/lib/media-utils.ts:8-20 | "main.png" is an image |
| Media.VideoExample | src/lib/media-utils.ts:11-25 | "clip.mp4" is a video |
| Media.UnknownExtensionExample | src/lib/media-utils.ts:16-28 | "notes.txt" is unclassified |
| Media.NoDotExample | src/lib/media-utils.ts:16-28 | "main" is unclassified |
| Media.CompareNamesAntisymmetric | src/lib/media-utils.ts:173 | swapping the names negates the comparison, which is zero exactly for equal names |
| Media.CompareMediaSpec | src/lib/media-utils.ts:159-174 | the comparator is antisymmetric: swapping the files flips the sign, and a tie stays a tie |
| Media.CompareMedia | src/lib/media-utils.ts:159-174 | the comparator never puts a file ahead of one of smaller rank, always puts a smaller rank first, and compares equal ranks outside the priority list by file name |
| Media.Insert | src/lib/media-utils.ts:159-174 | inserting into a sorted list gives a sorted list with the element added |
| Media.SortMedia | src/lib/media-utils.ts:159-174 | the result is sorted by the comparator and is a permutation of the input |
| Media.CompareMediaTransitive | src/lib/media-utils.ts:159-174 | a file placed before a second one is placed before everything the second is not after |
| Media.TieSpec | src/lib/media-utils.ts:159-174 | the comparator returns 0 exactly for files of the same rank that, outside the priority list, share a name, such as "main.png" and "main.mp4" |
| Media.InsertTies | src/lib/media-utils.ts:159-174 | inserting a file puts it after every file it ties with, and keeps the order of the rest of each tie class |
| Media.SortMediaStable | src/lib/media-utils.ts:159-174 | the sort is stable: for each tie class, its files keep their input order, as `Array.prototype.sort` has guaranteed since ES2019 |
| Media.SortedRanksAscend | src/lib/media-utils.ts:160-171 | in sorted media, main, primary, hero and front lead in that order, ahead of every other file |
| Media.CollectMedia | src/lib/media-utils.ts:139-153 | the loop produces at most one entry per glob path |
| Media.CollectMediaSpec | src/lib/media-utils.ts:139-153 | an entry is collected exactly when some glob path produces it |
| Media.PathEntry | src/lib/media-utils.ts:140-150 | a path yields an entry exactly when it lies in `/products/<slug>/` and its last segment classifies; the entry's name is that segment, its type the classification, its url the path with the first "/public" removed |
| Media.PublicPathUrl | src/lib/media-utils.ts:145 | for a glob path "/public…" the url is the rest of the path |
| Media.StaticMediaFromPaths | src/lib/media-utils.ts:131-177 | the build-time list is sorted, is a permutation of the collected entries, and holds an entry exactly when some glob path produces it |
| Media.ProductMedia | src/lib/media-utils.ts:34-104 | a non-empty build-time list is returned as is; otherwise the probed files are returned sorted |
| Media.FirstImage | src/lib/media-utils.ts:123 | `find` returns the first position holding an image, or nothing when no entry is an image |
| Media.PrimaryImageUrl | src/lib/media-utils.ts:121-125 | a url is returned only when some entry is an image, and only the first image's url is used; an empty url yields null |
| ProductMedia.Lookup | src/lib/product-media.ts:5-64 | the lookup fails exactly for a slug without an entry; a hit comes from an entry with that key |
| ProductMedia.GetStatic | src/lib/product-media.ts:70-72 | the static list is empty exactly for a slug no table entry has; otherwise it is the gallery of an entry with that slug |
| ProductMedia.HasMultipleMedia | src/lib/product-media.ts:77-80 | true exactly when the slug's static gallery has more than one item |
| ProductMedia.GetPrimaryMedia | src/lib/product-media.ts:85-88 | null exactly for an empty gallery, otherwise the gallery's first item |
| ProductMedia.EntriesNonEmpty | src/lib/product-media.ts:5-64 | every entry of the table lists at least one picture |
| ProductMedia.LookupsAgree | src/lib/product-media.ts:70-88 | the primary picture is missing exactly when the static list is empty; multiple media imply a primary picture |
| ProductMedia.GalleryShape | src/lib/product-media.ts:5-64 | every listed picture lies in its product's folder and its listed type agrees with `getMediaType` of its file name |
| ProductMedia.StaticMediaShape | src/lib/product-media.ts:70-72 | every item `getProductMediaStatic` returns lies in the slug's folder and is an image by its name |
| ProductMedia.EntriesLeadWithMain | src/lib/product-media.ts:5-64 | every multi-picture entry lists `main` first |
| ProductMedia.LookupLeadsWithMain | src/lib/product-media.ts:70-72 | in any table whose multi-picture entries lead with `main`, a looked-up gallery of several items starts with "main.png" |
| ProductMedia.MultiGalleriesLeadWithMain | src/lib/product-media.ts:77-88 | whenever a product has multiple media, its primary medium is "main.png" |
| ProductMedia.GalleryHead | src/lib/product-media.ts:5-64 | a gallery's first item is named after its first picture |
| ProductMedia.HeadphonesGallery | src/lib/product-media.ts:6-11 | the headphones have four pictures, led by the main one |
| ProductMedia.HubLookup | src/lib/product-media.ts:5-64 | "smart-home-hub" finds the hub's own entry |
| ProductMedia.HubGallery | src/lib/product-media.ts:5-64 | the hub's gallery is its single picture |
| ProductMedia.SingleShotGallery | src/lib/product-media.ts:77-88 | the hub has one medium: no multiple media, primary medium its only picture |
| ProductMedia.UnlistedSlug | src/lib/product-media.ts:70-88 | an unknown slug has an empty list, no primary medium and no multiple media |
| Catalog.FindBySlug | src/data/products.ts:125 | `find` fails exactly when no product has the slug, otherwise it returns a position holding it |
| Catalog.MediaOrFallback | src/data/products.ts:130-134 | the product page's media are never empty: the static gallery when it has items, else a single image built from the product's `image` |
| Catalog.GetProductWithMedia | src/data/products.ts:124-135 | null exactly for an unknown slug; otherwise the product with that slug plus the static gallery, or the single-image fallback when that is empty |
| Catalog.SlugsFollowTable | src/data/products.ts:19-119 | the catalogue and the media table list the same slugs in the same order |
| Catalog.ProductsDistinct | src/data/products.ts:19-119 | no two products share an id or a slug |
| Catalog.EveryProductFound | src/data/products.ts:124-126 | every product is the one its own slug finds, so each product page is reachable |
| Catalog.EveryProductHasGallery | src/data/products.ts:124-135 | every shipped product is found and gets its own static gallery, never the fallback |
| Catalog.ImagesInOwnFolder | src/data/products.ts:19-119 | every product's `image` lies in its own media folder |
| Catalog.ImageInOwnFolder | src/data/products.ts:19-119 | the product at any given position has its `image` in its own media folder |
| Catalog.FallbackGallery | src/data/products.ts:130-134 | a product without a table entry gets the single-image fallback |
| Catalog.UnknownSlug | src/data/products.ts:126 | an unknown slug gives null |
| ShippedSearch.SmartSearch | src/data/products.ts:19-119 | searching the shipped catalogue for "smart" lists exactly products 2 and 7 |
| ShippedSearch.WirelessSearch | src/data/products.ts:19-119 | searching the shipped catalogue for "wireless" lists exactly products 1, 6 and 8 |
| ShippedSearch.ShortTermFillsList | src/components/SearchWithResults.tsx:54-58 | "e" matches more than six shipped products, so the list is cut to products 1 to 6 and an open, idle panel lists them with "View all results" |
| ShippedSearch.FewResultsAllShown | src/components/SearchWithResults.tsx:54-58 | with at most six matches the list is all of them |
| ShippedSearch.LeadingMatchesKept | src/components/SearchWithResults.tsx:54-57 | when the first n products match, the filtered list starts with them |
| Slideshow.Next | src/components/ProductMediaSlideshow.tsx:43-47 | from a valid position the next one is valid and one step further round the circle |
| Slideshow.Previous | src/components/ProductMediaSlideshow.tsx:37-41 | from a valid position the previous one is valid and one step back round the circle |
| Slideshow.NextPreviousInverse | src/components/ProductMediaSlideshow.tsx:37-47 | each arrow undoes the other |
| Slideshow.ForwardIsModular | src/components/ProductMediaSlideshow.tsx:43-47 | k presses of "next" move k places modulo the number of items |
| Slideshow.FullRound | src/components/ProductMediaSlideshow.tsx:43-47 | n presses of "next" return to the starting slide |
| Slideshow.SingleItemStays | src/components/ProductMediaSlideshow.tsx:37-47 | with one item both arrows stay on it |
| Slideshow.EveryItemReachable | src/components/ProductMediaSlideshow.tsx:43-47 | every item is reached from the first by "next" presses |
| Slideshow.Render | src/components/ProductMediaSlideshow.tsx:17-158 | no media gives the placeholder; otherwise the current item shows, with the spinner while loading and the video badge for a video; arrows, counter, thumbnails and hint appear exactly for more than one item |
| Slideshow.RenderHighlightsOne | src/components/ProductMediaSlideshow.tsx:104-133 | the counter reads between 1 and n, and exactly the current thumbnail is highlighted |
| Slideshow.KeyAction | src/components/ProductMediaSlideshow.tsx:164-188 | an inactive hook installs no listener; ArrowLeft calls the previous callback, ArrowRight the next, other keys nothing |
| Slideshow.PreventsDefaultSpec | src/components/ProductMediaSlideshow.tsx:172-183 | `preventDefault` is called exactly for the two arrow keys while active |
| Slideshow.Mounted | src/components/ProductMediaSlideshow.tsx:13-15 | the mount effect clears the spinner and keeps the position |
| Slideshow.Apply | src/components/ProductMediaSlideshow.tsx:33-47 | an offered action keeps the position valid; the left arrow moves to `Previous`, the right arrow to `Next`, and a thumbnail click to its position |
| Slideshow.ApplyAll | src/components/ProductMediaSlideshow.tsx:30-47 | after any sequence of offered actions the current index is valid, so the render never reads past the list |
| Slideshow.PressAsWritten | src/components/ProductMediaSlideshow.tsx:9-161 | with no listener installed, a key press leaves the gallery unchanged |
| Slideshow.HintWithoutListener | src/components/ProductMediaSlideshow.tsx:153-158 | a two-item gallery shows the arrow-key hint, yet ArrowRight does not advance |
| Slideshow.Press | src/components/ProductMediaSlideshow.tsx:164-188 | with the hook wired, ArrowRight moves to the next item and ArrowLeft to the previous one when there is more than one item; other keys change nothing |
| Slideshow.PressInverse | src/components/ProductMediaSlideshow.tsx:172-183 | with the keys wired, the left arrow undoes the right arrow and vice versa |
| RouteGuard.UnderAny | src/middleware/auth.ts:23-29 | true exactly when the path equals some route or continues it after a '/' |
| RouteGuard.ProtectedSpec | src/middleware/auth.ts:5-25 | the listed protected routes amount to "/account" and everything under "/account/" |
| RouteGuard.AuthRouteSpec | src/middleware/auth.ts:13-29 | the listed auth routes amount to the paths under "/auth/login" or "/auth/signup" |
| RouteGuard.IsProtected | src/middleware/auth.ts:23-25 | a path is protected exactly when it is "/account" or starts with "/account/" |
| RouteGuard.IsAuthRoute | src/middleware/auth.ts:27-29 | a path is an auth route exactly when it is "/auth/login" or "/auth/signup" or lies under one of them |
| RouteGuard.RoutesDisjoint | src/middleware/auth.ts:5-29 | no path is both protected and an auth route |
| RouteGuard.ClassificationExamples | src/middleware/auth.ts:23-29 | "/account/orders/1" is protected, "/accounts" is not; "/auth/signup/" is an auth route, "/auth/loginx" is not |
| RouteGuard.BearerToken | src/middleware/auth.ts:32-36 | a token exists exactly for a header starting with "Bearer ", and "Bearer " followed by the token is the header |
| RouteGuard.BearerRoundTrip | src/middleware/auth.ts:35-36 | the text after "Bearer " is handed on unchanged |
| RouteGuard.OtherSchemes | src/middleware/auth.ts:35 | a missing header, "bearer …" and "Basic …" give no token |
| RouteGuard.SessionOf | src/middleware/auth.ts:32-45 | a session exists exactly when there is a token and validation returned a user without error; it is that user |
| RouteGuard.Decide | src/middleware/auth.ts:47-59 | redirect to login exactly for a protected path without a session; to the account exactly for an auth path with one; otherwise pass through |
| RouteGuard.Guard | src/middleware/auth.ts:18-60 | only the two redirect targets occur, each exactly under its condition on the request's session |
| RouteGuard.SingleRedirectRule | src/middleware/auth.ts:47-56 | a protected path never redirects to the account and an auth path never to login |
| RouteGuard.NoTokenNoSession | src/middleware/auth.ts:32-56 | without a usable token a protected page redirects to login and an auth page is served |
| RouteGuard.ThrowingValidation | src/middleware/auth.ts:37-44 | a validation that throws counts as no session |
| RouteGuard.CheckAuth | src/middleware/auth.ts:66-70 | navigation to login happens exactly when not loading and no user |
| RouteGuard.RequireAuth | src/middleware/auth.ts:63-79 | outside a browser nothing happens; otherwise at most two navigations, all to login, and some exactly when either check fires |
| RouteGuard.RequireAuthKeeps | src/middleware/auth.ts:63-79 | a signed-in or still-loading state at both checks is never sent away |
| AuthStore.InitializeUnconfigured | src/lib/auth-store.ts:16-20 | without a client only `loading` is cleared |
| AuthStore.OnSession | src/lib/auth-store.ts:24-41 | the session is stored, the user is present exactly with a session and is its user, `loading` is cleared |
| AuthStore.SessionDecidesAuthentication | src/lib/auth-store.ts:228-235 | after a session event the store is authenticated exactly with a session, and reports that session's user |
| AuthStore.IsAuthenticated | src/lib/auth-store.ts:228-230 | signed in exactly when the store holds a current user |
| AuthStore.InitiallySignedOut | src/lib/auth-store.ts:6-8 | the initial atoms are loading and signed out |
| AuthStore.SignupAddress | src/lib/auth-store.ts:79-80 | an address is found exactly when the metadata holds an address under "address" |
| AuthStore.HomeRow | src/lib/auth-store.ts:92-105 | the inserted row is a default shipping address named "Home" with the metadata's fields; an empty phone becomes null |
| AuthStore.FirstTimeLogin | src/lib/auth-store.ts:72-117 | the table is unchanged or gains exactly the Home row at the end; nothing happens without a client or a sign-up address, when the query found rows, or when the insert fails; otherwise the row is added |
| AuthStore.FirstTimeLoginKeepsValid | src/lib/auth-store.ts:72-117 | when the existing-address query answers, the insert keeps ids unique and at most one default per user and type |
| AuthStore.FailedSelectStillInserts | src/lib/auth-store.ts:83-105 | a failed existing-address query lets a second default shipping address in |
| AuthStore.SignUpMetadata | src/lib/auth-store.ts:126-130 | the metadata holds "name" (empty when none is given) and every extra key, extra keys overriding |
| AuthStore.SignUpAddressReachesFirstLogin | src/lib/auth-store.ts:120-130 | an address passed at sign-up is the one the first sign-in finds |
| AuthStore.SignUp | src/lib/auth-store.ts:120-141 | unconfigured fails with "Supabase not configured"; a service error is rethrown; success sends the sign-up metadata |
| AuthStore.UpdatePassword | src/lib/auth-store.ts:198-206 | succeeds exactly when configured and the service reports no error; otherwise the matching error |
| AuthStore.UpdateProfile | src/lib/auth-store.ts:208-225 | the client is checked first, then the user; succeeds exactly when both hold and the service reports no error, and otherwise rethrows the service's error |
| Addresses.CurrentUser | src/lib/supabase.ts:162-165 | unconfigured and signed-out sessions fail with their messages; otherwise the user's id |
| Addresses.ClearDefaults | src/lib/supabase.ts:167-174 | same rows in the same order with only `is_default` possibly changed; cleared exactly for the user's rows of the type |
| Addresses.ClearDefaultsValid | src/lib/supabase.ts:167-174 | clearing keeps the invariant and leaves the user no default of that type |
| Addresses.ApplyPatch | src/lib/supabase.ts:214-223 | id and owner are kept; each field the patch names is written, the others kept |
| Addresses.MakeDefaultOnlyFlag | src/lib/supabase.ts:255-261 | `{ is_default: true }` changes only the flag |
| Addresses.CountOwned | src/lib/supabase.ts:214-220 | the filter selects no row exactly when no row has that id and owner |
| Addresses.FindOwned | src/lib/supabase.ts:214-220 | the first selected row, or none exactly when none is selected |
| Addresses.CountOwnedUnique | src/lib/supabase.ts:214-220 | with unique ids the filter selects at most one row, the found one |
| Addresses.UpdateOwned | src/lib/supabase.ts:214-218 | selected rows get the patch; all other rows are unchanged |
| Addresses.UpdateSingle | src/lib/supabase.ts:214-223 | success exactly without error and with exactly one selected row, returning it patched; otherwise the error and an unchanged table |
| Addresses.Create | src/lib/supabase.ts:151-187 | guard errors leave the table; success appends the new row owned by the user to the table as it stands after the clearing, so an ignored failed clearing leaves every existing row as it was; a default clears the user's other defaults of that type first; a failed insert leaves that clearing applied |
| Addresses.CreateKeepsValid | src/lib/supabase.ts:151-187 | with the clearing statement effective, creating keeps ids unique and one default per user and type |
| Addresses.Update | src/lib/supabase.ts:189-224 | guard errors leave the table; without a default+type patch it is the single-row update; with one, it is the single-row update on the table whose user defaults of the patch's type were cleared when that statement took effect; other users' rows never change; a returned row is the caller's |
| Addresses.UpdateKeepsValid | src/lib/supabase.ts:189-224 | with the form's full patch and an effective clearing statement, updating keeps the invariant |
| Addresses.UpdateWithoutTypeBreaksRule | src/lib/supabase.ts:205-220 | making a row the default without naming its type skips clearing and yields two defaults |
| Addresses.DeleteOwned | src/lib/supabase.ts:232-236 | exactly the rows not selected remain |
| Addresses.Delete | src/lib/supabase.ts:226-239 | guard errors and service errors leave the table; success removes exactly the caller's row with that id, and a missing row is no error |
| Addresses.DeleteOwnedValid | src/lib/supabase.ts:232-236 | deleting keeps the invariant |
| Addresses.DeleteKeepsValid | src/lib/supabase.ts:226-239 | `deleteAddress` keeps the invariant |
| Addresses.SetDefault | src/lib/supabase.ts:241-265 | the table keeps its length; for a signed-in caller the call is `.single()` of the default flag on row (id, user) over the table as it stands after the clearing, so a failed clearing leaves the other rows as they were; success exactly without error and with one selected row, which is returned as default; a failed final update leaves the clearing applied |
| Addresses.CountOwnedSame | src/lib/supabase.ts:255-260 | tables selecting the same positions select the same number of rows |
| Addresses.SetDefaultSpec | src/lib/supabase.ts:241-265 | on success the chosen row is the default, other users' rows are untouched and the user's rows of the other type keep their flags, whether or not the clearing took effect; with the clearing applied the chosen row is the only default of the type, and without it every other row is unchanged |
| Addresses.SetDefaultKeepsValid | src/lib/supabase.ts:241-265 | passing the row's own type keeps the invariant |
| Addresses.SetDefaultWrongTypeBreaksRule | src/lib/supabase.ts:248-260 | passing another type than the row's leaves two defaults of the row's type |
| Addresses.FailedSetDefaultLeavesNoDefault | src/lib/supabase.ts:247-264 | a failed final update after an effective clearing statement leaves the user with no default of that type |
| Addresses.IgnoredClearFailureBreaksRule | src/lib/supabase.ts:167-186 | when the ignored clearing statement fails, a new default joins the old one |
| ProfileSettings.ChangePassword | src/components/auth/ProfileSettingsForm.tsx:46-75 | the mismatch check, then the six-character check, each leaving the inputs and calling nothing; otherwise exactly the new password is sent; success clears the inputs with the success message; failure keeps them with the error or "Failed to update password"; `loading` always ends false |
| ProfileSettings.MismatchReportedFirst | src/components/auth/ProfileSettingsForm.tsx:52-62 | a short pair that differs reports the mismatch |
| ProfileSettings.CurrentPasswordIgnored | src/components/auth/ProfileSettingsForm.tsx:46-75 | the current password affects neither the call nor the messages |
| ProfileSettings.EnabledFormsCanFail | src/components/auth/ProfileSettingsForm.tsx:248 | an enabled button still allows both check failures |
| ProfileSettings.SuccessDisablesSubmit | src/components/auth/ProfileSettingsForm.tsx:248 | a successful change disables the button again |
| UserMenu.LocalPart | src/components/auth/UserMenu.tsx:54 | a prefix of the e-mail without '@', followed by '@' when shorter |
| UserMenu.UserName | src/components/auth/UserMenu.tsx:54 | never empty: a non-empty metadata name, else a non-empty local part, else "User" |
| UserMenu.LocalPartBeforeAt | src/components/auth/UserMenu.tsx:54 | the local part of a + "@" + domain is a |
| UserMenu.NameFallbacks | src/components/auth/UserMenu.tsx:54 | "ada@example.com" gives "ada", with or without an empty name; "@example.com" and no e-mail give "User" |
| UserMenu.Firsts | src/components/auth/UserMenu.tsx:55 | at most one character per word |
| UserMenu.FirstsAreWordStarts | src/components/auth/UserMenu.tsx:55 | splitting on ' ' and taking first characters gives exactly the characters that open a word |
| UserMenu.Initials | src/components/auth/UserMenu.tsx:55 | at most two characters, none lower-case: the first two word starts upper-cased |
| UserMenu.InitialsOfThreeWords | src/components/auth/UserMenu.tsx:55 | three words give the upper-cased first letters of the first two |
| UserMenu.InitialsIgnoreExtraSpaces | src/components/auth/UserMenu.tsx:55 | leading, trailing and doubled spaces do not change the initials |
| UserMenu.Render | src/components/auth/UserMenu.tsx:35-119 | the skeleton exactly while loading, the sign-in button exactly when loaded without a user, else the menu with the user's name and initials |
| UserMenu.OnMenuEvent | src/components/auth/UserMenu.tsx:14-94 | the avatar toggles; outside clicks, links and a successful sign-out close; inside clicks and a failed sign-out keep the state |
| UserMenu.MenuToggles | src/components/auth/UserMenu.tsx:14-60 | two avatar clicks restore the menu; an outside click always closes it |
| OrderHistory.FormatStatus | src/components/auth/OrderHistory.tsx:50-52 | same length; the first character upper-cased and the rest kept |
| OrderHistory.FormatStatusIdempotent | src/components/auth/OrderHistory.tsx:50-52 | formatting twice is formatting once, and only the first character's case changes |
| OrderHistory.FormatStatusExample | src/components/auth/OrderHistory.tsx:50-52 | "shipped" becomes "Shipped" and "" stays "" |
| OrderHistory.StatusColor | src/components/auth/OrderHistory.tsx:54-67 | gray exactly for a status outside the four known ones; each known status has its colour |
| OrderHistory.ColorsDistinct | src/components/auth/OrderHistory.tsx:56-66 | the five colour classes are pairwise distinct |
| OrderHistory.StatusColorsSpec | src/components/auth/OrderHistory.tsx:54-67 | the switch is case-sensitive ("Delivered" is gray) and the four statuses get four colours |
| OrderHistory.OrderLabel | src/components/auth/OrderHistory.tsx:143 | the last min(8, length) characters of the id |
| OrderHistory.OrderLabelExample | src/components/auth/OrderHistory.tsx:143 | a UUID shows its last eight characters, a short id all of it |
| OrderHistory.CurrencySymbol | src/components/auth/OrderHistory.tsx:151 | "£" exactly for "GBP", "$" for anything else |
| OrderHistory.OrderHeader | src/components/auth/OrderHistory.tsx:136-160 | the order number ends the id; the symbol is "£" exactly for "GBP"; the status keeps its length and is gray exactly when unknown |
| OrderHistory.Render | src/components/auth/OrderHistory.tsx:69-131 | views by precedence: sign-in prompt without a user, skeleton while loading, the error message itself when one is set, "no orders" for an empty list, else the list |
| OrderHistory.LoadStarted | src/components/auth/OrderHistory.tsx:36-40 | without a user nothing changes, otherwise `loading` is set |
| OrderHistory.LoadFinished | src/components/auth/OrderHistory.tsx:40-47 | `loading` ends false; success stores the orders and keeps the error; failure stores the message or the fallback; an error is never reset |
| OrderHistory.Load | src/components/auth/OrderHistory.tsx:36-48 | a failed load shows the error view |
| OrderHistory.SkeletonWhileLoading | src/components/auth/OrderHistory.tsx:77-89 | while a load is in flight the skeleton shows |
| OrderHistory.ErrorSurvivesRetry | src/components/auth/OrderHistory.tsx:36-105 | after a failure, a successful retry still shows the old error |
| OrderHistory.SuccessfulFirstLoad | src/components/auth/OrderHistory.tsx:36-131 | a successful first load shows the list, or "no orders" when empty |
| Stores.BoolText | src/lib/stores.ts:38 | "true" exactly for true |
| Stores.RestoreText | src/lib/stores.ts:11-19 | a saved non-empty value wins; a missing or empty one keeps the current value |
| Stores.Restore | src/lib/stores.ts:10-24 | locale and currency restored as above; dark mode is exactly whether the saved text is "true", when one is saved |
| Stores.OnlyTrueIsDark | src/lib/stores.ts:21-24 | any saved dark-mode text other than "true" restores false |
| Stores.Persisted | src/lib/stores.ts:27-48 | the three keys are written with the preferences' texts, other keys kept |
| Stores.PersistRestore | src/lib/stores.ts:9-48 | persisting then restoring gives the preferences back when the texts are non-empty |
| Stores.EmptyLocaleNotRestored | src/lib/stores.ts:11-14 | an empty locale is written but restores the default "en" |
| Stores.Initialize | src/lib/stores.ts:9-50 | without `localStorage` nothing changes; otherwise preferences are restored, written back at once, one currency event sent, the dark class set |
| Stores.Apply | src/lib/stores.ts:27-48 | a change sets its atom; it reaches the subscriptions exactly when they are installed and the value changes, and then writes the new value under its key (dark mode also sets the page class); a currency event is sent exactly for a new currency; otherwise storage, events and class are unchanged, and other keys are always kept |
| Stores.InitializeSyncs | src/lib/stores.ts:9-50 | after initialisation storage and page agree with the preferences |
| Stores.ApplyKeepsSynced | src/lib/stores.ts:27-48 | every change keeps storage and page in agreement |
| Stores.ChangesArePersisted | src/lib/stores.ts:9-50 | after any changes the storage holds the current preferences, so a reload restores them |
| Stores.NoStorageNoWrites | src/lib/stores.ts:10 | without `localStorage` no change writes anything |
| Stores.CurrencySymbolsSpec | src/lib/stores.ts:53-57 | USD, EUR and GBP have "$", "€" and "£", pairwise distinct |

## Left out

- React rendering, the DOM and CSS classes beyond the ones a contract names. Views are datatypes; event handlers are functions.
- Asynchronous interleavings. Every awaited call is one atomic step whose answer is a parameter. In particular the window between `createAddress`'s clearing statement and its insert is not modelled.
- The Supabase client itself, including auth, `select` and `insert`. Its answers are inputs. Database column defaults are assumed false for `is_default`.
- `getProducts`, `getProductBySlug`, `getProductsByCategory`, `searchProducts`, `createOrder`, `createOrderItems`, `getUserOrders` and `getUserAddresses` in supabase.ts. They are read or insert wrappers that return the service's answer unchanged.
- `signIn`, `signInWithGoogle`, `signOut` and `resetPassword` in auth-store.ts. Each forwards to the service and rethrows, with no logic of its own beyond the guard `UpdatePassword` already models.
- `handleProfileUpdate` in ProfileSettingsForm.tsx. It forwards to `updateProfile`, which `AuthStore.UpdateProfile` models.
- The runtime HEAD probing in `getProductMedia`. It needs the network, so the probed files are a parameter of `Media.ProductMedia`. `import.meta.glob` is likewise a parameter: the list of paths.
- Floating point: `convertPrice`, `currencyRates` and every `toFixed(2)`. Prices are integer pence and never formatted.
- Unicode case mapping. `toLowerCase` and `toUpperCase` are modelled on ASCII letters only, and `String.length` as the number of characters rather than UTF-16 code units.
- Media.CompareNamesAntisymmetric: `localeCompare` is modelled as code-point lexicographic order, not the locale's collation.
- Prototype keys of `PRODUCT_MEDIA` (a slug such as "constructor") are not modelled. Lookup only finds listed keys.
- Snipcart, `sessionStorage` and the remaining components (AddressBookManager, LoginForm, the header variants and DarkModeToggle). They are not part of this model.
- The slideshow index when the `media` prop shrinks under a mounted component. The model keeps the list fixed per gallery.
- A truthy non-object `user_metadata.address` is read as no address (`AuthStore.SignupAddress`).
- The `.single()` rollback. An update selecting zero or several rows is taken to change nothing.
- AuthStore.FirstTimeLoginKeepsValid: proved only when the existing-address query answers. When it fails, the invariant can break, as `AuthStore.FailedSelectStillInserts` shows.
- Addresses.CreateKeepsValid: proved only when the clearing statement takes effect, because its error is ignored (`Addresses.IgnoredClearFailureBreaksRule`).
- Addresses.UpdateKeepsValid: requires the form's full patch (type and default flag together). A patch without the type breaks the rule (`Addresses.UpdateWithoutTypeBreaksRule`).
- Addresses.SetDefaultKeepsValid: requires the row's own type, which is what the address book passes. Another type breaks the rule (`Addresses.SetDefaultWrongTypeBreaksRule`).

## Findings

| source | as written | input that shows it | evidently intended | confidence | as-written member | corrected member |
|---|---|---|---|---|---|---|
| src/components/ProductMediaSlideshow.tsx:153-188 | the slideshow shows "Use arrow keys or click thumbnails to navigate" but never calls `useKeyboardNavigation`, so no key listener exists | a gallery of two images, ArrowRight pressed: the index stays 0 | the hook active while there is more than one item, wired to `goToPrevious` and `goToNext` | not executed | Slideshow.HintWithoutListener | Slideshow.Press |

=== FILE: addresses.dfy ===
/** The address-book operations of src/lib/supabase.ts over an abstract
    `user_addresses` table.  Each operation checks the client and the signed-in
    user first, then runs one or two statements against the table.  The
    database's part is an input: whether the default-clearing statement took
    effect (its error is ignored by the source), and the error, if any, of the
    final statement. */
module Addresses {
  import opened Wrappers

  datatype Kind = Shipping | Billing

  /** The free-text fields of an address. */
  datatype Details = Details(
    name: string,
    street: string,
    city: string,
    state: string,
    postalCode: string,
    country: string,
    phone: Option<string>)

  /** A row of `user_addresses`. */
  datatype Address = Address(id: string, userId: string, kind: Kind, details: Details, isDefault: bool)

  type Table = seq<Address>

  /** Whether a client exists (`isSupabaseConfigured`) and who is signed in. */
  datatype Session = Session(configured: bool, user: Option<string>)

  /** The table after an operation, and what the operation returned or threw. */
  datatype Reply<T> = Reply(table: Table, result: Result<T>)

  const NotConfigured := "Supabase not configured"
  const NoUser := "No user logged in"
  /** The error `.single()` raises when a statement does not yield exactly one row. */
  const NotSingle := "JSON object requested, multiple (or no) rows returned"
  /** The primary-key violation of an insert whose id is taken. */
  const DuplicateId := "duplicate key value violates unique constraint"

  /** The guards every operation runs first. */
  function CurrentUser(s: Session): (r: Result<string>)
    ensures !s.configured ==> r == Err(NotConfigured)
    ensures s.configured && s.user.None? ==> r == Err(NoUser)
    ensures r.Ok? <==> s.configured && s.user.Some?
    ensures r.Ok? ==> r.value == s.user.value
  {
    if !s.configured then Err(NotConfigured)
    else if s.user.None? then Err(NoUser)
    else Ok(s.user.value)
  }

  // ---------------------------------------------------------------------------
  // The table invariant
  // ---------------------------------------------------------------------------

  /** Two rows that are both the default for the same user and type. */
  predicate Clash(a: Address, b: Address) {
    a.isDefault && b.isDefault && a.userId == b.userId && a.kind == b.kind
  }

  /** At most one default address per user and type. */
  predicate OneDefault(t: Table) {
    forall i, j :: 0 <= i < |t| && 0 <= j < |t| && i != j ==> !Clash(t[i], t[j])
  }

  predicate UniqueIds(t: Table) {
    forall i, j :: 0 <= i < |t| && 0 <= j < |t| && i != j ==> t[i].id != t[j].id
  }

  predicate Valid(t: Table) {
    UniqueIds(t) && OneDefault(t)
  }

  /** The row an `.eq('id', id).eq('user_id', user)` filter selects. */
  predicate Owned(a: Address, id: string, user: string) {
    a.id == id && a.userId == user
  }

  // ---------------------------------------------------------------------------
  // Statements
  // ---------------------------------------------------------------------------

  /** `update({ is_default: false }).eq('user_id', user).eq('type', kind)`. */
  function ClearDefaults(t: Table, user: string, kind: Kind): (r: Table)
    ensures |r| == |t|
    ensures forall i :: 0 <= i < |t| ==> r[i] == t[i].(isDefault := r[i].isDefault)
    ensures forall i :: 0 <= i < |t| ==>
              (r[i].isDefault <==> t[i].isDefault && !(t[i].userId == user && t[i].kind == kind))
  {
    seq(|t|, i requires 0 <= i < |t| =>
      if t[i].userId == user && t[i].kind == kind then t[i].(isDefault := false) else t[i])
  }

  /** Clearing keeps the invariant and leaves no default of that user and type. */
  lemma ClearDefaultsValid(t: Table, user: string, kind: Kind)
    requires Valid(t)
    ensures Valid(ClearDefaults(t, user, kind))
    ensures forall i :: 0 <= i < |t| ==>
              var a := ClearDefaults(t, user, kind)[i];
              !(a.isDefault && a.userId == user && a.kind == kind)
  {
    var r := ClearDefaults(t, user, kind);
    forall i, j | 0 <= i < |r| && 0 <= j < |r| && i != j
      ensures r[i].id != r[j].id && !Clash(r[i], r[j])
    {
      assert !Clash(t[i], t[j]);
    }
  }

  /** The fields an `updateAddress` call may carry; absent ones are `None`. */
  datatype Patch = Patch(
    kind: Option<Kind>,
    name: Option<string>,
    street: Option<string>,
    city: Option<string>,
    state: Option<string>,
    postalCode: Option<string>,
    country: Option<string>,
    phone: Option<string>,
    isDefault: Option<bool>)

  /** `{ is_default: true }`. */
  const MakeDefault := Patch(None, None, None, None, None, None, None, None, Some(true))

  /** A row with the patch's fields written over it. */
  function ApplyPatch(a: Address, p: Patch): (r: Address)
    ensures r.id == a.id && r.userId == a.userId
    ensures p.kind.None? ==> r.kind == a.kind
    ensures p.isDefault.None? ==> r.isDefault == a.isDefault
    ensures p.kind.Some? ==> r.kind == p.kind.value
    ensures p.isDefault.Some? ==> r.isDefault == p.isDefault.value
  {
    var d := a.details;
    Address(a.id, a.userId, p.kind.GetOr(a.kind),
      Details(p.name.GetOr(d.name), p.street.GetOr(d.street), p.city.GetOr(d.city),
              p.state.GetOr(d.state), p.postalCode.GetOr(d.postalCode),
              p.country.GetOr(d.country), if p.phone.Some? then p.phone else d.phone),
      p.isDefault.GetOr(a.isDefault))
  }

  /** Only `is_default` changes under `{ is_default: true }`. */
  lemma MakeDefaultOnlyFlag(a: Address)
    ensures ApplyPatch(a, MakeDefault) == a.(isDefault := true)
  {
  }

  /** How many rows the id/user filter selects. */
  function CountOwned(t: Table, id: string, user: string): (r: nat)
    ensures r <= |t|
    ensures r == 0 <==> forall i :: 0 <= i < |t| ==> !Owned(t[i], id, user)
  {
    if |t| == 0 then 0
    else (if Owned(t[0], id, user) then 1 else 0) + CountOwned(t[1..], id, user)
  }

  /** The position of the first selected row. */
  function FindOwned(t: Table, id: string, user: string): (r: Option<nat>)
    ensures r.None? <==> forall i :: 0 <= i < |t| ==> !Owned(t[i], id, user)
    ensures r.Some? ==> r.value < |t| && Owned(t[r.value], id, user)
  {
    if |t| == 0 then None
    else if Owned(t[0], id, user) then Some(0)
    else match FindOwned(t[1..], id, user)
      case None => None
      case Some(i) => Some(i + 1)
  }

  /** With unique ids the filter selects at most one row. */
  lemma {:induction false} CountOwnedUnique(t: Table, id: string, user: string)
    requires UniqueIds(t)
    ensures CountOwned(t, id, user) <= 1
    ensures CountOwned(t, id, user) == 1 ==>
              forall i :: 0 <= i < |t| && Owned(t[i], id, user) ==> i == FindOwned(t, id, user).value
    decreases |t|
  {
    if |t| > 0 {
      assert UniqueIds(t[1..]) by {
        forall i, j | 0 <= i < |t| - 1 && 0 <= j < |t| - 1 && i != j
          ensures t[1..][i].id != t[1..][j].id
        {
          assert t[1..][i] == t[i + 1] && t[1..][j] == t[j + 1];
        }
      }
      CountOwnedUnique(t[1..], id, user);
      if Owned(t[0], id, user) {
        forall i | 1 <= i < |t| ensures !Owned(t[i], id, user) {
          assert t[i].id != t[0].id;
        }
        assert forall i :: 0 <= i < |t| - 1 ==> !Owned(t[1..][i], id, user);
      } else if CountOwned(t, id, user) == 1 {
        forall i | 0 <= i < |t| && Owned(t[i], id, user)
          ensures i == FindOwned(t, id, user).value
        {
          assert t[1..][i - 1] == t[i];
        }
      }
    }
  }

  /** `update(p).eq('id', id).eq('user_id', user)`. */
  function UpdateOwned(t: Table, id: string, user: string, p: Patch): (r: Table)
    ensures |r| == |t|
    ensures forall i :: 0 <= i < |t| && !Owned(t[i], id, user) ==> r[i] == t[i]
    ensures forall i :: 0 <= i < |t| && Owned(t[i], id, user) ==> r[i] == ApplyPatch(t[i], p)
  {
    seq(|t|, i requires 0 <= i < |t| => if Owned(t[i], id, user) then ApplyPatch(t[i], p) else t[i])
  }

  /** An update ending in `.select().single()`: the statement's own error, or
      the `.single()` error unless exactly one row is selected (the statement
      is then rolled back), or the one updated row. */
  function UpdateSingle(t: Table, id: string, user: string, p: Patch, failure: Option<string>): (r: Reply<Address>)
    ensures r.result.Ok? <==> failure.None? && CountOwned(t, id, user) == 1
    ensures r.result.Err? ==> r.table == t
    ensures failure.Some? ==> r.result == Err(failure.value)
    ensures failure.None? && CountOwned(t, id, user) != 1 ==> r.result == Err(NotSingle)
    ensures r.result.Ok? ==>
              && r.table == UpdateOwned(t, id, user, p)
              && exists i :: 0 <= i < |t| && Owned(t[i], id, user) && r.result.value == ApplyPatch(t[i], p)
  {
    if failure.Some? then Reply(t, Err(failure.value))
    else if CountOwned(t, id, user) != 1 then Reply(t, Err(NotSingle))
    else
      var i := FindOwned(t, id, user).value;
      Reply(UpdateOwned(t, id, user, p), Ok(ApplyPatch(t[i], p)))
  }

  // ---------------------------------------------------------------------------
  // createAddress
  // ---------------------------------------------------------------------------

  /** The argument of `createAddress`; an absent `is_default` is `false`. */
  datatype NewAddress = NewAddress(kind: Kind, details: Details, isDefault: bool)

  /** `createAddress`: `newId` is the id the database generates. */
  function Create(t: Table, s: Session, data: NewAddress, newId: string,
                  clearApplied: bool, failure: Option<string>): (r: Reply<Address>)
    ensures CurrentUser(s).Err? ==> r == Reply(t, Err(CurrentUser(s).message))
    ensures r.result.Ok? <==>
              && CurrentUser(s).Ok? && failure.None?
              && forall i :: 0 <= i < |t| ==> t[i].id != newId
    ensures r.result.Ok? ==>
              && r.result.value == Address(newId, s.user.value, data.kind, data.details, data.isDefault)
              && |r.table| == |t| + 1
              && r.table[|t|] == r.result.value
              && forall i :: 0 <= i < |t| ==> r.table[i] == t[i].(isDefault := r.table[i].isDefault)
    ensures r.result.Ok? && !data.isDefault ==> r.table == t + [r.result.value]
    ensures r.result.Ok? && data.isDefault && clearApplied ==>
              forall i :: 0 <= i < |t| ==>
                (r.table[i].isDefault <==>
                   t[i].isDefault && !(t[i].userId == s.user.value && t[i].kind == data.kind))
    ensures CurrentUser(s).Ok? && r.result.Err? ==>
              r.table == (if data.isDefault && clearApplied then ClearDefaults(t, s.user.value, data.kind) else t)
    ensures r.result.Ok? ==>
              r.table == (if data.isDefault && clearApplied then ClearDefaults(t, s.user.value, data.kind) else t)
                         + [r.result.value]
  {
    match CurrentUser(s)
    case Err(e) => Reply(t, Err(e))
    case Ok(user) =>
      var cleared := if data.isDefault && clearApplied then ClearDefaults(t, user, data.kind) else t;
      if failure.Some? then Reply(cleared, Err(failure.value))
      else if exists i :: 0 <= i < |cleared| && cleared[i].id == newId then Reply(cleared, Err(DuplicateId))
      else
        var row := Address(newId, user, data.kind, data.details, data.isDefault);
        Reply(cleared + [row], Ok(row))
  }

  /** Once the clearing statement takes effect, creating an address keeps at
      most one default per user and type, and leaves ids unique. */
  lemma CreateKeepsValid(t: Table, s: Session, data: NewAddress, newId: string, failure: Option<string>)
    requires Valid(t)
    ensures Valid(Create(t, s, data, newId, true, failure).table)
  {
    if CurrentUser(s).Ok? {
      var user := s.user.value;
      var cleared := if data.isDefault then ClearDefaults(t, user, data.kind) else t;
      if data.isDefault { ClearDefaultsValid(t, user, data.kind); }
      var r := Create(t, s, data, newId, true, failure);
      if r.result.Ok? {
        var row := r.result.value;
        assert r.table == cleared + [row];
        forall i, j | 0 <= i < |r.table| && 0 <= j < |r.table| && i != j
          ensures r.table[i].id != r.table[j].id && !Clash(r.table[i], r.table[j])
        {
          if i < |t| && j < |t| {
            assert r.table[i] == cleared[i] && r.table[j] == cleared[j];
          }
        }
      } else {
        assert r.table == cleared;
      }
    }
  }

  // ---------------------------------------------------------------------------
  // updateAddress
  // ---------------------------------------------------------------------------

  /** `updates.is_default && updates.type`: clearing runs only when the patch
      makes the row a default and names its type. */
  predicate ClearsFirst(p: Patch) {
    p.isDefault == Some(true) && p.kind.Some?
  }

  /** `updateAddress`. */
  function Update(t: Table, s: Session, id: string, p: Patch,
                  clearApplied: bool, failure: Option<string>): (r: Reply<Address>)
    ensures CurrentUser(s).Err? ==> r == Reply(t, Err(CurrentUser(s).message))
    ensures CurrentUser(s).Ok? && !ClearsFirst(p) ==> r == UpdateSingle(t, id, s.user.value, p, failure)
    ensures |r.table| == |t|
    ensures forall i :: 0 <= i < |t| && t[i].userId != s.user.GetOr("") ==> r.table[i] == t[i]
    ensures r.result.Ok? ==> Owned(r.result.value, id, s.user.value)
    ensures CurrentUser(s).Ok? && ClearsFirst(p) ==>
              r == UpdateSingle(if clearApplied then ClearDefaults(t, s.user.value, p.kind.value) else t,
                                id, s.user.value, p, failure)
  {
    match CurrentUser(s)
    case Err(e) => Reply(t, Err(e))
    case Ok(user) =>
      var cleared := if ClearsFirst(p) && clearApplied then ClearDefaults(t, user, p.kind.value) else t;
      UpdateSingle(cleared, id, user, p, failure)
  }

  /** The form always sends the type and the default flag together. */
  predicate FullForm(p: Patch) {
    p.kind.Some? && p.isDefault.Some?
  }

  /** With the form's full patch and an effective clearing statement, an
      update keeps the invariant. */
  lemma UpdateKeepsValid(t: Table, s: Session, id: string, p: Patch, failure: Option<string>)
    requires Valid(t) && FullForm(p)
    ensures Valid(Update(t, s, id, p, true, failure).table)
  {
    if CurrentUser(s).Ok? {
      var user := s.user.value;
      var cleared := if ClearsFirst(p) then ClearDefaults(t, user, p.kind.value) else t;
      if ClearsFirst(p) { ClearDefaultsValid(t, user, p.kind.value); }
      var r := UpdateSingle(cleared, id, user, p, failure);
      if r.result.Ok? {
        var u := UpdateOwned(cleared, id, user, p);
        forall i, j | 0 <= i < |u| && 0 <= j < |u| && i != j
          ensures u[i].id != u[j].id && !Clash(u[i], u[j])
        {
          assert !Clash(cleared[i], cleared[j]);
        }
      }
    }
  }

  /** Making a row the default without naming its type skips the clearing
      statement, so two defaults of one type can result. */
  lemma UpdateWithoutTypeBreaksRule()
    ensures var d := Details("Home", "1 High St", "Leeds", "", "LS1", "UK", None);
            var t := [Address("a", "u", Shipping, d, true), Address("b", "u", Shipping, d, false)];
            var p := MakeDefault;
            && Valid(t)
            && Update(t, Session(true, Some("u")), "b", p, true, None).result.Ok?
            && !OneDefault(Update(t, Session(true, Some("u")), "b", p, true, None).table)
  {
    var d := Details("Home", "1 High St", "Leeds", "", "LS1", "UK", None);
    var t := [Address("a", "u", Shipping, d, true), Address("b", "u", Shipping, d, false)];
    assert !Owned(t[0], "b", "u");
    var r := Update(t, Session(true, Some("u")), "b", MakeDefault, true, None);
    assert r.table[0] == t[0];
    assert Clash(r.table[0], r.table[1]);
  }

  // ---------------------------------------------------------------------------
  // deleteAddress
  // ---------------------------------------------------------------------------

  /** `delete().eq('id', id).eq('user_id', user)`: every other row, in order. */
  function DeleteOwned(t: Table, id: string, user: string): (r: Table)
    ensures |r| <= |t|
    ensures forall a :: a in r <==> a in t && !Owned(a, id, user)
  {
    if |t| == 0 then []
    else if Owned(t[0], id, user) then DeleteOwned(t[1..], id, user)
    else [t[0]] + DeleteOwned(t[1..], id, user)
  }

  /** `deleteAddress`: deleting a missing row is not an error. */
  function Delete(t: Table, s: Session, id: string, failure: Option<string>): (r: Reply<()>)
    ensures CurrentUser(s).Err? ==> r == Reply(t, Err(CurrentUser(s).message))
    ensures r.result.Ok? <==> CurrentUser(s).Ok? && failure.None?
    ensures r.result.Err? ==> r.table == t
    ensures r.result.Ok? ==> forall a :: a in r.table <==> a in t && !Owned(a, id, s.user.value)
  {
    match CurrentUser(s)
    case Err(e) => Reply(t, Err(e))
    case Ok(user) =>
      if failure.Some? then Reply(t, Err(failure.value))
      else Reply(DeleteOwned(t, id, user), Ok(()))
  }

  /** Deleting keeps only rows of the table, in their order, so the invariant
      survives. */
  lemma {:induction false} DeleteOwnedValid(t: Table, id: string, user: string)
    requires Valid(t)
    ensures Valid(DeleteOwned(t, id, user))
    decreases |t|
  {
    if |t| > 0 {
      var rest := t[1..];
      assert Valid(rest) by {
        forall i, j | 0 <= i < |rest| && 0 <= j < |rest| && i != j
          ensures rest[i].id != rest[j].id && !Clash(rest[i], rest[j])
        {
          assert rest[i] == t[i + 1] && rest[j] == t[j + 1];
        }
      }
      DeleteOwnedValid(rest, id, user);
      if !Owned(t[0], id, user) {
        var d := DeleteOwned(rest, id, user);
        var r := [t[0]] + d;
        forall i, j | 0 <= i < |r| && 0 <= j < |r| && i != j
          ensures r[i].id != r[j].id && !Clash(r[i], r[j])
        {
          if i == 0 || j == 0 {
            var k := if i == 0 then j else i;
            assert r[k] in rest;
            var m :| 0 <= m < |rest| && rest[m] == r[k];
            assert t[m + 1] == r[k];
          }
        }
      }
    }
  }

  lemma DeleteKeepsValid(t: Table, s: Session, id: string, failure: Option<string>)
    requires Valid(t)
    ensures Valid(Delete(t, s, id, failure).table)
  {
    if CurrentUser(s).Ok? {
      DeleteOwnedValid(t, id, s.user.value);
    }
  }

  // ---------------------------------------------------------------------------
  // setDefaultAddress
  // ---------------------------------------------------------------------------

  /** `setDefaultAddress(id, kind)`: clear the user's defaults of `kind`, then
      mark the row (id, user) as default. */
  function SetDefault(t: Table, s: Session, id: string, kind: Kind,
                      clearApplied: bool, failure: Option<string>): (r: Reply<Address>)
    ensures CurrentUser(s).Err? ==> r == Reply(t, Err(CurrentUser(s).message))
    ensures |r.table| == |t|
    ensures r.result.Ok? <==> CurrentUser(s).Ok? && failure.None? && CountOwned(t, id, s.user.value) == 1
    ensures r.result.Ok? ==> Owned(r.result.value, id, s.user.value) && r.result.value.isDefault
    ensures CurrentUser(s).Ok? && r.result.Err? ==>
              r.table == (if clearApplied then ClearDefaults(t, s.user.value, kind) else t)
    ensures CurrentUser(s).Ok? ==>
              r == UpdateSingle(if clearApplied then ClearDefaults(t, s.user.value, kind) else t,
                                id, s.user.value, MakeDefault, failure)
  {
    match CurrentUser(s)
    case Err(e) => Reply(t, Err(e))
    case Ok(user) =>
      var cleared := if clearApplied then ClearDefaults(t, user, kind) else t;
      assert forall i :: 0 <= i < |t| ==> (Owned(cleared[i], id, user) <==> Owned(t[i], id, user));
      CountOwnedSame(t, cleared, id, user);
      UpdateSingle(cleared, id, user, MakeDefault, failure)
  }

  lemma {:induction false} CountOwnedSame(a: Table, b: Table, id: string, user: string)
    requires |a| == |b|
    requires forall i :: 0 <= i < |a| ==> (Owned(a[i], id, user) <==> Owned(b[i], id, user))
    ensures CountOwned(a, id, user) == CountOwned(b, id, user)
    decreases |a|
  {
    if |a| > 0 {
      CountOwnedSame(a[1..], b[1..], id, user);
    }
  }

  /** After a successful `setDefaultAddress(id, kind)`: the row is the
      default, other users' rows are untouched, and the user's rows of the
      other type keep their flags, whether or not the clearing statement took
      effect; when it did, every other row of the user with that type is not
      a default. */
  lemma SetDefaultSpec(t: Table, s: Session, id: string, kind: Kind, clearApplied: bool,
                       failure: Option<string>)
    requires UniqueIds(t)
    ensures var r := SetDefault(t, s, id, kind, clearApplied, failure);
            r.result.Ok? ==>
              var user := s.user.value;
              && (forall i :: 0 <= i < |t| && Owned(t[i], id, user) ==> r.table[i] == t[i].(isDefault := true))
              && (clearApplied ==>
                    forall i :: 0 <= i < |t| && !Owned(t[i], id, user) && t[i].userId == user && t[i].kind == kind
                      ==> r.table[i] == t[i].(isDefault := false))
              && (!clearApplied ==>
                    forall i :: 0 <= i < |t| && !Owned(t[i], id, user) ==> r.table[i] == t[i])
              && (forall i :: 0 <= i < |t| && t[i].userId != user ==> r.table[i] == t[i])
              && (forall i :: 0 <= i < |t| && !Owned(t[i], id, user) && t[i].kind != kind ==> r.table[i] == t[i])
  {
  }

  /** The row's own type, which is what the address book passes, keeps the
      invariant. */
  lemma SetDefaultKeepsValid(t: Table, s: Session, id: string, kind: Kind, failure: Option<string>)
    requires Valid(t)
    requires s.user.Some? ==> forall i :: 0 <= i < |t| && Owned(t[i], id, s.user.value) ==> t[i].kind == kind
    ensures Valid(SetDefault(t, s, id, kind, true, failure).table)
  {
    if CurrentUser(s).Ok? {
      var user := s.user.value;
      var cleared := ClearDefaults(t, user, kind);
      ClearDefaultsValid(t, user, kind);
      var r := SetDefault(t, s, id, kind, true, failure);
      if r.result.Ok? {
        var u := UpdateOwned(cleared, id, user, MakeDefault);
        assert r.table == u;
        forall i, j | 0 <= i < |u| && 0 <= j < |u| && i != j
          ensures u[i].id != u[j].id && !Clash(u[i], u[j])
        {
          assert !Clash(cleared[i], cleared[j]);
        }
      }
    }
  }

  /** Passing another type than the row's own leaves the row's type with two
      defaults. */
  lemma SetDefaultWrongTypeBreaksRule()
    ensures var d := Details("Home", "1 High St", "Leeds", "", "LS1", "UK", None);
            var t := [Address("a", "u", Billing, d, true), Address("b", "u", Billing, d, false)];
            && Valid(t)
            && SetDefault(t, Session(true, Some("u")), "b", Shipping, true, None).result.Ok?
            && !OneDefault(SetDefault(t, Session(true, Some("u")), "b", Shipping, true, None).table)
  {
    var d := Details("Home", "1 High St", "Leeds", "", "LS1", "UK", None);
    var t := [Address("a", "u", Billing, d, true), Address("b", "u", Billing, d, false)];
    assert !Owned(t[0], "b", "u");
    var r := SetDefault(t, Session(true, Some("u")), "b", Shipping, true, None);
    assert r.table[0] == t[0];
    assert Clash(r.table[0], r.table[1]);
  }

  /** A failed final statement does not undo an effective clearing statement:
      the user is left with no default address of that type. */
  lemma FailedSetDefaultLeavesNoDefault()
    ensures var d := Details("Home", "1 High St", "Leeds", "", "LS1", "UK", None);
            var t := [Address("a", "u", Shipping, d, true), Address("b", "u", Shipping, d, false)];
            var r := SetDefault(t, Session(true, Some("u")), "b", Shipping, true, Some("timeout"));
            && Valid(t) && t[0].isDefault
            && r.result == Err("timeout")
            && forall i :: 0 <= i < |r.table| ==> !(r.table[i].isDefault && r.table[i].kind == Shipping)
  {
    var d := Details("Home", "1 High St", "Leeds", "", "LS1", "UK", None);
    var t := [Address("a", "u", Shipping, d, true), Address("b", "u", Shipping, d, false)];
    var r := SetDefault(t, Session(true, Some("u")), "b", Shipping, true, Some("timeout"));
    assert r.table == ClearDefaults(t, "u", Shipping);
  }

  /** The clearing statement's error is ignored: when it fails, a new default
      address joins the old one. */
  lemma IgnoredClearFailureBreaksRule()
    ensures var d := Details("Home", "1 High St", "Leeds", "", "LS1", "UK", None);
            var t := [Address("a", "u", Shipping, d, true)];
            var r := Create(t, Session(true, Some("u")), NewAddress(Shipping, d, true), "b", false, None);
            && Valid(t) && r.result.Ok? && !OneDefault(r.table)
  {
    var d := Details("Home", "1 High St", "Leeds", "", "LS1", "UK", None);
    var t := [Address("a", "u", Shipping, d, true)];
    var r := Create(t, Session(true, Some("u")), NewAddress(Shipping, d, true), "b", false, None);
    assert Clash(r.table[0], r.table[1]);
  }
}

=== FILE: auth_store.dfy ===
/** The client-side auth state (src/lib/auth-store.ts): the user, session and
    loading atoms and how sessions set them, the address created on a user's
    first sign-in, the metadata sent at sign-up, and the guards of the helper
    calls.  Supabase's auth service is an oracle: its answers are inputs. */
module AuthStore {
  import opened Wrappers
  import opened Addresses

  /** The address a user gave at sign-up, as kept in their metadata. */
  datatype MetaAddress = MetaAddress(
    street: string,
    city: string,
    state: string,
    postalCode: string,
    country: string,
    phone: string)

  /** A metadata value: text, the sign-up address, or anything else. */
  datatype Value = Text(text: string) | AddressValue(address: MetaAddress) | OtherValue

  type Metadata = map<string, Value>

  datatype User = User(id: string, email: string, metadata: Metadata)

  datatype AuthSession = AuthSession(user: User, accessToken: string)

  /** `userAtom`, `sessionAtom` and `loadingAtom`. */
  datatype Atoms = Atoms(user: Option<User>, session: Option<AuthSession>, loading: bool)

  const InitialAtoms := Atoms(None, None, true)

  /** `initializeAuth` without a configured client: only `loading` changes. */
  function InitializeUnconfigured(a: Atoms): (r: Atoms)
    ensures r.user == a.user && r.session == a.session && !r.loading
  {
    a.(loading := false)
  }

  /** The initial `getSession` answer and every `onAuthStateChange` event
      store the session, its user (or none) and clear `loading`; an error
      from `getSession` is only logged and its (absent) session stored. */
  function OnSession(a: Atoms, session: Option<AuthSession>): (r: Atoms)
    ensures r.session == session && !r.loading
    ensures r.user.Some? <==> session.Some?
    ensures session.Some? ==> r.user.value == session.value.user
  {
    Atoms(if session.Some? then Some(session.value.user) else None, session, false)
  }

  /** `getCurrentUser`. */
  function CurrentUser(a: Atoms): Option<User> {
    a.user
  }

  /** `isAuthenticated`: signed in exactly when there is a current user. */
  function IsAuthenticated(a: Atoms): (r: bool)
    ensures r <==> CurrentUser(a).Some?
  {
    a.user.Some?
  }

  /** After any session event the store reports exactly the event's user. */
  lemma SessionDecidesAuthentication(a: Atoms, session: Option<AuthSession>)
    ensures IsAuthenticated(OnSession(a, session)) <==> session.Some?
    ensures CurrentUser(OnSession(a, session)) ==
              (if session.Some? then Some(session.value.user) else None)
  {
  }

  /** Before anything arrives the store is loading and signed out. */
  lemma InitiallySignedOut()
    ensures InitialAtoms.loading && !IsAuthenticated(InitialAtoms)
  {
  }

  // ---------------------------------------------------------------------------
  // First sign-in
  // ---------------------------------------------------------------------------

  /** `user.user_metadata?.address`, when it is an address. */
  function SignupAddress(u: User): (r: Option<MetaAddress>)
    ensures r.Some? <==> "address" in u.metadata && u.metadata["address"].AddressValue?
  {
    if "address" in u.metadata && u.metadata["address"].AddressValue? then
      Some(u.metadata["address"].address)
    else None
  }

  /** The row inserted for a first sign-in: a default shipping address named
      "Home", with an empty phone stored as null. */
  function HomeRow(newId: string, userId: string, m: MetaAddress): (r: Address)
    ensures r.id == newId && r.userId == userId
    ensures r.kind == Shipping && r.isDefault && r.details.name == "Home"
    ensures r.details.street == m.street && r.details.city == m.city
            && r.details.state == m.state && r.details.postalCode == m.postalCode
            && r.details.country == m.country
    ensures r.details.phone.None? <==> m.phone == ""
    ensures r.details.phone.Some? ==> r.details.phone.value == m.phone
  {
    Address(newId, userId, Shipping,
      Details("Home", m.street, m.city, m.state, m.postalCode, m.country,
              if m.phone != "" then Some(m.phone) else None),
      true)
  }

  predicate HasRows(t: Table, userId: string) {
    exists i :: 0 <= i < |t| && t[i].userId == userId
  }

  /** `handleFirstTimeLogin` over the address table.  `selectOk` says whether
      the existing-address query answered (a failed query yields no data, which
      the source reads as "no addresses"); `newId` and `insertFailure` are the
      insert's generated id and error.  Every error is swallowed. */
  function FirstTimeLogin(t: Table, configured: bool, u: User, selectOk: bool,
                          newId: string, insertFailure: Option<string>): (r: Table)
    ensures r == t || (|r| == |t| + 1 && r[..|t|] == t)
    ensures !configured || SignupAddress(u).None? ==> r == t
    ensures selectOk && HasRows(t, u.id) ==> r == t
    ensures insertFailure.Some? ==> r == t
    ensures r != t ==> configured && SignupAddress(u).Some?
                       && r == t + [HomeRow(newId, u.id, SignupAddress(u).value)]
    ensures configured && SignupAddress(u).Some? && (!selectOk || !HasRows(t, u.id))
            && insertFailure.None? && (forall i :: 0 <= i < |t| ==> t[i].id != newId)
            ==> r == t + [HomeRow(newId, u.id, SignupAddress(u).value)]
  {
    if !configured then t
    else match SignupAddress(u)
      case None => t
      case Some(m) =>
        if selectOk && HasRows(t, u.id) then t
        else if insertFailure.Some? then t
        else if exists i :: 0 <= i < |t| && t[i].id == newId then t
        else
          var r := t + [HomeRow(newId, u.id, m)];
          assert r[..|t|] == t;
          r
  }

  /** When the existing-address query answers, the first-sign-in insert keeps
      at most one default per user and type: it only runs for a user with no
      rows at all. */
  lemma FirstTimeLoginKeepsValid(t: Table, configured: bool, u: User, newId: string,
                                 insertFailure: Option<string>)
    requires Valid(t)
    ensures Valid(FirstTimeLogin(t, configured, u, true, newId, insertFailure))
  {
    var r := FirstTimeLogin(t, configured, u, true, newId, insertFailure);
    if r != t {
      var row := HomeRow(newId, u.id, SignupAddress(u).value);
      forall i, j | 0 <= i < |r| && 0 <= j < |r| && i != j
        ensures r[i].id != r[j].id && !Clash(r[i], r[j])
      {
        if i < |t| && j < |t| {
          assert r[i] == t[i] && r[j] == t[j];
        } else if i < |t| {
          assert r[i] == t[i] && r[j] == row;
        } else {
          assert r[j] == t[j] && r[i] == row;
        }
      }
    }
  }

  /** A failed existing-address query still lets the insert through, so a user
      who already has a default shipping address gets a second one. */
  lemma FailedSelectStillInserts()
    ensures var m := MetaAddress("1 High St", "Leeds", "", "LS1", "UK", "");
            var u := User("u", "ada@example.com", map["address" := AddressValue(m)]);
            var t := [HomeRow("a", "u", m)];
            var r := FirstTimeLogin(t, true, u, false, "b", None);
            && Valid(t) && |r| == 2 && !OneDefault(r)
  {
    var m := MetaAddress("1 High St", "Leeds", "", "LS1", "UK", "");
    var u := User("u", "ada@example.com", map["address" := AddressValue(m)]);
    var t := [HomeRow("a", "u", m)];
    var r := FirstTimeLogin(t, true, u, false, "b", None);
    assert SignupAddress(u) == Some(m);
    assert r == t + [HomeRow("b", "u", m)];
    assert Clash(r[0], r[1]);
  }

  // ---------------------------------------------------------------------------
  // Helper calls
  // ---------------------------------------------------------------------------

  const NotConfigured := "Supabase not configured"
  const NoUser := "No user logged in"

  /** `options.data` of `signUp`: `name` (empty when not given) overridden by
      any key of `additionalData`, including `name` itself. */
  function SignUpMetadata(name: Option<string>, additional: Metadata): (r: Metadata)
    ensures r.Keys == additional.Keys + {"name"}
    ensures forall k :: k in additional ==> r[k] == additional[k]
    ensures "name" !in additional ==> r["name"] == Text(name.GetOr(""))
  {
    map["name" := Text(name.GetOr(""))] + additional
  }

  /** The sign-up address ends up where the first sign-in looks for it. */
  lemma SignUpAddressReachesFirstLogin(id: string, email: string, name: Option<string>, m: MetaAddress)
    ensures SignupAddress(User(id, email, SignUpMetadata(name, map["address" := AddressValue(m)]))) == Some(m)
  {
  }

  /** `signUp`: the metadata sent, or the error thrown. */
  function SignUp(configured: bool, name: Option<string>, additional: Metadata,
                  failure: Option<string>): (r: Result<Metadata>)
    ensures !configured ==> r == Err(NotConfigured)
    ensures r.Ok? <==> configured && failure.None?
    ensures configured && failure.Some? ==> r == Err(failure.value)
    ensures r.Ok? ==> r.value == SignUpMetadata(name, additional)
  {
    if !configured then Err(NotConfigured)
    else if failure.Some? then Err(failure.value)
    else Ok(SignUpMetadata(name, additional))
  }

  /** `updatePassword`: the service's error is rethrown. */
  function UpdatePassword(configured: bool, failure: Option<string>): (r: Result<()>)
    ensures r.Ok? <==> configured && failure.None?
    ensures !configured ==> r == Err(NotConfigured)
    ensures configured && failure.Some? ==> r == Err(failure.value)
  {
    if !configured then Err(NotConfigured)
    else if failure.Some? then Err(failure.value)
    else Ok(())
  }

  /** `updateProfile`: the client is checked, then the user atom, and only
      then is the service called. */
  function UpdateProfile(configured: bool, a: Atoms, failure: Option<string>): (r: Result<()>)
    ensures !configured ==> r == Err(NotConfigured)
    ensures configured && !IsAuthenticated(a) ==> r == Err(NoUser)
    ensures r.Ok? <==> configured && IsAuthenticated(a) && failure.None?
    ensures configured && IsAuthenticated(a) && failure.Some? ==> r == Err(failure.value)
  {
    if !configured then Err(NotConfigured)
    else if a.user.None? then Err(NoUser)
    else if failure.Some? then Err(failure.value)
    else Ok(())
  }
}

=== FILE: catalog.dfy ===
/** The product catalogue (src/data/products.ts): the eleven products the shop
    sells and the lookup that attaches a product's gallery. */
module Catalog {
  import opened Wrappers
  import opened Text
  import opened Media
  import opened ProductMedia

  /** A product; `pricePence` is the source's pound price times 100. */
  datatype Product = Product(
    id: string,
    name: string,
    description: string,
    pricePence: nat,
    image: string,
    slug: string,
    category: string)

  /** `ProductWithMedia`: the product's own fields plus a gallery. */
  datatype ProductWithMedia = ProductWithMedia(product: Product, media: seq<MediaFile>)

  /** `products`, in declaration order. */
  const Products: seq<Product> := [
    Product("1", "Wireless Bluetooth Headphones",
      "High-quality wireless headphones with noise cancellation", 8999,
      Dir("wireless-headphones") + "main.png", "wireless-headphones", "Headphones"),
    Product("2", "Smart Fitness Tracker",
      "Track your steps, heart rate, and sleep patterns", 4999,
      Dir("fitness-tracker") + "smart-fitness-tracker.png", "fitness-tracker", "Smart Tech"),
    Product("3", "Portable Bluetooth Speaker",
      "Compact speaker with 360-degree sound", 3999,
      Dir("bluetooth-speaker") + "portable-bluetooth-speaker.png", "bluetooth-speaker", "Speakers"),
    Product("4", "Mechanical Gaming Keyboard",
      "RGB backlit mechanical keyboard with blue switches", 7999,
      Dir("gaming-keyboard") + "mechanical-gaming-keyboard.png", "gaming-keyboard", "Accessories"),
    Product("5", "4K Action Camera",
      "Waterproof action camera with image stabilization", 12999,
      Dir("action-camera") + "action-camera.png", "action-camera", "Gadgets"),
    Product("6", "Wireless Charging Pad",
      "Fast wireless charging pad for all Qi-enabled devices", 2499,
      Dir("wireless-charger") + "wireless-charging-pad.png", "wireless-charger", "Accessories"),
    Product("7", "Smart Home Hub",
      "Control all your smart devices from one hub", 9999,
      Dir("smart-home-hub") + "smart-home-hub.png", "smart-home-hub", "Smart Tech"),
    Product("8", "Noise Cancelling Earbuds",
      "True wireless earbuds with active noise cancellation", 11999,
      Dir("noise-cancelling-earbuds") + "noise-cancelling-earbuds.png", "noise-cancelling-earbuds", "Headphones"),
    Product("9", "Digital Audio Recorder",
      "Professional grade recorder with high-quality microphones", 6999,
      Dir("audio-recorder") + "digital-audio-recorder.png", "audio-recorder", "Music"),
    Product("10", "USB-C Hub Adapter",
      "Multi-port hub with HDMI, USB 3.0, and SD card reader", 3499,
      Dir("usb-c-hub") + "usb-c-hub-adapter.png", "usb-c-hub", "Accessories"),
    Product("11", "Small Classic Retro Handheld 400 Games",
      "Small Classic Retro Handheld 400 Games", 1999,
      Dir(Retro) + "S262be9f6b4b74906a8fd3bb52d55e6109.jpg_220x220q75.jpg_.png", Retro, "Accessories")
  ]

  /** `products.find(p => p.slug === slug)`: the position of the first
      product with that slug. */
  function FindBySlug(catalog: seq<Product>, slug: string): (r: Option<nat>)
    ensures r.None? <==> forall i :: 0 <= i < |catalog| ==> catalog[i].slug != slug
    ensures r.Some? ==> r.value < |catalog| && catalog[r.value].slug == slug
                        && forall j :: 0 <= j < r.value ==> catalog[j].slug != slug
  {
    if |catalog| == 0 then None
    else if catalog[0].slug == slug then Some(0)
    else match FindBySlug(catalog[1..], slug)
      case None => None
      case Some(i) => Some(i + 1)
  }

  /** The gallery the product page shows: the static table's, or a single
      image built from the product's own `image` field. */
  function MediaOrFallback(p: Product): (r: seq<MediaFile>)
    ensures |r| > 0
    ensures |GetStatic(p.slug)| > 0 ==> r == GetStatic(p.slug)
    ensures |GetStatic(p.slug)| == 0 ==> r == [MediaFile(p.image, Image, "main")]
  {
    var media := GetStatic(p.slug);
    if |media| > 0 then media else [MediaFile(p.image, Image, "main")]
  }

  /** `getProductWithMedia`. */
  function GetProductWithMedia(catalog: seq<Product>, slug: string): (r: Option<ProductWithMedia>)
    ensures r.None? <==> forall i :: 0 <= i < |catalog| ==> catalog[i].slug != slug
    ensures r.Some? ==>
              && r.value.product.slug == slug
              && (exists i :: 0 <= i < |catalog| && catalog[i] == r.value.product
                              && forall j :: 0 <= j < i ==> catalog[j].slug != slug)
              && |r.value.media| > 0
              && r.value.media[0].kind == Image
    ensures r.Some? && |GetStatic(slug)| > 0 ==> r.value.media == GetStatic(slug)
    ensures r.Some? && |GetStatic(slug)| == 0 ==>
              r.value.media == [MediaFile(r.value.product.image, Image, "main")]
  {
    match FindBySlug(catalog, slug)
    case None => None
    case Some(i) => Some(ProductWithMedia(catalog[i], MediaOrFallback(catalog[i])))
  }

  /** The catalogue and the media table list the same slugs in the same order. */
  lemma SlugsFollowTable()
    ensures |Products| == |Entries|
    ensures forall i :: 0 <= i < |Products| ==> Products[i].slug == Entries[i].slug
  {
  }

  /** No two products share an id or a slug: the ids run "1" to "11", and
      slugs of equal length differ in their first letter. */
  lemma ProductsDistinct()
    ensures forall i, j :: 0 <= i < j < |Products| ==>
              Products[i].id != Products[j].id && Products[i].slug != Products[j].slug
  {
    forall i, j | 0 <= i < j < |Products|
      ensures Products[i].id != Products[j].id && Products[i].slug != Products[j].slug
    {
      var a, b := Products[i], Products[j];
      assert |a.slug| != |b.slug| || a.slug[0] != b.slug[0];
      assert |a.id| != |b.id| || a.id[|a.id| - 1] != b.id[|b.id| - 1];
    }
  }

  /** Every product is the one its own slug finds. */
  lemma EveryProductFound(i: nat)
    requires i < |Products|
    ensures FindBySlug(Products, Products[i].slug) == Some(i)
  {
    ProductsDistinct();
  }

  /** Every product of the catalogue has a gallery of its own, so the product
      page never falls back to the single `image`. */
  lemma EveryProductHasGallery(slug: string)
    requires exists i :: 0 <= i < |Products| && Products[i].slug == slug
    ensures GetProductWithMedia(Products, slug).Some?
    ensures GetProductWithMedia(Products, slug).value.media == GetStatic(slug)
  {
    SlugsFollowTable();
    LookupsAgree(slug);
    var i :| 0 <= i < |Products| && Products[i].slug == slug;
    assert Entries[i].slug == slug;
  }

  /** Every product's `image` lies in its own media folder. */
  lemma ImagesInOwnFolder()
    ensures forall i :: 0 <= i < |Products| ==> StartsWith(Products[i].image, Dir(Products[i].slug))
  {
    forall i | 0 <= i < |Products|
      ensures StartsWith(Products[i].image, Dir(Products[i].slug))
    {
      ImageInOwnFolder(i);
    }
  }

  lemma ImageInOwnFolder(i: nat)
    requires i < |Products|
    ensures StartsWith(Products[i].image, Dir(Products[i].slug))
  {
    var p := Products[i];
    var d := Dir(p.slug);
    if i == 0 { PrefixOfAppend(d, "main.png"); }
    else if i == 1 { PrefixOfAppend(d, "smart-fitness-tracker.png"); }
    else if i == 2 { PrefixOfAppend(d, "portable-bluetooth-speaker.png"); }
    else if i == 3 { PrefixOfAppend(d, "mechanical-gaming-keyboard.png"); }
    else if i == 4 { PrefixOfAppend(d, "action-camera.png"); }
    else if i == 5 { PrefixOfAppend(d, "wireless-charging-pad.png"); }
    else if i == 6 { PrefixOfAppend(d, "smart-home-hub.png"); }
    else if i == 7 { PrefixOfAppend(d, "noise-cancelling-earbuds.png"); }
    else if i == 8 { PrefixOfAppend(d, "digital-audio-recorder.png"); }
    else if i == 9 { PrefixOfAppend(d, "usb-c-hub-adapter.png"); }
    else { PrefixOfAppend(d, "S262be9f6b4b74906a8fd3bb52d55e6109.jpg_220x220q75.jpg_.png"); }
  }

  /** A catalogue lacking a gallery for a product falls back to its `image`. */
  lemma FallbackGallery()
    ensures var p := Product("12", "Mystery Box", "", 500, "/images/mystery.png", "mystery-box", "Gadgets");
            GetProductWithMedia([p], "mystery-box") ==
              Some(ProductWithMedia(p, [MediaFile("/images/mystery.png", Image, "main")]))
  {
    UnlistedSlug();
  }

  lemma UnknownSlug()
    ensures GetProductWithMedia(Products, "mystery-box") == None
  {
    assert forall i :: 0 <= i < |Products| ==> |Products[i].slug| != |"mystery-box"|;
  }
}

=== FILE: media.dfy ===
/** Media-file helpers of the storefront (src/lib/media-utils.ts): classifying a
    file name as image or video, ordering a product's media so that the main
    shots come first, turning build-time glob paths into media entries, and
    picking a product's primary image.  The glob itself and the HEAD probes of
    the runtime fallback are inputs here. */
module Media {
  import opened Wrappers
  import opened Text

  datatype MediaType = Image | Video

  datatype MediaFile = MediaFile(url: string, kind: MediaType, filename: string)

  const ImageExtensions: seq<string> := [".jpg", ".jpeg", ".png", ".webp", ".gif", ".svg"]
  const VideoExtensions: seq<string> := [".mp4", ".webm", ".mov", ".avi"]

  // ---------------------------------------------------------------------------
  // Classification by extension
  // ---------------------------------------------------------------------------

  /** `filename.toLowerCase().substring(filename.lastIndexOf('.'))`.  Without a
      '.', `lastIndexOf` gives -1 and `substring` clamps it to 0, so the whole
      lower-cased name is the "extension". */
  function Extension(filename: string): string {
    var i := LastIndexOf(filename, '.');
    Lower(filename)[if i < 0 then 0 else i..]
  }

  /** `getMediaType` classifies by the lower-cased suffix from the last '.':
      image exactly when the name ends with an image extension, otherwise
      video exactly when it ends with a video extension, otherwise nothing. */
  function GetMediaType(filename: string): (r: Option<MediaType>)
    ensures r == Some(Image) <==> exists e :: e in ImageExtensions && EndsWith(Lower(filename), e)
    ensures r == Some(Video) <==>
              (forall e :: e in ImageExtensions ==> !EndsWith(Lower(filename), e))
              && exists e :: e in VideoExtensions && EndsWith(Lower(filename), e)
    ensures r == None <==>
              forall e :: e in ImageExtensions + VideoExtensions ==> !EndsWith(Lower(filename), e)
  {
    ExtensionsAreSuffixes(filename);
    var ext := Extension(filename);
    if ext in ImageExtensions then Some(Image)
    else if ext in VideoExtensions then Some(Video)
    else None
  }

  /** A listed extension: a '.' followed by a dot-free suffix. */
  predicate DotSuffix(e: string) {
    |e| > 0 && e[0] == '.' && '.' !in e[1..]
  }

  lemma ListedExtensionsAreDotSuffixes()
    ensures forall e :: e in ImageExtensions ==> DotSuffix(e)
    ensures forall e :: e in VideoExtensions ==> DotSuffix(e)
  {
  }

  lemma LowerKeepsDots(s: string)
    ensures forall i :: 0 <= i < |s| ==> (Lower(s)[i] == '.' <==> s[i] == '.')
  {
  }

  /** The last '.' is the only '.' from there on. */
  lemma LastDotUnique(s: string, p: int)
    requires 0 <= p < |s| && s[p] == '.' && '.' !in s[p + 1..]
    ensures LastIndexOf(s, '.') == p
  {
    var r := LastIndexOf(s, '.');
    assert s[p] in s;
    AbsentFromSuffix(s, '.', r + 1);
    AbsentFromSuffix(s, '.', p + 1);
  }

  lemma SuffixHead(s: string, t: string)
    ensures EndsWith(s, t) && |t| > 0 ==> s[|s| - |t|] == t[0]
  {
    if EndsWith(s, t) && |t| > 0 {
      assert s[|s| - |t|..][0] == t[0];
    }
  }

  /** For a '.'-led, dot-free suffix `e`: the extension is `e` exactly when the
      lower-cased name ends with `e`. */
  lemma ExtensionIsSuffix(filename: string, e: string)
    requires DotSuffix(e)
    ensures Extension(filename) == e <==> EndsWith(Lower(filename), e)
  {
    var low := Lower(filename);
    var i := LastIndexOf(filename, '.');
    LowerKeepsDots(filename);
    AbsentFromSuffix(filename, '.', 0);
    if EndsWith(low, e) {
      var p := |filename| - |e|;
      assert low[p] == e[0];
      assert '.' !in filename[p + 1..] by {
        forall k | p + 1 <= k < |filename|
          ensures filename[k] != '.'
        {
          assert low[k] == low[p..][k - p] == e[k - p];
          assert e[k - p] in e[1..];
        }
      }
      LastDotUnique(filename, p);
      assert low[p..] == e;
    }
  }

  /** A listed extension is the extension of a name exactly when the
      lower-cased name ends with it. */
  lemma ExtensionsAreSuffixes(filename: string)
    ensures forall e :: e in ImageExtensions + VideoExtensions ==>
              (Extension(filename) == e <==> EndsWith(Lower(filename), e))
  {
    ListedExtensionsAreDotSuffixes();
    forall e | e in ImageExtensions + VideoExtensions
      ensures Extension(filename) == e <==> EndsWith(Lower(filename), e)
    {
      ExtensionIsSuffix(filename, e);
    }
  }

  /** Classification ignores letter case (`MAIN.PNG` is an image like `main.png`). */
  lemma GetMediaTypeIgnoresCase(f: string, g: string)
    requires Lower(f) == Lower(g)
    ensures GetMediaType(f) == GetMediaType(g)
  {
    assert GetMediaType(f) == Some(Image) <==> GetMediaType(g) == Some(Image);
    assert GetMediaType(f) == Some(Video) <==> GetMediaType(g) == Some(Video);
  }

  /** A name without '.' is never media. */
  lemma NoDotIsUnclassified(filename: string)
    requires '.' !in filename
    ensures GetMediaType(filename) == None
  {
    ListedExtensionsAreDotSuffixes();
    LowerKeepsDots(filename);
    AbsentFromSuffix(filename, '.', 0);
    forall e | e in ImageExtensions + VideoExtensions
      ensures !EndsWith(Lower(filename), e)
    {
      SuffixHead(Lower(filename), e);
    }
  }

  lemma UpperCaseImage()
    ensures GetMediaType("MAIN.PNG") == Some(Image)
  {
    assert Lower("MAIN.PNG") == Lower("main.png");
    GetMediaTypeIgnoresCase("MAIN.PNG", "main.png");
    MainPngIsImage();
  }

  lemma MainPngIsImage()
    ensures GetMediaType("main.png") == Some(Image)
  {
    ExtensionAt("main.png", 4);
    assert "main.png"[4..] == ".png";
    assert Lower(".png") == ".png";
  }

  lemma VideoExample()
    ensures GetMediaType("clip.mp4") == Some(Video)
  {
    ExtensionAt("clip.mp4", 4);
    assert "clip.mp4"[4..] == ".mp4";
    assert Lower(".mp4") == ".mp4";
  }

  lemma UnknownExtensionExample()
    ensures GetMediaType("notes.txt") == None
  {
    ExtensionAt("notes.txt", 5);
    assert "notes.txt"[5..] == ".txt";
    assert Lower(".txt") == ".txt";
  }

  /** The extension of a name whose last '.' sits at `p`. */
  lemma ExtensionAt(f: string, p: nat)
    requires p < |f| && f[p] == '.' && '.' !in f[p + 1..]
    ensures Extension(f) == Lower(f[p..])
  {
    LastDotUnique(f, p);
    assert Lower(f)[p..] == Lower(f[p..]);
  }

  lemma NoDotExample()
    ensures GetMediaType("main") == None
  {
    NoDotIsUnclassified("main");
  }

  // ---------------------------------------------------------------------------
  // Ordering: main, primary, hero, front first, then by file name
  // ---------------------------------------------------------------------------

  const PriorityOrder: seq<string> := ["main", "primary", "hero", "front"]

  /** `filename.substring(0, filename.lastIndexOf('.'))`: a negative end clamps
      to 0, so a name without '.' has an empty basename. */
  function Basename(filename: string): string {
    var i := LastIndexOf(filename, '.');
    filename[..if i < 0 then 0 else i]
  }

  /** `xs.indexOf(x)`: the first position of `x`, or -1. */
  function IndexOf(xs: seq<string>, x: string): (r: int)
    ensures -1 <= r < |xs|
    ensures r >= 0 ==> xs[r] == x && x !in xs[..r]
    ensures r == -1 ==> x !in xs
  {
    if |xs| == 0 then -1
    else if xs[0] == x then 0
    else
      var r := IndexOf(xs[1..], x);
      if r == -1 then -1 else
        assert xs[..r + 1] == [xs[0]] + xs[1..][..r];
        r + 1
  }

  function Priority(f: MediaFile): int {
    IndexOf(PriorityOrder, Basename(f.filename))
  }

  /** `a.localeCompare(b)`, taken here as code-point lexicographic order with
      results -1, 0, 1. */
  function CompareNames(a: string, b: string): int
    decreases |a|
  {
    if |a| == 0 && |b| == 0 then 0
    else if |a| == 0 then -1
    else if |b| == 0 then 1
    else if a[0] < b[0] then -1
    else if a[0] > b[0] then 1
    else CompareNames(a[1..], b[1..])
  }

  lemma {:induction false} CompareNamesAntisymmetric(a: string, b: string)
    ensures CompareNames(a, b) == -CompareNames(b, a)
    ensures CompareNames(a, b) == 0 <==> a == b
    decreases |a|
  {
    if |a| > 0 && |b| > 0 && a[0] == b[0] {
      CompareNamesAntisymmetric(a[1..], b[1..]);
      assert a == [a[0]] + a[1..];
      assert b == [b[0]] + b[1..];
    }
  }

  /** The comparator handed to `mediaFiles.sort`: it never places a file
      ahead of one with a smaller rank, always places the smaller rank first,
      and orders files outside the priority list by name. */
  function CompareMedia(a: MediaFile, b: MediaFile): (r: int)
    ensures r <= 0 ==> Rank(a) <= Rank(b)
    ensures Rank(a) < Rank(b) ==> r < 0
    ensures Rank(a) == 4 && Rank(b) == 4 ==> r == CompareNames(a.filename, b.filename)
  {
    var pa, pb := Priority(a), Priority(b);
    if pa != -1 && pb != -1 then pa - pb
    else if pa != -1 then -1
    else if pb != -1 then 1
    else CompareNames(a.filename, b.filename)
  }

  /** Position in the display order: 0..3 for main, primary, hero, front, and
      4 for everything else. */
  function Rank(f: MediaFile): nat {
    if Priority(f) == -1 then 4 else Priority(f)
  }

  /** The comparator is consistent: swapping the arguments flips the sign. */
  lemma CompareMediaSpec(a: MediaFile, b: MediaFile)
    ensures CompareMedia(a, b) < 0 <==> CompareMedia(b, a) > 0
    ensures CompareMedia(a, b) == 0 <==> CompareMedia(b, a) == 0
  {
    CompareNamesAntisymmetric(a.filename, b.filename);
  }

  /** Neighbours are in comparator order. */
  predicate Sorted(s: seq<MediaFile>) {
    forall i :: 0 <= i < |s| - 1 ==> CompareMedia(s[i], s[i + 1]) <= 0
  }

  /** Inserts `x` after every entry that does not compare greater, which keeps
      entries that compare equal in their input order. */
  function Insert(x: MediaFile, s: seq<MediaFile>): (r: seq<MediaFile>)
    requires Sorted(s)
    ensures Sorted(r)
    ensures multiset(r) == multiset(s) + multiset{x}
    ensures |r| > 0 && (r[0] == x || (|s| > 0 && r[0] == s[0]))
  {
    if |s| == 0 then [x]
    else if CompareMedia(x, s[0]) < 0 then
      CompareMediaSpec(x, s[0]);
      [x] + s
    else
      var rest := Insert(x, s[1..]);
      CompareMediaSpec(x, s[0]);
      assert s == [s[0]] + s[1..];
      SortedCons(s[0], rest);
      [s[0]] + rest
  }

  /** An entry that does not compare greater than the head of a sorted list
      can go in front of it. */
  lemma SortedCons(h: MediaFile, s: seq<MediaFile>)
    requires Sorted(s) && |s| > 0 && CompareMedia(h, s[0]) <= 0
    ensures Sorted([h] + s)
  {
    var r := [h] + s;
    forall i | 0 <= i < |r| - 1
      ensures CompareMedia(r[i], r[i + 1]) <= 0
    {
      if i > 0 {
        assert r[i] == s[i - 1] && r[i + 1] == s[i];
      }
    }
  }

  /** `Array.prototype.sort` with `CompareMedia` (stable since ES2019),
      written as an insertion sort. */
  function SortMedia(s: seq<MediaFile>): (r: seq<MediaFile>)
    ensures Sorted(r)
    ensures multiset(r) == multiset(s)
  {
    if |s| == 0 then []
    else
      assert s == s[..|s| - 1] + [s[|s| - 1]];
      Insert(s[|s| - 1], SortMedia(s[..|s| - 1]))
  }

  /** The comparator is transitive when the first step is strict. */
  lemma {:induction false} CompareNamesTransitive(a: string, b: string, c: string)
    requires CompareNames(a, b) < 0 && CompareNames(b, c) <= 0
    ensures CompareNames(a, c) < 0
    decreases |a|
  {
    if |a| > 0 && a[0] == b[0] && b[0] == c[0] {
      CompareNamesTransitive(a[1..], b[1..], c[1..]);
    }
  }

  lemma CompareMediaTransitive(a: MediaFile, b: MediaFile, c: MediaFile)
    requires CompareMedia(a, b) < 0 && CompareMedia(b, c) <= 0
    ensures CompareMedia(a, c) < 0
  {
    if Priority(a) == -1 {
      CompareNamesTransitive(a.filename, b.filename, c.filename);
    }
  }

  /** Two files compare equal exactly when they share a rank and, outside the
      priority list, a file name: "main.png" and "main.mp4" tie, as do two
      files both named "clip.mp4". */
  predicate Tie(a: MediaFile, b: MediaFile) {
    CompareMedia(a, b) == 0
  }

  lemma TieSpec(a: MediaFile, b: MediaFile)
    ensures Tie(a, b) <==> Rank(a) == Rank(b) && (Rank(a) == 4 ==> a.filename == b.filename)
  {
    CompareNamesAntisymmetric(a.filename, b.filename);
  }

  /** The entries of `s` that tie with `y`, in their order in `s`. */
  function Ties(s: seq<MediaFile>, y: MediaFile): seq<MediaFile> {
    if |s| == 0 then [] else (if Tie(s[0], y) then [s[0]] else []) + Ties(s[1..], y)
  }

  lemma ConcatAssoc(a: seq<MediaFile>, b: seq<MediaFile>, c: seq<MediaFile>)
    ensures a + (b + c) == (a + b) + c
  {
  }

  lemma TiesCons(s: seq<MediaFile>, y: MediaFile)
    requires |s| > 0
    ensures Ties(s, y) == (if Tie(s[0], y) then [s[0]] else []) + Ties(s[1..], y)
  {
  }

  lemma {:induction false} TiesAppend(a: seq<MediaFile>, b: seq<MediaFile>, y: MediaFile)
    ensures Ties(a + b, y) == Ties(a, y) + Ties(b, y)
    decreases |a|
  {
    if |a| > 0 {
      var head := if Tie(a[0], y) then [a[0]] else [];
      assert (a + b)[0] == a[0] && (a + b)[1..] == a[1..] + b;
      TiesCons(a + b, y);
      TiesCons(a, y);
      TiesAppend(a[1..], b, y);
      ConcatAssoc(head, Ties(a[1..], y), Ties(b, y));
    } else {
      assert a + b == b;
    }
  }

  /** Nothing in a sorted list headed by something greater than `x` ties with `x`. */
  lemma {:induction false} NoTiesAfterGreater(x: MediaFile, s: seq<MediaFile>, y: MediaFile)
    requires Sorted(s) && |s| > 0 && CompareMedia(x, s[0]) < 0 && Tie(x, y)
    ensures Ties(s, y) == []
    decreases |s|
  {
    TieSpec(x, y);
    TieSpec(x, s[0]);
    TieSpec(s[0], y);
    if |s| > 1 {
      CompareMediaTransitive(x, s[0], s[1]);
      NoTiesAfterGreater(x, s[1..], y);
    }
  }

  /** `x` goes in front: it joins its tie class, which has no member in `s`. */
  lemma InsertTiesFront(x: MediaFile, s: seq<MediaFile>, y: MediaFile)
    requires Sorted(s) && |s| > 0 && CompareMedia(x, s[0]) < 0
    ensures Ties([x] + s, y) == Ties(s, y) + (if Tie(x, y) then [x] else [])
  {
    var r := [x] + s;
    assert r[0] == x && r[1..] == s;
    TiesCons(r, y);
    if Tie(x, y) {
      NoTiesAfterGreater(x, s, y);
    }
  }

  /** `x` goes after `s[0]`, so the tie classes are built the same way. */
  lemma InsertTiesSkip(h: MediaFile, rest: seq<MediaFile>, tail: seq<MediaFile>, mine: seq<MediaFile>, y: MediaFile)
    requires Ties(rest, y) == Ties(tail, y) + mine
    ensures Ties([h] + rest, y) == Ties([h] + tail, y) + mine
  {
    var head := if Tie(h, y) then [h] else [];
    assert ([h] + rest)[0] == h && ([h] + rest)[1..] == rest;
    assert ([h] + tail)[0] == h && ([h] + tail)[1..] == tail;
    TiesCons([h] + rest, y);
    TiesCons([h] + tail, y);
    ConcatAssoc(head, Ties(tail, y), mine);
  }

  /** Inserting adds `x` after every entry of its tie class already present. */
  lemma {:induction false} InsertTies(x: MediaFile, s: seq<MediaFile>, y: MediaFile)
    requires Sorted(s)
    ensures Ties(Insert(x, s), y) == Ties(s, y) + (if Tie(x, y) then [x] else [])
    decreases |s|
  {
    if |s| == 0 {
      assert Insert(x, s) == [x];
      TiesCons([x], y);
      assert [x][1..] == [];
    } else if CompareMedia(x, s[0]) < 0 {
      assert Insert(x, s) == [x] + s;
      InsertTiesFront(x, s, y);
    } else {
      assert Insert(x, s) == [s[0]] + Insert(x, s[1..]);
      InsertTies(x, s[1..], y);
      assert [s[0]] + s[1..] == s;
      InsertTiesSkip(s[0], Insert(x, s[1..]), s[1..], if Tie(x, y) then [x] else [], y);
    }
  }

  /** The sort is stable: for every tie class, its entries appear in the
      result in the same order as in the input. */
  lemma {:induction false} SortMediaStable(s: seq<MediaFile>, y: MediaFile)
    ensures Ties(SortMedia(s), y) == Ties(s, y)
    decreases |s|
  {
    if |s| > 0 {
      var init, last := s[..|s| - 1], s[|s| - 1];
      assert s == init + [last];
      var mine := if Tie(last, y) then [last] else [];
      assert SortMedia(s) == Insert(last, SortMedia(init));
      SortMediaStable(init, y);
      InsertTies(last, SortMedia(init), y);
      TiesAppend(init, [last], y);
      TiesCons([last], y);
      assert [last][1..] == [];
      assert Ties([last], y) == mine;
    }
  }

  /** In sorted media the ranks never decrease: main, primary, hero and front
      lead, in that order, ahead of every other file. */
  lemma {:induction false} SortedRanksAscend(s: seq<MediaFile>)
    requires Sorted(s)
    ensures forall i, j :: 0 <= i <= j < |s| ==> Rank(s[i]) <= Rank(s[j])
    decreases |s|
  {
    if |s| > 1 {
      SortedRanksAscend(s[1..]);
      CompareMediaSpec(s[0], s[1]);
      forall i, j | 0 <= i <= j < |s|
        ensures Rank(s[i]) <= Rank(s[j])
      {
        if i > 0 {
          assert Rank(s[1..][i - 1]) <= Rank(s[1..][j - 1]);
        } else if j > 0 {
          assert Rank(s[1..][0]) <= Rank(s[1..][j - 1]);
        }
      }
    }
  }

  // ---------------------------------------------------------------------------
  // Build-time media list from glob paths
  // ---------------------------------------------------------------------------

  /** The folder marker `/products/<slug>/` a path must contain. */
  function Folder(slug: string): string {
    "/products/" + slug + "/"
  }

  /** `path.split('/').pop() || ''`: the last '/'-separated segment. */
  function LastSegment(path: string): string {
    var pieces := SplitOn(path, '/');
    pieces[|pieces| - 1]
  }

  /** The entry one glob path contributes, if any: a path yields one exactly
      when it lies in the product's folder and its last segment has a
      recognised type; the file name is that segment and the url is the path
      with its first `/public` removed. */
  function PathEntry(path: string, slug: string): (r: Option<MediaFile>)
    ensures r.Some? <==> IsSubstring(Folder(slug), path) && GetMediaType(LastSegment(path)).Some?
    ensures r.Some? ==>
              && r.value.filename == LastSegment(path)
              && '/' !in r.value.filename
              && Some(r.value.kind) == GetMediaType(r.value.filename)
              && r.value.url == ReplaceFirst(path, "/public", "")
  {
    SplitOnSpec(path, '/');
    if !IsSubstring(Folder(slug), path) then None
    else
      var filename := LastSegment(path);
      match GetMediaType(filename)
      case None => None
      case Some(kind) => Some(MediaFile(ReplaceFirst(path, "/public", ""), kind, filename))
  }

  /** The loop over the glob entries, in glob order. */
  function CollectMedia(paths: seq<string>, slug: string): (r: seq<MediaFile>)
    ensures |r| <= |paths|
  {
    if |paths| == 0 then []
    else
      var rest := CollectMedia(paths[1..], slug);
      match PathEntry(paths[0], slug)
      case None => rest
      case Some(m) => [m] + rest
  }

  /** An entry is collected exactly when some path produces it. */
  lemma CollectMediaSpec(paths: seq<string>, slug: string)
    ensures forall m :: m in CollectMedia(paths, slug) <==>
              exists i :: 0 <= i < |paths| && PathEntry(paths[i], slug) == Some(m)
  {
    forall m | m in CollectMedia(paths, slug)
      ensures exists i :: 0 <= i < |paths| && PathEntry(paths[i], slug) == Some(m)
    {
      CollectedHasPath(paths, slug, m);
    }
    forall i | 0 <= i < |paths| && PathEntry(paths[i], slug).Some?
      ensures PathEntry(paths[i], slug).value in CollectMedia(paths, slug)
    {
      PathIsCollected(paths, slug, i);
    }
  }

  lemma {:induction false} CollectedHasPath(paths: seq<string>, slug: string, m: MediaFile)
    ensures m in CollectMedia(paths, slug) ==>
              exists i :: 0 <= i < |paths| && PathEntry(paths[i], slug) == Some(m)
    decreases |paths|
  {
    if |paths| > 0 && m in CollectMedia(paths, slug) {
      var e := PathEntry(paths[0], slug);
      if e != Some(m) {
        assert m in CollectMedia(paths[1..], slug);
        CollectedHasPath(paths[1..], slug, m);
        var i :| 0 <= i < |paths[1..]| && PathEntry(paths[1..][i], slug) == Some(m);
        assert PathEntry(paths[i + 1], slug) == Some(m);
      }
    }
  }

  lemma {:induction false} PathIsCollected(paths: seq<string>, slug: string, i: nat)
    requires i < |paths|
    ensures PathEntry(paths[i], slug).Some? ==> PathEntry(paths[i], slug).value in CollectMedia(paths, slug)
    decreases i
  {
    var e := PathEntry(paths[0], slug);
    assert CollectMedia(paths, slug) == (if e.Some? then [e.value] else []) + CollectMedia(paths[1..], slug);
    if i > 0 {
      assert paths[1..][i - 1] == paths[i];
      PathIsCollected(paths[1..], slug, i - 1);
    }
  }

  /** Glob paths start with `/public`, so the url is the rest of the path. */
  lemma PublicPathUrl(rest: string)
    ensures ReplaceFirst("/public" + rest, "/public", "") == rest
  {
    var path := "/public" + rest;
    assert FirstOccurrence(path, "/public", 0) by {
      assert path[0..7] == "/public";
    }
    ReplaceFirstAt(path, "/public", "", 0);
    assert path[7..] == rest;
  }

  /** The build-time variant of `getProductMediaStatic` in media-utils: the
      collected entries, sorted.  Sorting only reorders them, so an entry is
      listed exactly when some glob path produces it. */
  function StaticMediaFromPaths(paths: seq<string>, slug: string): (r: seq<MediaFile>)
    ensures multiset(r) == multiset(CollectMedia(paths, slug))
    ensures Sorted(r)
    ensures forall m :: m in r <==> exists i :: 0 <= i < |paths| && PathEntry(paths[i], slug) == Some(m)
  {
    CollectMediaSpec(paths, slug);
    var r := SortMedia(CollectMedia(paths, slug));
    SameElements(r, CollectMedia(paths, slug));
    r
  }

  /** Sequences with equal multisets hold the same elements. */
  lemma SameElements(a: seq<MediaFile>, b: seq<MediaFile>)
    requires multiset(a) == multiset(b)
    ensures forall m :: m in a <==> m in b
  {
    forall m
      ensures m in a <==> m in b
    {
      assert m in a <==> m in multiset(a);
      assert m in b <==> m in multiset(b);
    }
  }

  /** `getProductMedia`: a non-empty build-time list wins; otherwise the
      entries the HEAD probes found (`probed`, in probing order) are sorted. */
  function ProductMedia(paths: seq<string>, slug: string, probed: seq<MediaFile>): (r: seq<MediaFile>)
    ensures |StaticMediaFromPaths(paths, slug)| > 0 ==> r == StaticMediaFromPaths(paths, slug)
    ensures |StaticMediaFromPaths(paths, slug)| == 0 ==> multiset(r) == multiset(probed) && Sorted(r)
  {
    var staticMedia := StaticMediaFromPaths(paths, slug);
    if |staticMedia| > 0 then staticMedia else SortMedia(probed)
  }

  // ---------------------------------------------------------------------------
  // Primary image
  // ---------------------------------------------------------------------------

  /** `media.find(m => m.type === 'image')`. */
  function FirstImage(media: seq<MediaFile>): (r: Option<nat>)
    ensures r.Some? ==> r.value < |media| && media[r.value].kind == Image
                        && forall j :: 0 <= j < r.value ==> media[j].kind != Image
    ensures r.None? ==> forall j :: 0 <= j < |media| ==> media[j].kind != Image
  {
    if |media| == 0 then None
    else if media[0].kind == Image then Some(0)
    else match FirstImage(media[1..])
      case None => None
      case Some(i) => Some(i + 1)
  }

  /** `firstImage?.url || null`: an empty url also yields null. */
  function PrimaryImageUrl(media: seq<MediaFile>): (r: Option<string>)
    ensures r.Some? <==> exists i :: 0 <= i < |media| && media[i].kind == Image
                                     && media[i].url != ""
                                     && forall j :: 0 <= j < i ==> media[j].kind != Image
    ensures r.Some? ==> exists i :: 0 <= i < |media| && media[i].kind == Image
                                    && r.value == media[i].url
                                    && forall j :: 0 <= j < i ==> media[j].kind != Image
  {
    match FirstImage(media)
    case None => None
    case Some(i) => if media[i].url != "" then Some(media[i].url) else None
  }

  /** `getProductPrimaryImage`. */
  function ProductPrimaryImage(paths: seq<string>, slug: string, probed: seq<MediaFile>): Option<string> {
    PrimaryImageUrl(ProductMedia(paths, slug, probed))
  }
}

=== FILE: order_history.dfy ===
/** The account page's order list (src/components/auth/OrderHistory.tsx): the
    status, id and currency formatting of each order, which view the
    component shows, and the flags `loadOrders` sets. */
module OrderHistory {
  import opened Wrappers
  import opened Text

  /** The fields of an order the header of its card shows. */
  datatype Order = Order(id: string, currency: string, status: string)

  /** `formatStatus`: the first character upper-cased, the rest verbatim. */
  function FormatStatus(status: string): (r: string)
    ensures |r| == |status|
    ensures |status| > 0 ==> r[0] == UpperChar(status[0]) && r[1..] == status[1..]
  {
    if |status| == 0 then "" else [UpperChar(status[0])] + status[1..]
  }

  /** Formatting twice is formatting once, and nothing but the first
      character's case changes. */
  lemma FormatStatusIdempotent(status: string)
    ensures FormatStatus(FormatStatus(status)) == FormatStatus(status)
    ensures status == "" || Lower(FormatStatus(status))[1..] == Lower(status)[1..]
  {
    if |status| > 0 {
      var f := FormatStatus(status);
      assert f[1..] == status[1..];
      assert Lower(f)[1..] == Lower(status)[1..];
    }
  }

  lemma FormatStatusExample()
    ensures FormatStatus("shipped") == "Shipped"
    ensures FormatStatus("") == ""
  {
  }

  const Green := "bg-green-100" + " text-green-800" + " dark:bg-green-900" + " dark:text-green-200"
  const Blue := "bg-blue-100" + " text-blue-800" + " dark:bg-blue-900" + " dark:text-blue-200"
  const Yellow := "bg-yellow-100" + " text-yellow-800" + " dark:bg-yellow-900" + " dark:text-yellow-200"
  const Red := "bg-red-100" + " text-red-800" + " dark:bg-red-900" + " dark:text-red-200"
  const Gray := "bg-gray-100" + " text-gray-800" + " dark:bg-gray-900" + " dark:text-gray-200"

  /** The statuses with a colour of their own. */
  const KnownStatuses: seq<string> := ["delivered", "shipped", "processing", "cancelled"]

  /** `getStatusColor`: a case-sensitive switch with a gray default. */
  function StatusColor(status: string): (r: string)
    ensures r == Gray <==> status !in KnownStatuses
    ensures status == "delivered" ==> r == Green
    ensures status == "shipped" ==> r == Blue
    ensures status == "processing" ==> r == Yellow
    ensures status == "cancelled" ==> r == Red
  {
    ColorsDistinct();
    if status == "delivered" then Green
    else if status == "shipped" then Blue
    else if status == "processing" then Yellow
    else if status == "cancelled" then Red
    else Gray
  }

  /** The five classes differ from one another: each names its own colour
      right after "bg-". */
  lemma ColorsDistinct()
    ensures Green != Gray && Blue != Gray && Yellow != Gray && Red != Gray
    ensures Green != Blue && Green != Yellow && Green != Red
    ensures Blue != Yellow && Blue != Red && Yellow != Red
  {
    assert Green[3] == 'g' && Green[5] == 'e';
    assert Gray[3] == 'g' && Gray[5] == 'a';
    assert Blue[3] == 'b' && Yellow[3] == 'y' && Red[3] == 'r';
  }

  /** Four distinct statuses get four distinct colours; the switch is
      case-sensitive, so "Delivered" is gray. */
  lemma StatusColorsSpec()
    ensures StatusColor("Delivered") == Gray
    ensures |{StatusColor("delivered"), StatusColor("shipped"), StatusColor("processing"),
              StatusColor("cancelled")}| == 4
  {
    assert "Delivered"[0] != "delivered"[0];
    ColorsDistinct();
  }

  /** `order.id.slice(-8)`: the last eight characters, or the whole id. */
  function OrderLabel(id: string): (r: string)
    ensures |r| == Min(8, |id|)
    ensures EndsWith(id, r)
  {
    if |id| <= 8 then id else id[|id| - 8..]
  }

  lemma OrderLabelExample()
    ensures OrderLabel("3f2a9c1e-7b44-4d2a-9e0f-5a6b7c8d9e0f") == "7c8d9e0f"
    ensures OrderLabel("A17") == "A17"
  {
  }

  /** The symbol in front of an order's total: pounds exactly for "GBP". */
  function CurrencySymbol(currency: string): (r: string)
    ensures r == "£" <==> currency == "GBP"
    ensures r != "£" ==> r == "$"
  {
    if currency == "GBP" then "£" else "$"
  }

  /** The visible header of an order card. */
  datatype Header = Header(orderNo: string, symbol: string, statusText: string, statusClass: string)

  function OrderHeader(o: Order): (r: Header)
    ensures EndsWith(o.id, r.orderNo) && |r.orderNo| <= 8
    ensures r.symbol == "£" <==> o.currency == "GBP"
    ensures |r.statusText| == |o.status|
    ensures r.statusClass == Gray <==> o.status !in KnownStatuses
  {
    Header(OrderLabel(o.id), CurrencySymbol(o.currency), FormatStatus(o.status), StatusColor(o.status))
  }

  // ---------------------------------------------------------------------------
  // The component's state and views
  // ---------------------------------------------------------------------------

  /** `orders`, `loading` and `error`. */
  datatype Orders = Orders(orders: seq<Order>, loading: bool, error: Option<string>)

  const Initial := Orders([], true, None)

  const LoadFailed := "Failed to load orders"

  datatype View =
    | SignInPrompt
    | Skeleton
    | ErrorView(message: string)
    | NoOrders
    | OrderList(orders: seq<Order>)

  /** The views in order of precedence: no user, loading, error, no orders,
      the list. */
  function Render(signedIn: bool, s: Orders): (r: View)
    ensures r == SignInPrompt <==> !signedIn
    ensures r == Skeleton <==> signedIn && s.loading
    ensures r.ErrorView? <==> signedIn && !s.loading && s.error.Some? && s.error.value != ""
    ensures r.ErrorView? ==> r.message == s.error.value
    ensures r == NoOrders <==>
              signedIn && !s.loading && (s.error.None? || s.error.value == "") && |s.orders| == 0
    ensures r.OrderList? ==> r.orders == s.orders && |s.orders| > 0
  {
    if !signedIn then SignInPrompt
    else if s.loading then Skeleton
    else if s.error.Some? && s.error.value != "" then ErrorView(s.error.value)
    else if |s.orders| == 0 then NoOrders
    else OrderList(s.orders)
  }

  /** `loadOrders` up to the request: without a user nothing happens,
      otherwise `loading` is set. */
  function LoadStarted(signedIn: bool, s: Orders): (r: Orders)
    ensures !signedIn ==> r == s
    ensures signedIn ==> r == s.(loading := true)
  {
    if !signedIn then s else s.(loading := true)
  }

  /** `loadOrders` once `getUserOrders` has answered: the orders on success,
      the error message (or a fallback) on failure, `loading` cleared either
      way.  `error` is never reset. */
  function LoadFinished(s: Orders, outcome: Result<seq<Order>>): (r: Orders)
    ensures !r.loading
    ensures outcome.Ok? ==> r.orders == outcome.value && r.error == s.error
    ensures outcome.Err? ==> r.orders == s.orders
                             && r.error == Some(if outcome.message != "" then outcome.message else LoadFailed)
    ensures s.error.Some? ==> r.error.Some?
  {
    match outcome
    case Ok(orders) => s.(orders := orders, loading := false)
    case Err(e) => s.(error := Some(if e != "" then e else LoadFailed), loading := false)
  }

  /** A whole `loadOrders` call for a signed-in user. */
  function Load(s: Orders, outcome: Result<seq<Order>>): (r: Orders)
    ensures !r.loading
    ensures outcome.Err? ==> Render(true, r).ErrorView?
  {
    LoadFinished(LoadStarted(true, s), outcome)
  }

  /** While a (re)load is in flight the skeleton shows, whatever came before. */
  lemma SkeletonWhileLoading(s: Orders)
    ensures Render(true, LoadStarted(true, s)) == Skeleton
  {
  }

  /** After a failure, "Try Again" followed by a successful load still shows
      the old error: nothing clears it. */
  lemma ErrorSurvivesRetry(orders: seq<Order>)
    ensures var failed := Load(Initial, Err("network down"));
            var retried := Load(failed, Ok(orders));
            Render(true, retried) == ErrorView("network down")
  {
  }

  /** Without a failure, a load shows the list, or "No orders yet". */
  lemma SuccessfulFirstLoad(orders: seq<Order>)
    ensures Render(true, Load(Initial, Ok(orders))) ==
              if |orders| == 0 then NoOrders else OrderList(orders)
  {
  }
}

=== FILE: product_media.dfy ===
/** The hand-written media table of the storefront (src/lib/product-media.ts):
    for each product slug, the gallery shown on its page, and the three
    lookups over it. */
module ProductMedia {
  import opened Wrappers
  import opened Text
  import opened Media

  /** The public folder of a product's pictures. */
  function Dir(slug: string): string {
    "/images/products/" + slug + "/"
  }

  /** One picture of a gallery: the file stored in the product's folder and
      the base of the name it is listed under (`<base>.png`). */
  datatype Picture = Picture(file: string, base: string)

  /** A picture whose file keeps its listed name. */
  function Shot(base: string): Picture {
    Picture(base + ".png", base)
  }

  /** One key of `PRODUCT_MEDIA` with its pictures. */
  datatype Entry = Entry(slug: string, pictures: seq<Picture>)

  function ToMedia(slug: string, p: Picture): MediaFile {
    MediaFile(Dir(slug) + p.file, Image, p.base + ".png")
  }

  function Gallery(e: Entry): seq<MediaFile> {
    seq(|e.pictures|, i requires 0 <= i < |e.pictures| => ToMedia(e.slug, e.pictures[i]))
  }

  const Retro := "small-classic-retro-handheld-400-games"

  /** `PRODUCT_MEDIA`, in declaration order. */
  const Entries: seq<Entry> := [
    Entry("wireless-headphones", [Shot("main"), Shot("front"), Shot("back"), Shot("side")]),
    Entry("fitness-tracker", [Shot("main"), Shot("front"), Shot("back"), Shot("side")]),
    Entry("bluetooth-speaker", [Shot("main"), Shot("1"), Shot("2"), Shot("detail1")]),
    Entry("gaming-keyboard", [Shot("main"), Shot("front"), Shot("back")]),
    Entry("action-camera", [Shot("main"), Shot("front"), Shot("detail1")]),
    Entry("wireless-charger", [Shot("wireless-charging-pad")]),
    Entry("smart-home-hub", [Shot("smart-home-hub")]),
    Entry("noise-cancelling-earbuds", [Shot("noise-cancelling-earbuds")]),
    Entry("audio-recorder", [Shot("digital-audio-recorder")]),
    Entry("usb-c-hub", [Shot("usb-c-hub-adapter")]),
    Entry(Retro, [
      Picture("S1b70a9e380a64eaa815d16bd0218c4baL.jpg_480x480q75.jpg_.png", "main"),
      Picture("S262be9f6b4b74906a8fd3bb52d55e6109.jpg_220x220q75.jpg_.png", "front"),
      Picture("S262be9f6b4b74906a8fd3bb52d55e6109.jpg_960x960q75.jpg_.png", "detail1"),
      Picture("S53843a0252f24a67ac47aa8eaab93e7cS.png_220x220.png_.png", "detail2"),
      Picture("S53f1a9fd97f840718cd4efae023c85ad5.png_220x220.png_.png", "detail3"),
      Picture("S6a61d8e768d44034afe4a2c628864069k.jpg_220x220q75.jpg_.png", "side1"),
      Picture("S6f37f1c7e07d438787bd546a343947deh.png_220x220.png_.png", "side2"),
      Picture("S807566e50d6b416eaa8abc64baeb0164P.jpg_220x220q75.jpg_.png", "back"),
      Picture("S97aa55812ec246cfafba42e0191b851cR.png_220x220.png_.png", "angle1"),
      Picture("S9935630a9f5a4671b62ca65792557e490.jpg_220x220q75.jpg_.png", "angle2"),
      Picture("Sba3ad25cc4c14f1fac506e40274d7713N.jpg_220x220q75.jpg_.png", "lifestyle"),
      Picture("Scb8fa3c88ee84cafb684e0f4ff7285533.png_220x220.png_.png", "unboxed"),
      Picture("Sfb1dbb61096b4857813b833d2467b0f8Z.jpg_220x220q75.jpg_.png", "packaging")])
  ]

  /** `PRODUCT_MEDIA[slug]`: the gallery of the first entry with that key. */
  function Lookup(entries: seq<Entry>, slug: string): (r: Option<seq<MediaFile>>)
    ensures r.None? <==> forall i :: 0 <= i < |entries| ==> entries[i].slug != slug
    ensures r.Some? ==> exists i :: 0 <= i < |entries| && entries[i].slug == slug
                                    && r.value == Gallery(entries[i])
                                    && forall j :: 0 <= j < i ==> entries[j].slug != slug
  {
    if |entries| == 0 then None
    else if entries[0].slug == slug then Some(Gallery(entries[0]))
    else
      var r := Lookup(entries[1..], slug);
      assert forall i :: 1 <= i < |entries| ==> entries[i] == entries[1..][i - 1];
      if r.Some? then
        var i :| 0 <= i < |entries[1..]| && entries[1..][i].slug == slug
                 && r.value == Gallery(entries[1..][i])
                 && forall j :: 0 <= j < i ==> entries[1..][j].slug != slug;
        assert entries[i + 1] == entries[1..][i];
        r
      else r
  }

  /** `getProductMediaStatic`: the slug's gallery, or empty exactly for a
      slug without an entry. */
  function GetStatic(slug: string): (r: seq<MediaFile>)
    ensures |r| == 0 <==> forall i :: 0 <= i < |Entries| ==> Entries[i].slug != slug
    ensures |r| > 0 ==> exists i :: 0 <= i < |Entries| && Entries[i].slug == slug && r == Gallery(Entries[i])
  {
    EntriesNonEmpty();
    Lookup(Entries, slug).GetOr([])
  }

  /** `hasMultipleMedia`. */
  function HasMultipleMedia(slug: string): (r: bool)
    ensures r <==> |GetStatic(slug)| > 1
  {
    match Lookup(Entries, slug)
    case Some(media) => |media| > 1
    case None => false
  }

  /** `getPrimaryMedia`: the first entry of the gallery, or null. */
  function GetPrimaryMedia(slug: string): (r: Option<MediaFile>)
    ensures r.None? <==> |GetStatic(slug)| == 0
    ensures r.Some? ==> r.value == GetStatic(slug)[0]
  {
    match Lookup(Entries, slug)
    case Some(media) => if |media| > 0 then Some(media[0]) else None
    case None => None
  }

  /** Every entry lists at least one picture. */
  lemma EntriesNonEmpty()
    ensures forall i :: 0 <= i < |Entries| ==> |Entries[i].pictures| > 0
  {
  }

  /** The lookups fail exactly for slugs without an entry, and a gallery with
      several pictures has a primary one. */
  lemma LookupsAgree(slug: string)
    ensures GetPrimaryMedia(slug).None? <==> |GetStatic(slug)| == 0
    ensures HasMultipleMedia(slug) ==> GetPrimaryMedia(slug).Some?
  {
    EntriesNonEmpty();
  }

  lemma PrefixOfAppend(a: string, b: string)
    ensures StartsWith(a + b, a)
  {
    assert (a + b)[..|a|] == a;
  }

  lemma SuffixOfAppend(a: string, b: string)
    ensures EndsWith(a + b, b)
  {
    assert (a + b)[|a|..] == b;
  }

  lemma LowerSuffix(s: string, p: nat)
    requires p <= |s|
    ensures Lower(s)[p..] == Lower(s[p..])
  {
  }

  /** Any name ending in `.png` is an image. */
  lemma PngIsImage(name: string)
    requires EndsWith(name, ".png")
    ensures GetMediaType(name) == Some(Image)
  {
    var p := |name| - 4;
    assert name[p..] == ".png";
    assert name[p] == '.';
    assert name[p + 1..] == "png";
    LastDotUnique(name, p);
    LowerSuffix(name, p);
    assert Lower(".png") == ".png";
    assert Extension(name) == ".png";
    assert ImageExtensions[2] == ".png";
  }

  /** Every picture of the table lies in its product's folder, and its listed
      type agrees with what its listed name classifies as. */
  lemma GalleryShape(e: Entry)
    ensures forall m :: m in Gallery(e) ==>
              && StartsWith(m.url, Dir(e.slug))
              && EndsWith(m.filename, ".png")
              && GetMediaType(m.filename) == Some(m.kind)
  {
    forall m | m in Gallery(e)
      ensures && StartsWith(m.url, Dir(e.slug))
              && EndsWith(m.filename, ".png")
              && GetMediaType(m.filename) == Some(m.kind)
    {
      var i :| 0 <= i < |Gallery(e)| && Gallery(e)[i] == m;
      PrefixOfAppend(Dir(e.slug), e.pictures[i].file);
      SuffixOfAppend(e.pictures[i].base, ".png");
      PngIsImage(m.filename);
    }
  }

  lemma StaticMediaShape(slug: string)
    ensures forall m :: m in GetStatic(slug) ==>
              && StartsWith(m.url, Dir(slug))
              && m.kind == Image
              && GetMediaType(m.filename) == Some(m.kind)
  {
    var r := Lookup(Entries, slug);
    if r.Some? {
      var i :| 0 <= i < |Entries| && Entries[i].slug == slug && r.value == Gallery(Entries[i]);
      GalleryShape(Entries[i]);
    }
  }

  /** Every gallery with several pictures leads with the picture listed as `main`. */
  lemma EntriesLeadWithMain()
    ensures forall i :: 0 <= i < |Entries| && |Entries[i].pictures| > 1 ==>
              Entries[i].pictures[0].base == "main"
  {
    forall i | 0 <= i < |Entries|
      ensures |Entries[i].pictures| > 1 ==> Entries[i].pictures[0].base == "main"
    {
      if i < 5 {
        assert Entries[i].pictures[0] == Shot("main");
      } else if i == 10 {
        assert Entries[i].pictures[0].base == "main";
      }
    }
  }

  /** The primary picture of every multi-picture gallery is its `main.png`. */
  lemma {:induction false} MultiGalleriesLeadWithMain(slug: string)
    ensures HasMultipleMedia(slug) ==> GetPrimaryMedia(slug).Some?
    ensures HasMultipleMedia(slug) ==> GetPrimaryMedia(slug).value.filename == "main.png"
  {
    EntriesLeadWithMain();
    LookupLeadsWithMain(Entries, slug);
  }

  /** In any table whose multi-picture entries lead with `main`, a looked-up
      gallery with several items starts with `main.png`. */
  lemma {:induction false} LookupLeadsWithMain(entries: seq<Entry>, slug: string)
    requires forall i :: 0 <= i < |entries| && |entries[i].pictures| > 1 ==>
               entries[i].pictures[0].base == "main"
    ensures Lookup(entries, slug).Some? && |Lookup(entries, slug).value| > 1 ==>
              Lookup(entries, slug).value[0].filename == "main.png"
  {
    var r := Lookup(entries, slug);
    if r.Some? && |r.value| > 1 {
      var i :| 0 <= i < |entries| && entries[i].slug == slug && r.value == Gallery(entries[i]);
      assert |entries[i].pictures| > 1;
      GalleryHead(entries[i]);
    }
  }

  lemma GalleryHead(e: Entry)
    requires |e.pictures| > 0
    ensures Gallery(e)[0].filename == e.pictures[0].base + ".png"
  {
  }

  /** Entries whose key differs can be skipped. */
  lemma {:induction false} LookupSkip(entries: seq<Entry>, k: nat, slug: string)
    requires k <= |entries|
    requires forall i :: 0 <= i < k ==> entries[i].slug != slug
    ensures Lookup(entries, slug) == Lookup(entries[k..], slug)
    decreases k
  {
    if k > 0 {
      assert entries[1..][k - 1..] == entries[k..];
      LookupSkip(entries[1..], k - 1, slug);
    }
  }

  lemma HeadphonesGallery()
    ensures |GetStatic("wireless-headphones")| == 4
    ensures GetPrimaryMedia("wireless-headphones") ==
            Some(MediaFile(Dir("wireless-headphones") + "main.png", Image, "main.png"))
  {
    var e := Entries[0];
    assert e.slug == "wireless-headphones";
    assert "main" + ".png" == "main.png";
    assert e.pictures[0] == Picture("main.png", "main");
    assert Gallery(e)[0] == ToMedia(e.slug, e.pictures[0]);
  }

  lemma HubLookup()
    ensures Lookup(Entries, "smart-home-hub") == Some(Gallery(Entries[6]))
  {
    assert |Entries[0].slug| == 19 && |Entries[1].slug| == 15 && |Entries[2].slug| == 17;
    assert |Entries[3].slug| == 15 && |Entries[4].slug| == 13 && |Entries[5].slug| == 16;
    LookupSkip(Entries, 6, "smart-home-hub");
    assert Entries[6..][0] == Entries[6];
  }

  lemma HubGallery()
    ensures Gallery(Entries[6]) ==
            [MediaFile(Dir("smart-home-hub") + "smart-home-hub.png", Image, "smart-home-hub.png")]
  {
    var e := Entries[6];
    assert e.slug == "smart-home-hub";
    assert "smart-home-hub" + ".png" == "smart-home-hub.png";
    assert e.pictures == [Picture("smart-home-hub.png", "smart-home-hub")];
    assert Gallery(e)[0] == ToMedia(e.slug, e.pictures[0]);
  }

  lemma SingleShotGallery()
    ensures !HasMultipleMedia("smart-home-hub")
    ensures GetPrimaryMedia("smart-home-hub") ==
            Some(MediaFile(Dir("smart-home-hub") + "smart-home-hub.png", Image, "smart-home-hub.png"))
  {
    HubLookup();
    HubGallery();
  }

  /** A slug without an entry has no media. */
  lemma UnlistedSlug()
    ensures GetStatic("mystery-box") == [] && GetPrimaryMedia("mystery-box") == None
    ensures !HasMultipleMedia("mystery-box")
  {
    assert forall i :: 0 <= i < |Entries| ==> |Entries[i].slug| != |"mystery-box"|;
  }
}

=== FILE: profile_settings.dfy ===
/** The change-password half of the profile settings page
    (src/components/auth/ProfileSettingsForm.tsx): the two checks made before
    the service is called, the form state each outcome leaves, and when the
    submit button is enabled. */
module ProfileSettings {
  import opened Wrappers

  const Mismatch := "New passwords do not match"
  const TooShort := "Password must be at least 6 characters long"
  const Updated := "Password updated successfully!"
  const UpdateFailed := "Failed to update password"

  /** The shortest password the form accepts. */
  const MinLength := 6

  /** The password form's state. */
  datatype PasswordForm = PasswordForm(
    current: string,
    newPassword: string,
    confirm: string,
    loading: bool,
    message: string,
    error: string)

  /** What a submission leaves behind: the form, and the password handed to
      `updatePassword`, if it was called. */
  datatype Submission = Submission(form: PasswordForm, sent: Option<string>)

  /** `handlePasswordChange`; `outcome` is what `updatePassword` did when it
      is called (an `Err` carries the thrown error's message, possibly empty). */
  function ChangePassword(f: PasswordForm, outcome: Result<()>): (r: Submission)
    ensures !r.form.loading
    ensures f.newPassword != f.confirm ==>
              && r.sent.None? && r.form.error == Mismatch && r.form.message == ""
              && r.form.(loading := f.loading, error := f.error, message := f.message) == f
    ensures f.newPassword == f.confirm && |f.newPassword| < MinLength ==>
              && r.sent.None? && r.form.error == TooShort && r.form.message == ""
              && r.form.(loading := f.loading, error := f.error, message := f.message) == f
    ensures r.sent.Some? <==> f.newPassword == f.confirm && |f.newPassword| >= MinLength
    ensures r.sent.Some? ==> r.sent.value == f.newPassword
    ensures r.sent.Some? && outcome.Ok? ==>
              r.form == PasswordForm("", "", "", false, Updated, "")
    ensures r.sent.Some? && outcome.Err? ==>
              && r.form.message == ""
              && r.form.error == (if outcome.message != "" then outcome.message else UpdateFailed)
              && r.form.current == f.current && r.form.newPassword == f.newPassword
              && r.form.confirm == f.confirm
  {
    var started := f.(loading := true, message := "", error := "");
    if f.newPassword != f.confirm then
      Submission(started.(error := Mismatch, loading := false), None)
    else if |f.newPassword| < MinLength then
      Submission(started.(error := TooShort, loading := false), None)
    else
      var after := match outcome
        case Ok(_) => started.(message := Updated, current := "", newPassword := "", confirm := "")
        case Err(e) => started.(error := if e != "" then e else UpdateFailed);
      Submission(after.(loading := false), Some(f.newPassword))
  }

  /** The mismatch check comes first: a short pair that differs reports the
      mismatch, not the length. */
  lemma MismatchReportedFirst(f: PasswordForm, outcome: Result<()>)
    requires f.newPassword != f.confirm && |f.newPassword| < MinLength
    ensures ChangePassword(f, outcome).form.error == Mismatch
  {
  }

  /** The current password is never checked nor sent: two forms that differ
      only in it lead to the same call and the same messages. */
  lemma CurrentPasswordIgnored(f: PasswordForm, other: string, outcome: Result<()>)
    ensures var a := ChangePassword(f, outcome);
            var b := ChangePassword(f.(current := other), outcome);
            a.sent == b.sent && a.form.error == b.form.error && a.form.message == b.form.message
  {
  }

  /** `disabled={passwordLoading || !currentPassword || !newPassword || !confirmPassword}`. */
  predicate SubmitEnabled(f: PasswordForm) {
    !f.loading && f.current != "" && f.newPassword != "" && f.confirm != ""
  }

  /** An enabled button does not rule out either check failing: an enabled
      form can still report a mismatch or a short password. */
  lemma EnabledFormsCanFail()
    ensures var f := PasswordForm("old", "abc", "abd", false, "", "");
            SubmitEnabled(f) && ChangePassword(f, Ok(())).form.error == Mismatch
    ensures var f := PasswordForm("old", "abc", "abc", false, "", "");
            SubmitEnabled(f) && ChangePassword(f, Ok(())).form.error == TooShort
  {
    assert "abc" != "abd" by { assert "abc"[2] != "abd"[2]; }
  }

  /** A successful change leaves a form whose button is disabled again. */
  lemma SuccessDisablesSubmit(f: PasswordForm)
    requires f.newPassword == f.confirm && |f.newPassword| >= MinLength
    ensures !SubmitEnabled(ChangePassword(f, Ok(())).form)
  {
  }
}

=== FILE: route_guard.dfy ===
/** The server-side route guard (src/middleware/auth.ts): which paths are
    protected or auth pages, the `Bearer` token of the Authorization header,
    the redirect decision, and the client-side `requireAuth` check.  Token
    validation is an oracle passed in as a function. */
module RouteGuard {
  import opened Wrappers
  import opened Text

  /** `protectedRoutes`. */
  const ProtectedRoutes: seq<string> := ["/account", "/account/", "/account/orders", "/account/profile"]

  /** `authRoutes`. */
  const AuthRoutes: seq<string> := ["/auth/login", "/auth/signup"]

  /** A path lies under a route when it is the route or continues it after a
      slash. */
  predicate UnderRoute(path: string, route: string) {
    path == route || StartsWith(path, route + "/")
  }

  /** `routes.some(...)`. */
  function UnderAny(path: string, routes: seq<string>): (r: bool)
    ensures r <==> exists k :: 0 <= k < |routes| && UnderRoute(path, routes[k])
  {
    if |routes| == 0 then false
    else UnderRoute(path, routes[0]) || UnderAny(path, routes[1..])
  }

  /** A path needs a signed-in user exactly when it is "/account" or lies
      below "/account/". */
  function IsProtected(path: string): (r: bool)
    ensures r <==> path == "/account" || StartsWith(path, "/account/")
  {
    ProtectedSpec(path);
    UnderAny(path, ProtectedRoutes)
  }

  /** A path is a sign-in or sign-up page exactly when it lies under one of
      the two auth routes. */
  function IsAuthRoute(path: string): (r: bool)
    ensures r <==> UnderRoute(path, "/auth/login") || UnderRoute(path, "/auth/signup")
  {
    AuthRouteSpec(path);
    UnderAny(path, AuthRoutes)
  }

  lemma PrefixOfPrefix(s: string, a: string, b: string)
    requires StartsWith(s, a + b)
    ensures StartsWith(s, a)
  {
    assert s[..|a|] == (a + b)[..|a|];
  }

  /** The four listed routes amount to "/account" and everything under
      "/account/". */
  lemma ProtectedSpec(path: string)
    ensures UnderAny(path, ProtectedRoutes) <==> path == "/account" || StartsWith(path, "/account/")
  {
    if UnderAny(path, ProtectedRoutes) {
      var k :| 0 <= k < |ProtectedRoutes| && UnderRoute(path, ProtectedRoutes[k]);
      var route := ProtectedRoutes[k];
      if k == 0 {
        if path != "/account" { assert StartsWith(path, "/account/"); }
      } else if k == 1 {
        if path != route { PrefixOfPrefix(path, "/account/", "/"); }
      } else if k == 2 {
        assert route == "/account/" + "orders";
        if path == route { PrefixOfPrefix(path, "/account/", "orders"); }
        else {
          assert route + "/" == "/account/" + "orders/";
          PrefixOfPrefix(path, "/account/", "orders/");
        }
      } else {
        assert route == "/account/" + "profile";
        if path == route { PrefixOfPrefix(path, "/account/", "profile"); }
        else {
          assert route + "/" == "/account/" + "profile/";
          PrefixOfPrefix(path, "/account/", "profile/");
        }
      }
    }
    if path == "/account" || StartsWith(path, "/account/") {
      assert UnderRoute(path, ProtectedRoutes[0]);
    }
  }

  lemma AuthRouteSpec(path: string)
    ensures UnderAny(path, AuthRoutes) <==> UnderRoute(path, "/auth/login") || UnderRoute(path, "/auth/signup")
  {
    if UnderRoute(path, "/auth/login") { assert UnderRoute(path, AuthRoutes[0]); }
    if UnderRoute(path, "/auth/signup") { assert UnderRoute(path, AuthRoutes[1]); }
  }

  /** Every protected path starts "/ac" and every auth path "/au", so no path
      is both and at most one redirect can apply. */
  lemma RoutesDisjoint(path: string)
    ensures !(IsProtected(path) && IsAuthRoute(path))
  {
    if IsProtected(path) {
      assert StartsWith(path, "/ac") by {
        if path != "/account" { PrefixOfPrefix(path, "/ac", "count/"); }
      }
      assert path[2] == 'c';
      assert !UnderRoute(path, "/auth/login") by {
        if StartsWith(path, "/auth/login/") { PrefixOfPrefix(path, "/au", "th/login/"); }
      }
      assert !UnderRoute(path, "/auth/signup") by {
        if StartsWith(path, "/auth/signup/") { PrefixOfPrefix(path, "/au", "th/signup/"); }
      }
    }
  }

  /** Sub-pages of a protected route are protected; a longer word is not. */
  lemma ClassificationExamples()
    ensures IsProtected("/account/orders/1")
    ensures !IsProtected("/accounts")
    ensures IsAuthRoute("/auth/signup/")
    ensures !IsAuthRoute("/auth/loginx")
  {
    assert StartsWith("/account/orders/1", "/account/");
    assert "/accounts"[8] == 's';
    assert StartsWith("/auth/signup/", "/auth/signup" + "/");
    assert "/auth/loginx"[6] == 'l' && "/auth/loginx"[11] == 'x';
    assert ("/auth/login" + "/")[11] == '/';
  }

  // ---------------------------------------------------------------------------
  // The session
  // ---------------------------------------------------------------------------

  const BearerPrefix := "Bearer "

  /** The token of an `Authorization` header: the text after "Bearer ", when
      the header is present and starts with it. */
  function BearerToken(header: Option<string>): (r: Option<string>)
    ensures r.Some? <==> header.Some? && StartsWith(header.value, BearerPrefix)
    ensures r.Some? ==> BearerPrefix + r.value == header.value
  {
    if header.Some? && StartsWith(header.value, BearerPrefix) then
      var token := header.value[7..];
      assert header.value == header.value[..7] + token;
      Some(token)
    else None
  }

  /** Whatever follows "Bearer " is handed to validation unchanged. */
  lemma BearerRoundTrip(token: string)
    ensures BearerToken(Some(BearerPrefix + token)) == Some(token)
  {
    assert (BearerPrefix + token)[..7] == BearerPrefix;
    assert (BearerPrefix + token)[7..] == token;
  }

  /** Any other scheme, including a lower-case "bearer ", yields no token. */
  lemma OtherSchemes()
    ensures BearerToken(Some("bearer abc")) == None
    ensures BearerToken(Some("Basic abc")) == None
    ensures BearerToken(None) == None
  {
    assert "bearer abc"[0] == 'b';
    assert "Basic abc"[1] == 'a';
  }

  /** What `supabase.auth.getUser(token)` did: it returned a user and an
      error, each possibly absent, or it threw. */
  datatype Validation = Returned(user: Option<string>, error: Option<string>) | Threw

  /** The request's session: the validated user, present only when the
      header carries a token and validation returned a user with no error. */
  function SessionOf(header: Option<string>, validate: string -> Validation): (r: Option<string>)
    ensures r.Some? <==>
              && BearerToken(header).Some?
              && validate(BearerToken(header).value).Returned?
              && validate(BearerToken(header).value).user.Some?
              && validate(BearerToken(header).value).error.None?
    ensures r.Some? ==> r == validate(BearerToken(header).value).user
  {
    match BearerToken(header)
    case None => None
    case Some(token) =>
      match validate(token)
      case Threw => None
      case Returned(user, error) => if error.None? && user.Some? then user else None
  }

  // ---------------------------------------------------------------------------
  // The decision
  // ---------------------------------------------------------------------------

  datatype Outcome = Redirect(target: string) | PassThrough

  function Decide(path: string, signedIn: bool): (r: Outcome)
    ensures r == Redirect("/auth/login") <==> IsProtected(path) && !signedIn
    ensures r == Redirect("/account") <==> IsAuthRoute(path) && signedIn
    ensures r == PassThrough <==> !(IsProtected(path) && !signedIn) && !(IsAuthRoute(path) && signedIn)
  {
    if IsProtected(path) && !signedIn then Redirect("/auth/login")
    else if IsAuthRoute(path) && signedIn then Redirect("/account")
    else PassThrough
  }

  /** `authMiddleware`. */
  function Guard(path: string, header: Option<string>, validate: string -> Validation): (r: Outcome)
    ensures r.Redirect? ==> r.target == "/auth/login" || r.target == "/account"
    ensures r == Redirect("/auth/login") <==> IsProtected(path) && SessionOf(header, validate).None?
    ensures r == Redirect("/account") <==> IsAuthRoute(path) && SessionOf(header, validate).Some?
  {
    Decide(path, SessionOf(header, validate).Some?)
  }

  /** Only one of the two redirect rules can ever fire for a path: a
      protected path never goes to the account page and an auth page never
      goes to the login page. */
  lemma SingleRedirectRule(path: string, signedIn: bool)
    ensures IsProtected(path) ==> Decide(path, signedIn) != Redirect("/account")
    ensures IsAuthRoute(path) ==> Decide(path, signedIn) != Redirect("/auth/login")
  {
    RoutesDisjoint(path);
  }

  /** Without a usable token a protected page always redirects to login, and
      an auth page is always served. */
  lemma NoTokenNoSession(path: string, header: Option<string>, validate: string -> Validation)
    requires BearerToken(header).None?
    ensures IsProtected(path) ==> Guard(path, header, validate) == Redirect("/auth/login")
    ensures IsAuthRoute(path) ==> Guard(path, header, validate) == PassThrough
  {
    RoutesDisjoint(path);
  }

  /** A validation that throws counts as no session. */
  lemma ThrowingValidation(path: string, token: string)
    requires IsProtected(path)
    ensures Guard(path, Some(BearerPrefix + token), _ => Threw) == Redirect("/auth/login")
  {
    BearerRoundTrip(token);
  }

  // ---------------------------------------------------------------------------
  // requireAuth
  // ---------------------------------------------------------------------------

  /** The auth atoms as `checkAuth` reads them. */
  datatype Atoms = Atoms(loading: bool, user: Option<string>)

  /** `checkAuth`: the page it navigates to, if any. */
  function CheckAuth(a: Atoms): (r: Option<string>)
    ensures r.Some? <==> !a.loading && a.user.None?
    ensures r.Some? ==> r.value == "/auth/login"
  {
    if !a.loading && a.user.None? then Some("/auth/login") else None
  }

  /** `requireAuth`: in a browser, one check straight away and one 1000 ms
      later, each reading the atoms as they are then; outside a browser
      nothing happens.  The result lists the navigations made. */
  function RequireAuth(hasWindow: bool, atStart: Atoms, after1000: Atoms): (r: seq<string>)
    ensures !hasWindow ==> r == []
    ensures |r| <= 2
    ensures forall k :: 0 <= k < |r| ==> r[k] == "/auth/login"
    ensures hasWindow ==> (|r| > 0 <==> CheckAuth(atStart).Some? || CheckAuth(after1000).Some?)
  {
    if !hasWindow then []
    else
      (if CheckAuth(atStart).Some? then ["/auth/login"] else [])
      + (if CheckAuth(after1000).Some? then ["/auth/login"] else [])
  }

  /** A signed-in user, or an auth state still loading at both checks, is
      never sent away. */
  lemma RequireAuthKeeps(hasWindow: bool, atStart: Atoms, after1000: Atoms)
    requires atStart.loading || atStart.user.Some?
    requires after1000.loading || after1000.user.Some?
    ensures RequireAuth(hasWindow, atStart, after1000) == []
  {
  }
}

=== FILE: search.dfy ===
/** The header search box (src/components/SearchWithResults.tsx): the product
    filter, the six-result slice, what the dropdown panel shows, and where
    submitting or clicking a result navigates.  The timing of the search is
    modelled in `SearchDebounce`. */
module Search {
  import opened Wrappers
  import opened Text
  import opened Catalog
  import opened ProductMedia
  import Uri

  /** At most this many products are listed in the dropdown. */
  const ResultLimit := 6

  /** A product matches when the lower-cased term occurs in its lower-cased
      name, description or category. */
  function Matches(p: Product, term: string): (r: bool)
    ensures r <==>
              || IsSubstring(Lower(term), Lower(p.name))
              || IsSubstring(Lower(term), Lower(p.description))
              || IsSubstring(Lower(term), Lower(p.category))
  {
    FoldedIncludesSpec(p.name, term);
    FoldedIncludesSpec(p.description, term);
    FoldedIncludesSpec(p.category, term);
    FoldedIncludes(p.name, term) || FoldedIncludes(p.description, term)
    || FoldedIncludes(p.category, term)
  }

  /** `products.filter(...)`: the matching products in catalogue order. */
  function Filter(catalog: seq<Product>, term: string): (r: seq<Product>)
    ensures |r| <= |catalog|
    ensures forall i :: 0 <= i < |r| ==> Matches(r[i], term)
  {
    if |catalog| == 0 then []
    else if Matches(catalog[0], term) then [catalog[0]] + Filter(catalog[1..], term)
    else Filter(catalog[1..], term)
  }

  /** A product is kept exactly when it is in the catalogue and matches. */
  lemma {:induction false} FilterMembership(catalog: seq<Product>, term: string)
    ensures forall p :: p in Filter(catalog, term) <==> p in catalog && Matches(p, term)
    decreases |catalog|
  {
    if |catalog| > 0 {
      FilterMembership(catalog[1..], term);
      assert catalog == [catalog[0]] + catalog[1..];
    }
  }

  /** Filtering commutes with concatenation, so the catalogue order is kept. */
  lemma {:induction false} FilterAppend(a: seq<Product>, b: seq<Product>, term: string)
    ensures Filter(a + b, term) == Filter(a, term) + Filter(b, term)
    decreases |a|
  {
    if |a| > 0 {
      assert (a + b)[1..] == a[1..] + b;
      FilterAppend(a[1..], b, term);
    } else {
      assert a + b == b;
    }
  }

  /** `performSearch`'s list: the first six matches, in catalogue order. */
  function PerformSearch(catalog: seq<Product>, term: string): (r: seq<Product>)
    ensures |r| <= ResultLimit
    ensures |r| == Min(ResultLimit, |Filter(catalog, term)|)
  {
    var matches := Filter(catalog, term);
    if |matches| <= ResultLimit then matches else matches[..ResultLimit]
  }

  /** Every listed product matches; the list is a prefix of all matches; it
      holds every match when there are fewer than six; and a product outside
      the list is either not a match or comes after six earlier matches. */
  lemma PerformSearchSpec(catalog: seq<Product>, term: string)
    ensures var r := PerformSearch(catalog, term);
            && (forall p :: p in r ==> p in catalog && Matches(p, term))
            && r == Filter(catalog, term)[..|r|]
            && (|r| < ResultLimit ==> r == Filter(catalog, term))
            && (|Filter(catalog, term)| > ResultLimit ==> |r| == ResultLimit)
  {
    FilterMembership(catalog, term);
    var r := PerformSearch(catalog, term);
    forall p | p in r
      ensures p in Filter(catalog, term)
    {
      var i :| 0 <= i < |r| && r[i] == p;
      assert Filter(catalog, term)[i] == p;
    }
  }

  /** Upper and lower case make no difference to the search. */
  lemma SearchIgnoresCase(catalog: seq<Product>, t: string, u: string)
    requires Lower(t) == Lower(u)
    ensures PerformSearch(catalog, t) == PerformSearch(catalog, u)
  {
    forall p ensures Matches(p, t) == Matches(p, u) {
    }
    assert Filter(catalog, t) == Filter(catalog, u) by {
      FilterSameTerms(catalog, t, u);
    }
  }

  lemma {:induction false} FilterSameTerms(catalog: seq<Product>, t: string, u: string)
    requires forall p :: Matches(p, t) == Matches(p, u)
    ensures Filter(catalog, t) == Filter(catalog, u)
    decreases |catalog|
  {
    if |catalog| > 0 {
      FilterSameTerms(catalog[1..], t, u);
    }
  }

  /** A longer term only narrows the matches. */
  lemma ExtendingNarrows(p: Product, t: string, u: string)
    requires Matches(p, t + u)
    ensures Matches(p, t)
  {
    LowerAppend(t, u);
    var lt, lu := Lower(t), Lower(u);
    forall s: string, k | OccursAt(lt + lu, s, k)
      ensures OccursAt(lt, s, k)
    {
      assert s[k..k + |lt|] == (lt + lu)[..|lt|];
    }
  }

  /** The box searches with the raw query: surrounding blanks are part of the
      term, so " smart" misses a product that "smart" finds. */
  lemma RawTermMatters()
    ensures var p := Product("12", "Smartwatch", "Watch", 100, "", "watch", "Tech");
            Matches(p, "smart") && !Matches(p, " smart")
  {
  }

  // ---------------------------------------------------------------------------
  // The dropdown panel
  // ---------------------------------------------------------------------------

  /** What the dropdown shows. */
  datatype Panel =
    | Closed                                      // `showResults` is false
    | Spinner                                     // a search is in flight
    | ResultList(items: seq<Product>, viewAll: bool)
    | NoProducts                                  // "No products found" with "Search anyway"
    | Empty                                       // an open panel with nothing in it

  /** What the dropdown shows.  An open, idle panel lists the results whenever
      there are any; "View all results" appears exactly when six results are
      listed, and "No products found" exactly for an empty list
      under a non-blank query. */
  function ShowPanel(showResults: bool, isLoading: bool, results: seq<Product>, query: string): (v: Panel)
    ensures v.ResultList? <==> showResults && !isLoading && |results| > 0
    ensures v.ResultList? && v.viewAll <==> showResults && !isLoading && |results| == ResultLimit
    ensures v.ResultList? ==> v.items == results && |v.items| > 0
    ensures v == NoProducts <==> showResults && !isLoading && |results| == 0 && !Blank(query)
    ensures v == Spinner <==> showResults && isLoading
    ensures v == Closed <==> !showResults
  {
    if !showResults then Closed
    else if isLoading then Spinner
    else if |results| > 0 then ResultList(results, |results| == ResultLimit)
    else if !Blank(query) then NoProducts
    else Empty
  }

  /** The thumbnail of a listed product: the first picture of its gallery, or
      its own `image` when there is none or the picture's url is empty. */
  function Thumbnail(p: Product): (r: string)
    ensures GetPrimaryMedia(p.slug).Some? && GetPrimaryMedia(p.slug).value.url != "" ==>
              r == GetStatic(p.slug)[0].url
    ensures GetPrimaryMedia(p.slug).Some? && GetPrimaryMedia(p.slug).value.url == "" ==> r == p.image
    ensures |GetStatic(p.slug)| == 0 ==> r == p.image
  {
    match GetPrimaryMedia(p.slug)
    case Some(m) => if m.url != "" then m.url else p.image
    case None => p.image
  }

  /** The dropdown's thumbnail is the first picture the product page shows:
      every url of the media table lies in a non-empty folder, so the `||`
      fallback only matters for products without a gallery, where the page
      falls back to the same `image`. */
  lemma ThumbnailLeadsPage(p: Product)
    ensures Thumbnail(p) == MediaOrFallback(p)[0].url
  {
    var media := GetStatic(p.slug);
    if |media| > 0 {
      StaticMediaShape(p.slug);
      assert media[0] in media;
      assert StartsWith(media[0].url, Dir(p.slug));
      assert |Dir(p.slug)| > 0;
    }
  }

  // ---------------------------------------------------------------------------
  // Navigation
  // ---------------------------------------------------------------------------

  /** `handleSubmit` and `handleViewAllResults`: the search page for the raw
      query, or nowhere when the query is blank. */
  function SubmitTarget(query: string): (r: Option<string>)
    ensures r.None? <==> Blank(query)
    ensures r.Some? ==> StartsWith(r.value, "/search?query=")
                        && Uri.DecodeURIComponent(r.value[|"/search?query="|..]) == Some(query)
  {
    if Blank(query) then None
    else
      var target := "/search?query=" + Uri.EncodeURIComponent(query);
      assert target[..|"/search?query="|] == "/search?query=";
      assert target[|"/search?query="|..] == Uri.EncodeURIComponent(query);
      Uri.RoundTrip(query);
      Some(target)
  }

  /** `handleResultClick`. */
  function ProductPage(slug: string): (r: string)
    ensures StartsWith(r, "/products/") && r[|"/products/"|..] == slug
  {
    var r := "/products/" + slug;
    assert r[..10] == "/products/";
    r
  }
}

=== FILE: search_debounce.dfy ===
/** The timing of the header search (src/components/SearchWithResults.tsx:24-64)
    as a discrete-time machine with one tick per millisecond.

    Every change of the query cancels the pending timer and starts a new one
    of 300 ms.  When a timer fires, a blank query clears the results and hides
    the panel; any other query starts an evaluation that commits its results
    100 ms later.  There is no generation counter: nothing discards an
    evaluation whose query has been edited meanwhile, and the order of the
    commits follows from the two delays alone. */
module SearchDebounce {
  import opened Wrappers
  import opened Text
  import opened Catalog
  import opened Search

  const DebounceMs := 300
  const EvaluationMs := 100

  /** The pending `setTimeout` of the debounce effect and the query it captured. */
  datatype Timer = Timer(fireAt: nat, term: string)

  /** A started `performSearch` and the moment its results commit. */
  datatype Evaluation = Evaluation(commitAt: nat, term: string)

  /** The component's state, plus the log of terms handed to `performSearch`
      (`started`) and the terms whose results were committed (`committed`). */
  datatype Session = Session(
    now: nat,
    query: string,
    timer: Option<Timer>,
    pending: seq<Evaluation>,
    results: seq<Product>,
    showResults: bool,
    isLoading: bool,
    started: seq<string>,
    committed: seq<string>)

  datatype Event = Change(text: string) | Tick | ClickOutside

  /** On mount the effect runs once with the empty query. */
  function Init(): Session {
    Session(0, "", Some(Timer(DebounceMs, "")), [], [], false, false, [], [])
  }

  /** `setQuery(text)`.  React keeps the state when the value is unchanged, so
      the effect is not re-run and the running timer is kept; otherwise the
      old timer is cleared and a new one captures the new query. */
  function OnChange(s: Session, text: string): (r: Session)
    ensures r.query == text
    ensures text != s.query ==> r.timer == Some(Timer(s.now + DebounceMs, text))
    ensures r.results == s.results && r.showResults == s.showResults && r.pending == s.pending
  {
    if text == s.query then s
    else s.(query := text, timer := Some(Timer(s.now + DebounceMs, text)))
  }

  /** A mousedown outside the search box closes the panel and changes
      nothing else. */
  function OnClickOutside(s: Session): (r: Session)
    ensures ShowPanel(r.showResults, r.isLoading, r.results, r.query) == Closed
    ensures r.(showResults := s.showResults) == s
  {
    s.(showResults := false)
  }

  /** The oldest in-flight evaluation lands: its term is committed, the panel
      opens on its results, and the spinner goes even if another evaluation is
      still in flight (each timeout callback clears `isLoading` after setting
      the results). */
  function Commit(catalog: seq<Product>, s: Session): (r: Session)
    requires |s.pending| > 0
    ensures r.committed == s.committed + [s.pending[0].term] && r.pending == s.pending[1..]
    ensures r.results == PerformSearch(catalog, s.pending[0].term)
    ensures r.showResults && !r.isLoading
    ensures r.now == s.now && r.query == s.query && r.timer == s.timer && r.started == s.started
  {
    var e := s.pending[0];
    s.(pending := s.pending[1..], results := PerformSearch(catalog, e.term), showResults := true,
       isLoading := false, committed := s.committed + [e.term])
  }

  /** Every evaluation due now lands, oldest first. */
  function CommitDue(catalog: seq<Product>, s: Session): (r: Session)
    ensures r.now == s.now && r.query == s.query && r.timer == s.timer && r.started == s.started
    ensures s.committed <= r.committed
    decreases |s.pending|
  {
    if |s.pending| > 0 && s.pending[0].commitAt == s.now then CommitDue(catalog, Commit(catalog, s))
    else s
  }

  /** The debounce timer fires: a blank query clears the results and closes
      the panel; any other query starts one evaluation of it, due 100 ms
      later, and sets `isLoading` without opening the panel, so the spinner
      only shows when the panel is already open. */
  function Fire(s: Session, t: Timer): (r: Session)
    ensures r.timer.None? && r.now == s.now && r.query == s.query && r.committed == s.committed
    ensures !Blank(t.term) ==>
              && r.started == s.started + [t.term]
              && r.pending == s.pending + [Evaluation(s.now + EvaluationMs, t.term)]
              && r.isLoading && r.results == s.results && r.showResults == s.showResults
    ensures Blank(t.term) ==>
              && r.started == s.started && r.pending == s.pending && r.results == []
              && ShowPanel(r.showResults, r.isLoading, r.results, r.query) == Closed
  {
    if !Blank(t.term) then
      s.(timer := None, isLoading := true, pending := s.pending + [Evaluation(s.now + EvaluationMs, t.term)],
         started := s.started + [t.term])
    else
      s.(timer := None, results := [], showResults := false)
  }

  /** A timer that is due now fires. */
  function FireDue(s: Session): (r: Session)
    ensures r.now == s.now && r.query == s.query && r.committed == s.committed
    ensures r.started == s.started || (s.timer.Some? && s.timer.value.fireAt == s.now
                                       && r.started == s.started + [s.timer.value.term])
  {
    match s.timer
    case Some(t) => if t.fireAt == s.now then Fire(s, t) else s
    case None => s
  }

  /** One millisecond passes: due commits land, then a due timer fires.  At
      most one search starts, for the text the timer captured, and only when
      that timer falls due in this millisecond; committed terms are only added. */
  function OnTick(catalog: seq<Product>, s: Session): (r: Session)
    ensures r.now == s.now + 1 && r.query == s.query
    ensures s.committed <= r.committed
    ensures r.started == s.started || (s.timer.Some? && s.timer.value.fireAt == s.now + 1
                                       && r.started == s.started + [s.timer.value.term])
  {
    FireDue(CommitDue(catalog, s.(now := s.now + 1)))
  }

  function Step(catalog: seq<Product>, s: Session, e: Event): Session {
    match e
    case Change(text) => OnChange(s, text)
    case Tick => OnTick(catalog, s)
    case ClickOutside => OnClickOutside(s)
  }

  function Run(catalog: seq<Product>, s: Session, events: seq<Event>): Session
    decreases |events|
  {
    if |events| == 0 then s else Run(catalog, Step(catalog, s, events[0]), events[1..])
  }

  function Ticks(catalog: seq<Product>, s: Session, k: nat): Session
    decreases k
  {
    if k == 0 then s else Ticks(catalog, OnTick(catalog, s), k - 1)
  }

  function Terms(pending: seq<Evaluation>): seq<string> {
    seq(|pending|, i requires 0 <= i < |pending| => pending[i].term)
  }

  function Last(xs: seq<string>): string
    requires |xs| > 0
  {
    xs[|xs| - 1]
  }

  /** What a quiet search box shows: nothing for a blank query, otherwise the
      search for the query as it stands. */
  predicate Settled(catalog: seq<Product>, s: Session) {
    if Blank(s.query) then s.results == [] && !s.showResults
    else s.results == PerformSearch(catalog, s.query)
  }

  predicate Quiet(s: Session) {
    s.timer.None? && |s.pending| == 0
  }

  /** The invariant of the machine. */
  predicate Inv(catalog: seq<Product>, s: Session) {
    // the running timer fires within 300 ms and carries the current query
    && (s.timer.Some? ==> s.now < s.timer.value.fireAt <= s.now + DebounceMs
                          && s.timer.value.term == s.query)
    // at most one evaluation is in flight, landing within 100 ms
    && |s.pending| <= 1
    && (forall i :: 0 <= i < |s.pending| ==>
          s.now < s.pending[i].commitAt <= s.now + EvaluationMs && !Blank(s.pending[i].term))
    // it lands before the running timer fires
    && (|s.pending| > 0 && s.timer.Some? ==> s.pending[0].commitAt < s.timer.value.fireAt)
    && (s.isLoading <==> |s.pending| > 0)
    // evaluations commit in the order they started
    && s.started == s.committed + Terms(s.pending)
    && (s.timer.None? && |s.pending| > 0 ==> s.pending[0].term == s.query)
    && (Quiet(s) ==> Settled(catalog, s))
    // the listed results are those of the last committed term
    && (s.results == [] || (|s.committed| > 0 && s.results == PerformSearch(catalog, Last(s.committed))))
  }

  lemma InitInv(catalog: seq<Product>)
    ensures Inv(catalog, Init())
  {
  }

  lemma TickInv(catalog: seq<Product>, s: Session)
    requires Inv(catalog, s)
    ensures var r := OnTick(catalog, s);
            && Inv(catalog, r)
            && r.now == s.now + 1 && r.query == s.query
            && (r.timer.Some? ==> r.timer == s.timer)
            && (s.timer.Some? && s.timer.value.fireAt > s.now + 1 ==> r.timer == s.timer)
            && (s.timer.Some? && s.timer.value.fireAt == s.now + 1 && !Blank(s.timer.value.term) ==>
                  r.started == s.started + [s.timer.value.term])
            && (!(s.timer.Some? && s.timer.value.fireAt == s.now + 1 && !Blank(s.timer.value.term)) ==>
                  r.started == s.started)
  {
    var s2 := CommitDue(catalog, s.(now := s.now + 1));
    CommitDueInv(catalog, s);
    FireDueInv(catalog, s2);
  }

  /** The evaluations due at the next millisecond land: with the clock read
      one step back, the invariant still holds, and nothing left in flight is
      due yet. */
  lemma CommitDueInv(catalog: seq<Product>, s: Session)
    requires Inv(catalog, s)
    ensures var s2 := CommitDue(catalog, s.(now := s.now + 1));
            && Inv(catalog, s2.(now := s.now))
            && s2.now == s.now + 1 && s2.timer == s.timer && s2.started == s.started
            && (|s2.pending| > 0 ==> s2.pending[0].commitAt > s2.now)
  {
    var s1 := s.(now := s.now + 1);
    var s2 := CommitDue(catalog, s1);
    if |s1.pending| > 0 && s1.pending[0].commitAt == s1.now {
      var c := Commit(catalog, s1);
      assert c.pending == [];
      assert CommitDue(catalog, c) == c;
      assert s2 == c;
      assert Terms(s1.pending) == [s1.pending[0].term];
    } else {
      assert s2 == s1;
    }
  }

  /** A timer due at the current millisecond fires, and the invariant holds
      again at the current time. */
  lemma FireDueInv(catalog: seq<Product>, s: Session)
    requires s.now > 0 && Inv(catalog, s.(now := s.now - 1))
    requires |s.pending| > 0 ==> s.pending[0].commitAt > s.now
    ensures var r := FireDue(s);
            && Inv(catalog, r)
            && (r.timer.Some? ==> r.timer == s.timer)
            && (s.timer.Some? && s.timer.value.fireAt > s.now ==> r.timer == s.timer)
            && (s.timer.Some? && s.timer.value.fireAt == s.now && !Blank(s.timer.value.term) ==>
                  r.started == s.started + [s.timer.value.term])
            && (!(s.timer.Some? && s.timer.value.fireAt == s.now && !Blank(s.timer.value.term)) ==>
                  r.started == s.started)
  {
    assert Terms(s.pending + [Evaluation(s.now + EvaluationMs, s.query)]) == Terms(s.pending) + [s.query];
  }

  lemma ChangeInv(catalog: seq<Product>, s: Session, text: string)
    requires Inv(catalog, s)
    ensures Inv(catalog, OnChange(s, text))
    ensures OnChange(s, text).started == s.started && OnChange(s, text).committed == s.committed
  {
  }

  lemma StepInv(catalog: seq<Product>, s: Session, e: Event)
    requires Inv(catalog, s)
    ensures Inv(catalog, Step(catalog, s, e))
  {
    match e
    case Change(text) => ChangeInv(catalog, s, text);
    case Tick => TickInv(catalog, s);
    case ClickOutside =>
  }

  /** The invariant holds along every run: in particular at most one
      evaluation is ever in flight, and evaluations commit in the order they
      started, so the listed results always belong to the last term committed. */
  lemma {:induction false} RunInv(catalog: seq<Product>, s: Session, events: seq<Event>)
    requires Inv(catalog, s)
    ensures var r := Run(catalog, s, events);
            && Inv(catalog, r)
            && |r.pending| <= 1
            && r.committed <= r.started
            && s.started <= r.started
            && s.committed <= r.committed
    decreases |events|
  {
    if |events| > 0 {
      var s1 := Step(catalog, s, events[0]);
      StepInv(catalog, s, events[0]);
      StepLogsGrow(catalog, s, events[0]);
      RunInv(catalog, s1, events[1..]);
    }
  }

  lemma StepLogsGrow(catalog: seq<Product>, s: Session, e: Event)
    requires Inv(catalog, s)
    ensures s.started <= Step(catalog, s, e).started
    ensures s.committed <= Step(catalog, s, e).committed
  {
    if e.Tick? {
      TickInv(catalog, s);
      var s1 := s.(now := s.now + 1);
      if |s1.pending| > 0 && s1.pending[0].commitAt == s1.now {
        assert CommitDue(catalog, s1) == Commit(catalog, s1);
      }
    }
  }

  // ---------------------------------------------------------------------------
  // Runs of ticks
  // ---------------------------------------------------------------------------

  lemma {:induction false} TicksInv(catalog: seq<Product>, s: Session, k: nat)
    requires Inv(catalog, s)
    ensures var r := Ticks(catalog, s, k);
            Inv(catalog, r) && r.now == s.now + k && r.query == s.query
    decreases k
  {
    if k > 0 {
      TickInv(catalog, s);
      TicksInv(catalog, OnTick(catalog, s), k - 1);
    }
  }

  /** Ticks before the running timer's deadline start nothing, and the timer
      stays; once it has fired, its term is started exactly once (unless blank). */
  lemma {:induction false} TicksStarted(catalog: seq<Product>, s: Session, k: nat)
    requires Inv(catalog, s)
    ensures var r := Ticks(catalog, s, k);
            var fires := s.timer.Some? && s.timer.value.fireAt <= s.now + k;
            && (fires && !Blank(s.query) ==> r.started == s.started + [s.query])
            && (!(fires && !Blank(s.query)) ==> r.started == s.started)
            && (!fires ==> r.timer == s.timer)
            && (fires ==> r.timer.None?)
    decreases k
  {
    if k > 0 {
      var s1 := OnTick(catalog, s);
      TickInv(catalog, s);
      TicksStarted(catalog, s1, k - 1);
    }
  }

  /** Ticks in which nothing is due only move the clock. */
  lemma {:induction false} QuietTicks(catalog: seq<Product>, s: Session, k: nat)
    requires Inv(catalog, s)
    requires s.timer.Some? ==> s.timer.value.fireAt > s.now + k
    requires |s.pending| > 0 ==> s.pending[0].commitAt > s.now + k
    ensures Ticks(catalog, s, k) == s.(now := s.now + k)
    decreases k
  {
    if k > 0 {
      var s1 := s.(now := s.now + 1);
      assert CommitDue(catalog, s1) == s1;
      assert OnTick(catalog, s) == s1;
      QuietTicks(catalog, s1, k - 1);
    }
  }

  /** Nothing started later than `bound` keeps the machine busy past it. */
  predicate DoneBy(s: Session, bound: int) {
    && (s.timer.Some? ==> s.timer.value.fireAt <= bound)
    && (forall i :: 0 <= i < |s.pending| ==> s.pending[i].commitAt <= bound + EvaluationMs)
  }

  lemma {:induction false} TicksDoneBy(catalog: seq<Product>, s: Session, k: nat, bound: int)
    requires Inv(catalog, s) && DoneBy(s, bound)
    ensures DoneBy(Ticks(catalog, s, k), bound)
    decreases k
  {
    if k > 0 {
      TickInv(catalog, s);
      var s1 := s.(now := s.now + 1);
      if |s1.pending| > 0 && s1.pending[0].commitAt == s1.now {
        assert CommitDue(catalog, s1) == Commit(catalog, s1);
      }
      TicksDoneBy(catalog, OnTick(catalog, s), k - 1, bound);
    }
  }

  /** 400 ms without input settle the box: no timer, nothing in flight, and
      the results are those of the query as it stands (none for a blank one). */
  lemma SettlesWithin400(catalog: seq<Product>, s: Session)
    requires Inv(catalog, s)
    ensures var r := Ticks(catalog, s, DebounceMs + EvaluationMs);
            && Quiet(r) && Settled(catalog, r) && r.query == s.query
            && (!Blank(s.query) ==> r.results == PerformSearch(catalog, s.query))
  {
    var k := DebounceMs + EvaluationMs;
    TicksInv(catalog, s, k);
    TicksDoneBy(catalog, s, k, s.now + DebounceMs);
  }

  // ---------------------------------------------------------------------------
  // Bursts of typing
  // ---------------------------------------------------------------------------

  /** Typing `texts[i]` and then waiting `gaps[i]` milliseconds, in turn. */
  function Typing(catalog: seq<Product>, s: Session, texts: seq<string>, gaps: seq<nat>): Session
    requires |texts| == |gaps|
    decreases |texts|
  {
    if |texts| == 0 then s
    else Typing(catalog, Ticks(catalog, OnChange(s, texts[0]), gaps[0]), texts[1..], gaps[1..])
  }

  /** Every keystroke changes the input's value. */
  predicate Keystrokes(s: Session, texts: seq<string>) {
    && (|texts| > 0 ==> texts[0] != s.query)
    && (forall i :: 0 < i < |texts| ==> texts[i] != texts[i - 1])
  }

  /** Changes less than 300 ms apart start no evaluation; the timer that
      remains carries the last text. */
  lemma {:induction false} BurstStartsNothing(catalog: seq<Product>, s: Session, texts: seq<string>, gaps: seq<nat>)
    requires Inv(catalog, s)
    requires |texts| == |gaps| > 0 && Keystrokes(s, texts)
    requires forall i :: 0 <= i < |gaps| ==> gaps[i] < DebounceMs
    ensures var r := Typing(catalog, s, texts, gaps);
            && Inv(catalog, r)
            && r.started == s.started
            && r.query == texts[|texts| - 1]
            && r.timer.Some? && r.timer.value.term == texts[|texts| - 1]
    decreases |texts|
  {
    var s1 := OnChange(s, texts[0]);
    ChangeInv(catalog, s, texts[0]);
    TicksStarted(catalog, s1, gaps[0]);
    TicksInv(catalog, s1, gaps[0]);
    var s2 := Ticks(catalog, s1, gaps[0]);
    if |texts| > 1 {
      BurstStartsNothing(catalog, s2, texts[1..], gaps[1..]);
    }
  }

  /** A burst of changes less than 300 ms apart, followed by a pause, runs
      exactly one evaluation, on the last query (none when it is blank), and
      the panel then lists that query's results. */
  lemma BurstRunsOnce(catalog: seq<Product>, s: Session, texts: seq<string>, gaps: seq<nat>)
    requires Inv(catalog, s)
    requires |texts| == |gaps| > 0 && Keystrokes(s, texts)
    requires forall i :: 0 <= i < |gaps| ==> gaps[i] < DebounceMs
    ensures var last := texts[|texts| - 1];
            var r := Ticks(catalog, Typing(catalog, s, texts, gaps), DebounceMs + EvaluationMs);
            && r.started == s.started + (if Blank(last) then [] else [last])
            && Quiet(r)
            && (!Blank(last) ==> r.results == PerformSearch(catalog, last)
                                 && |r.committed| > 0 && Last(r.committed) == last)
            && (Blank(last) ==> r.results == [] && !r.showResults)
  {
    BurstStartsNothing(catalog, s, texts, gaps);
    AfterPause(catalog, Typing(catalog, s, texts, gaps));
  }

  /** From a running timer, a pause of 400 ms runs the timer's query once. */
  lemma AfterPause(catalog: seq<Product>, b: Session)
    requires Inv(catalog, b) && b.timer.Some?
    ensures var r := Ticks(catalog, b, DebounceMs + EvaluationMs);
            && r.started == b.started + (if Blank(b.query) then [] else [b.query])
            && Quiet(r)
            && (!Blank(b.query) ==> r.results == PerformSearch(catalog, b.query)
                                    && |r.committed| > 0 && Last(r.committed) == b.query)
            && (Blank(b.query) ==> r.results == [] && !r.showResults)
  {
    TicksStarted(catalog, b, DebounceMs + EvaluationMs);
    SettlesWithin400(catalog, b);
    TicksInv(catalog, b, DebounceMs + EvaluationMs);
    var r := Ticks(catalog, b, DebounceMs + EvaluationMs);
    assert r.started == r.committed + Terms(r.pending);
    assert Terms(r.pending) == [];
    assert r.committed == r.started;
  }

  // ---------------------------------------------------------------------------
  // The two behaviours that follow the code rather than the obvious reading
  // ---------------------------------------------------------------------------

  /** A blank query is cleared only when its timer fires, not on the change:
      for 299 ms the old results stay, then they go and the panel hides. */
  lemma BlankClearsAfterDebounce(catalog: seq<Product>, s: Session, blank: string, k: nat)
    requires Inv(catalog, s) && Quiet(s)
    requires Blank(blank) && blank != s.query
    ensures k < DebounceMs ==>
              var r := Ticks(catalog, OnChange(s, blank), k);
              r.results == s.results && r.showResults == s.showResults
    ensures var r := Ticks(catalog, OnChange(s, blank), DebounceMs);
            r.results == [] && !r.showResults && r.started == s.started
  {
    var s1 := OnChange(s, blank);
    ChangeInv(catalog, s, blank);
    if k < DebounceMs {
      QuietTicks(catalog, s1, k);
    }
    BlankTimerFires(catalog, s1);
  }

  /** A fresh timer for a blank query, with nothing in flight, clears the
      results when it fires. */
  lemma BlankTimerFires(catalog: seq<Product>, s: Session)
    requires Inv(catalog, s) && |s.pending| == 0
    requires s.timer == Some(Timer(s.now + DebounceMs, s.query)) && Blank(s.query)
    ensures var r := Ticks(catalog, s, DebounceMs);
            r.results == [] && !r.showResults && r.started == s.started
  {
    QuietTicks(catalog, s, DebounceMs - 1);
    var s2 := Ticks(catalog, s, DebounceMs - 1);
    TicksSplit(catalog, s, DebounceMs - 1, 1);
    var s3 := s2.(now := s2.now + 1);
    assert CommitDue(catalog, s3) == s3;
    assert Ticks(catalog, s2, 1) == Fire(s3, s3.timer.value);
  }

  lemma {:induction false} TicksSplit(catalog: seq<Product>, s: Session, a: nat, b: nat)
    ensures Ticks(catalog, s, a + b) == Ticks(catalog, Ticks(catalog, s, a), b)
    decreases a
  {
    if a > 0 {
      TicksSplit(catalog, OnTick(catalog, s), a - 1, b);
    }
  }

  /** Nothing discards an evaluation whose query was edited while it ran: its
      results are committed and shown under the new query. */
  lemma StaleResultsShown(catalog: seq<Product>, s: Session, text: string)
    requires Inv(catalog, s) && s.timer.None? && |s.pending| == 1
    requires text != s.query
    ensures var e := s.pending[0];
            var r := Ticks(catalog, OnChange(s, text), e.commitAt - s.now);
            && r.query == text && e.term != text
            && r.showResults && !r.isLoading
            && r.results == PerformSearch(catalog, e.term)
            && |r.committed| > 0 && Last(r.committed) == e.term
  {
    var e := s.pending[0];
    var s1 := OnChange(s, text);
    ChangeInv(catalog, s, text);
    var k := e.commitAt - s.now - 1;
    QuietTicks(catalog, s1, k);
    var s2 := Ticks(catalog, s1, k);
    TicksSplit(catalog, s1, k, 1);
    var s3 := s2.(now := s2.now + 1);
    assert CommitDue(catalog, s3) == Commit(catalog, s3);
  }

  /** After mounting, the empty query's timer fires at 300 ms and leaves the
      box quiet, closed and empty. */
  lemma AfterMount(catalog: seq<Product>)
    ensures var s0 := Ticks(catalog, Init(), DebounceMs);
            && Inv(catalog, s0) && Quiet(s0) && s0.now == DebounceMs && s0.query == ""
            && s0.started == [] && s0.results == [] && !s0.showResults
  {
    InitInv(catalog);
    var s0 := Ticks(catalog, Init(), DebounceMs);
    TicksInv(catalog, Init(), DebounceMs);
    TicksStarted(catalog, Init(), DebounceMs);
    assert s0.pending == [] by {
      assert |Terms(s0.pending)| == |s0.pending|;
    }
  }

  /** From a quiet box, a change to a non-blank query starts exactly one
      evaluation of it 300 ms later, due 100 ms after that. */
  lemma StartsAfterDebounce(catalog: seq<Product>, s: Session, text: string)
    requires Inv(catalog, s) && Quiet(s)
    requires text != s.query && !Blank(text)
    ensures var r := Ticks(catalog, OnChange(s, text), DebounceMs);
            && Inv(catalog, r)
            && r.now == s.now + DebounceMs && r.query == text && r.timer.None?
            && r.pending == [Evaluation(s.now + DebounceMs + EvaluationMs, text)]
            && r.started == s.started + [text] && r.isLoading
  {
    var s1 := OnChange(s, text);
    ChangeInv(catalog, s, text);
    QuietTicks(catalog, s1, DebounceMs - 1);
    TicksSplit(catalog, s1, DebounceMs - 1, 1);
    TicksInv(catalog, s1, DebounceMs);
    var s2 := s1.(now := s1.now + DebounceMs);
    assert CommitDue(catalog, s2) == s2;
  }

  /** Such a state is reached by typing "a" after mounting and waiting 300 ms. */
  lemma InFlightReachable(catalog: seq<Product>)
    ensures var r := Ticks(catalog, OnChange(Ticks(catalog, Init(), DebounceMs), "a"), DebounceMs);
            && Inv(catalog, r) && r.timer.None? && |r.pending| == 1
            && r.query == "a" && r.pending[0].term == "a"
  {
    AfterMount(catalog);
    assert !Blank("a") by {
      assert "a"[0] == 'a' && !IsTrimmable('a');
    }
    StartsAfterDebounce(catalog, Ticks(catalog, Init(), DebounceMs), "a");
  }

  /** What the dropdown shows in a given state. */
  function Panel(s: Session): Search.Panel {
    ShowPanel(s.showResults, s.isLoading, s.results, s.query)
  }

  /** In a valid state the spinner shows exactly while an evaluation is in
      flight and the panel is open, and a listed result always matches the term
      it was committed for. */
  lemma PanelSpec(catalog: seq<Product>, s: Session)
    requires Inv(catalog, s)
    ensures Panel(s) == Search.Spinner <==> s.showResults && |s.pending| > 0
    ensures Panel(s).ResultList? ==>
              forall p :: p in Panel(s).items ==> Matches(p, Last(s.committed)) && p in catalog
  {
    if Panel(s).ResultList? {
      PerformSearchSpec(catalog, Last(s.committed));
    }
  }
}

=== FILE: shipped_search.dfy ===
/** Facts about the words of the shipped catalogue's texts, kept apart from
    the catalogue itself so that each is proved over its own literals.  A
    text is given as its words and the run of its prefixes that end at a
    word, each the one before, a space and the next word.  A space-free term
    is absent from the text when it is absent from every word
    (`WordsExclude`), and present when some word holds it (`WordIncludes`). */
module ShippedText {
  import opened Text

  /** A match in either part is a match in the whole. */
  lemma FoldedIncludesAppend(a: string, b: string, t: string)
    ensures FoldedIncludes(a, t) ==> FoldedIncludes(a + b, t)
    ensures FoldedIncludes(b, t) ==> FoldedIncludes(a + b, t)
  {
    FoldedIncludesSpec(a, t);
    FoldedIncludesSpec(b, t);
    FoldedIncludesSpec(a + b, t);
    LowerAppend(a, b);
    OccursInWhole(Lower(t), Lower(a), Lower(b));
  }

  /** An occurrence in `x` or in `y` is one in `x + y`. */
  lemma OccursInWhole(t: string, x: string, y: string)
    ensures IsSubstring(t, x) ==> IsSubstring(t, x + y)
    ensures IsSubstring(t, y) ==> IsSubstring(t, x + y)
  {
    if IsSubstring(t, x) {
      var k :| 0 <= k <= |x| && OccursAt(t, x, k);
      assert (x + y)[k..k + |t|] == x[k..k + |t|];
      assert OccursAt(t, x + y, k);
    }
    if IsSubstring(t, y) {
      var k :| 0 <= k <= |y| && OccursAt(t, y, k);
      assert (x + y)[|x| + k..|x| + k + |t|] == y[k..k + |t|];
      assert OccursAt(t, x + y, |x| + k);
    }
  }

  /** A space-free term that no word holds is absent from the whole text. */
  lemma {:induction false} WordsExclude(prefixes: seq<string>, words: seq<string>, t: string)
    requires |prefixes| == |words| > 0 && prefixes[0] == words[0]
    requires forall i :: 0 < i < |words| ==> prefixes[i] == prefixes[i - 1] + " " + words[i]
    requires forall k :: 0 <= k < |t| ==> t[k] != ' '
    requires forall i :: 0 <= i < |words| ==> !FoldedIncludes(words[i], t)
    ensures !FoldedIncludes(prefixes[|prefixes| - 1], t)
    decreases |words|
  {
    var n := |words|;
    if n > 1 {
      WordsExclude(prefixes[..n - 1], words[..n - 1], t);
      FoldedExcludesAcrossSpace(prefixes[n - 2], words[n - 1], t);
    }
  }

  /** A term that one word holds is present in the whole text. */
  lemma {:induction false} WordIncludes(prefixes: seq<string>, words: seq<string>, j: nat, t: string)
    requires |prefixes| == |words| > 0 && prefixes[0] == words[0]
    requires forall i :: 0 < i < |words| ==> prefixes[i] == prefixes[i - 1] + " " + words[i]
    requires j < |words|
    requires FoldedIncludes(words[j], t)
    ensures FoldedIncludes(prefixes[|prefixes| - 1], t)
    decreases |words|
  {
    var n := |words|;
    if n > 1 {
      var last := prefixes[n - 1];
      assert last == (prefixes[n - 2] + " ") + words[n - 1];
      if j == n - 1 {
        FoldedIncludesAppend(prefixes[n - 2] + " ", words[n - 1], t);
      } else {
          WordIncludes(prefixes[..n - 1], words[..n - 1], j, t);
        assert last == prefixes[n - 2] + (" " + words[n - 1]);
        FoldedIncludesAppend(prefixes[n - 2], " " + words[n - 1], t);
      }
    }
  }

  lemma WirelessInName1()
    ensures FoldedIncludes("Wireless Bluetooth Headphones", "wireless")
  {
    WordIncludes(["Wireless", "Wireless Bluetooth", "Wireless Bluetooth Headphones"],
      ["Wireless", "Bluetooth", "Headphones"], 0, "wireless");
  }

  lemma WirelessInName6()
    ensures FoldedIncludes("Wireless Charging Pad", "wireless")
  {
    WordIncludes(["Wireless", "Wireless Charging", "Wireless Charging Pad"],
      ["Wireless", "Charging", "Pad"], 0, "wireless");
  }

  lemma WirelessInDescription8()
    ensures FoldedIncludes("True wireless earbuds with active noise cancellation", "wireless")
  {
    WordIncludes(["True", "True wireless", "True wireless earbuds", "True wireless earbuds with",
       "True wireless earbuds with active", "True wireless earbuds with active noise",
       "True wireless earbuds with active noise cancellation"],
      ["True", "wireless", "earbuds", "with", "active", "noise", "cancellation"], 1, "wireless");
  }

  lemma SmartNotInName1()
    ensures !FoldedIncludes("Wireless Bluetooth Headphones", "smart")
  {
    WordsExclude(["Wireless", "Wireless Bluetooth", "Wireless Bluetooth Headphones"],
      ["Wireless", "Bluetooth", "Headphones"], "smart");
  }

  lemma SmartNotInDescription1()
    ensures !FoldedIncludes("High-quality wireless headphones with noise cancellation", "smart")
  {
    WordsExclude(["High-quality", "High-quality wireless", "High-quality wireless headphones",
       "High-quality wireless headphones with", "High-quality wireless headphones with noise",
       "High-quality wireless headphones with noise cancellation"],
      ["High-quality", "wireless", "headphones", "with", "noise", "cancellation"], "smart");
  }

  lemma SmartNotInName3()
    ensures !FoldedIncludes("Portable Bluetooth Speaker", "smart")
  {
    WordsExclude(["Portable", "Portable Bluetooth", "Portable Bluetooth Speaker"],
      ["Portable", "Bluetooth", "Speaker"], "smart");
  }

  lemma SmartNotInDescription3()
    ensures !FoldedIncludes("Compact speaker with 360-degree sound", "smart")
  {
    WordsExclude(["Compact", "Compact speaker", "Compact speaker with", "Compact speaker with 360-degree",
       "Compact speaker with 360-degree sound"],
      ["Compact", "speaker", "with", "360-degree", "sound"], "smart");
  }

  lemma SmartNotInName4()
    ensures !FoldedIncludes("Mechanical Gaming Keyboard", "smart")
  {
    WordsExclude(["Mechanical", "Mechanical Gaming", "Mechanical Gaming Keyboard"],
      ["Mechanical", "Gaming", "Keyboard"], "smart");
  }

  lemma SmartNotInDescription4()
    ensures !FoldedIncludes("RGB backlit mechanical keyboard with blue switches", "smart")
  {
    WordsExclude(["RGB", "RGB backlit", "RGB backlit mechanical", "RGB backlit mechanical keyboard",
       "RGB backlit mechanical keyboard with", "RGB backlit mechanical keyboard with blue",
       "RGB backlit mechanical keyboard with blue switches"],
      ["RGB", "backlit", "mechanical", "keyboard", "with", "blue", "switches"], "smart");
  }

  lemma SmartNotInName5()
    ensures !FoldedIncludes("4K Action Camera", "smart")
  {
    WordsExclude(["4K", "4K Action", "4K Action Camera"], ["4K", "Action", "Camera"], "smart");
  }

  lemma SmartNotInDescription5()
    ensures !FoldedIncludes("Waterproof action camera with image stabilization", "smart")
  {
    WordsExclude(["Waterproof", "Waterproof action", "Waterproof action camera",
       "Waterproof action camera with", "Waterproof action camera with image",
       "Waterproof action camera with image stabilization"],
      ["Waterproof", "action", "camera", "with", "image", "stabilization"], "smart");
  }

  lemma SmartNotInName6()
    ensures !FoldedIncludes("Wireless Charging Pad", "smart")
  {
    WordsExclude(["Wireless", "Wireless Charging", "Wireless Charging Pad"],
      ["Wireless", "Charging", "Pad"], "smart");
  }

  lemma SmartNotInDescription6()
    ensures !FoldedIncludes("Fast wireless charging pad for all Qi-enabled devices", "smart")
  {
    WordsExclude(["Fast", "Fast wireless", "Fast wireless charging", "Fast wireless charging pad",
       "Fast wireless charging pad for", "Fast wireless charging pad for all",
       "Fast wireless charging pad for all Qi-enabled",
       "Fast wireless charging pad for all Qi-enabled devices"],
      ["Fast", "wireless", "charging", "pad", "for", "all", "Qi-enabled", "devices"], "smart");
  }

  lemma SmartNotInName8()
    ensures !FoldedIncludes("Noise Cancelling Earbuds", "smart")
  {
    WordsExclude(["Noise", "Noise Cancelling", "Noise Cancelling Earbuds"],
      ["Noise", "Cancelling", "Earbuds"], "smart");
  }

  lemma SmartNotInDescription8()
    ensures !FoldedIncludes("True wireless earbuds with active noise cancellation", "smart")
  {
    WordsExclude(["True", "True wireless", "True wireless earbuds", "True wireless earbuds with",
       "True wireless earbuds with active", "True wireless earbuds with active noise",
       "True wireless earbuds with active noise cancellation"],
      ["True", "wireless", "earbuds", "with", "active", "noise", "cancellation"], "smart");
  }

  lemma SmartNotInName9()
    ensures !FoldedIncludes("Digital Audio Recorder", "smart")
  {
    WordsExclude(["Digital", "Digital Audio", "Digital Audio Recorder"],
      ["Digital", "Audio", "Recorder"], "smart");
  }

  lemma SmartNotInDescription9()
    ensures !FoldedIncludes("Professional grade recorder with high-quality microphones", "smart")
  {
    WordsExclude(["Professional", "Professional grade", "Professional grade recorder",
       "Professional grade recorder with", "Professional grade recorder with high-quality",
       "Professional grade recorder with high-quality microphones"],
      ["Professional", "grade", "recorder", "with", "high-quality", "microphones"], "smart");
  }

  lemma SmartNotInName10()
    ensures !FoldedIncludes("USB-C Hub Adapter", "smart")
  {
    WordsExclude(["USB-C", "USB-C Hub", "USB-C Hub Adapter"], ["USB-C", "Hub", "Adapter"], "smart");
  }

  lemma SmartNotInDescription10()
    ensures !FoldedIncludes("Multi-port hub with HDMI, USB 3.0, and SD card reader", "smart")
  {
    WordsExclude(["Multi-port", "Multi-port hub", "Multi-port hub with", "Multi-port hub with HDMI,",
       "Multi-port hub with HDMI, USB", "Multi-port hub with HDMI, USB 3.0,",
       "Multi-port hub with HDMI, USB 3.0, and", "Multi-port hub with HDMI, USB 3.0, and SD",
       "Multi-port hub with HDMI, USB 3.0, and SD card",
       "Multi-port hub with HDMI, USB 3.0, and SD card reader"],
      ["Multi-port", "hub", "with", "HDMI,", "USB", "3.0,", "and", "SD", "card", "reader"], "smart");
  }

  lemma SmartNotInRetroTitle()
    ensures !FoldedIncludes("Small Classic Retro Handheld 400 Games", "smart")
  {
    WordsExclude(["Small", "Small Classic", "Small Classic Retro", "Small Classic Retro Handheld",
       "Small Classic Retro Handheld 400", "Small Classic Retro Handheld 400 Games"],
      ["Small", "Classic", "Retro", "Handheld", "400", "Games"], "smart");
  }

  lemma WirelessNotInName2()
    ensures !FoldedIncludes("Smart Fitness Tracker", "wireless")
  {
    WordsExclude(["Smart", "Smart Fitness", "Smart Fitness Tracker"],
      ["Smart", "Fitness", "Tracker"], "wireless");
  }

  lemma WirelessNotInDescription2()
    ensures !FoldedIncludes("Track your steps, heart rate, and sleep patterns", "wireless")
  {
    WordsExclude(["Track", "Track your", "Track your steps,", "Track your steps, heart",
       "Track your steps, heart rate,", "Track your steps, heart rate, and",
       "Track your steps, heart rate, and sleep",
       "Track your steps, heart rate, and sleep patterns"],
      ["Track", "your", "steps,", "heart", "rate,", "and", "sleep", "patterns"], "wireless");
  }

  lemma WirelessNotInSmartTech()
    ensures !FoldedIncludes("Smart Tech", "wireless")
  {
    WordsExclude(["Smart", "Smart Tech"], ["Smart", "Tech"], "wireless");
  }

  lemma WirelessNotInName3()
    ensures !FoldedIncludes("Portable Bluetooth Speaker", "wireless")
  {
    WordsExclude(["Portable", "Portable Bluetooth", "Portable Bluetooth Speaker"],
      ["Portable", "Bluetooth", "Speaker"], "wireless");
  }

  lemma WirelessNotInDescription3()
    ensures !FoldedIncludes("Compact speaker with 360-degree sound", "wireless")
  {
    WordsExclude(["Compact", "Compact speaker", "Compact speaker with", "Compact speaker with 360-degree",
       "Compact speaker with 360-degree sound"],
      ["Compact", "speaker", "with", "360-degree", "sound"], "wireless");
  }

  lemma WirelessNotInName4()
    ensures !FoldedIncludes("Mechanical Gaming Keyboard", "wireless")
  {
    WordsExclude(["Mechanical", "Mechanical Gaming", "Mechanical Gaming Keyboard"],
      ["Mechanical", "Gaming", "Keyboard"], "wireless");
  }

  lemma WirelessNotInDescription4()
    ensures !FoldedIncludes("RGB backlit mechanical keyboard with blue switches", "wireless")
  {
    WordsExclude(["RGB", "RGB backlit", "RGB backlit mechanical", "RGB backlit mechanical keyboard",
       "RGB backlit mechanical keyboard with", "RGB backlit mechanical keyboard with blue",
       "RGB backlit mechanical keyboard with blue switches"],
      ["RGB", "backlit", "mechanical", "keyboard", "with", "blue", "switches"], "wireless");
  }

  lemma WirelessNotInName5()
    ensures !FoldedIncludes("4K Action Camera", "wireless")
  {
    WordsExclude(["4K", "4K Action", "4K Action Camera"], ["4K", "Action", "Camera"], "wireless");
  }

  lemma WirelessNotInDescription5()
    ensures !FoldedIncludes("Waterproof action camera with image stabilization", "wireless")
  {
    WordsExclude(["Waterproof", "Waterproof action", "Waterproof action camera",
       "Waterproof action camera with", "Waterproof action camera with image",
       "Waterproof action camera with image stabilization"],
      ["Waterproof", "action", "camera", "with", "image", "stabilization"], "wireless");
  }

  lemma WirelessNotInName7()
    ensures !FoldedIncludes("Smart Home Hub", "wireless")
  {
    WordsExclude(["Smart", "Smart Home", "Smart Home Hub"], ["Smart", "Home", "Hub"], "wireless");
  }

  lemma WirelessNotInDescription7()
    ensures !FoldedIncludes("Control all your smart devices from one hub", "wireless")
  {
    WordsExclude(["Control", "Control all", "Control all your", "Control all your smart",
       "Control all your smart devices", "Control all your smart devices from",
       "Control all your smart devices from one", "Control all your smart devices from one hub"],
      ["Control", "all", "your", "smart", "devices", "from", "one", "hub"], "wireless");
  }

  lemma WirelessNotInName9()
    ensures !FoldedIncludes("Digital Audio Recorder", "wireless")
  {
    WordsExclude(["Digital", "Digital Audio", "Digital Audio Recorder"],
      ["Digital", "Audio", "Recorder"], "wireless");
  }

  lemma WirelessNotInDescription9()
    ensures !FoldedIncludes("Professional grade recorder with high-quality microphones", "wireless")
  {
    WordsExclude(["Professional", "Professional grade", "Professional grade recorder",
       "Professional grade recorder with", "Professional grade recorder with high-quality",
       "Professional grade recorder with high-quality microphones"],
      ["Professional", "grade", "recorder", "with", "high-quality", "microphones"], "wireless");
  }

  lemma WirelessNotInName10()
    ensures !FoldedIncludes("USB-C Hub Adapter", "wireless")
  {
    WordsExclude(["USB-C", "USB-C Hub", "USB-C Hub Adapter"],
      ["USB-C", "Hub", "Adapter"], "wireless");
  }

  lemma WirelessNotInDescription10()
    ensures !FoldedIncludes("Multi-port hub with HDMI, USB 3.0, and SD card reader", "wireless")
  {
    WordsExclude(["Multi-port", "Multi-port hub", "Multi-port hub with", "Multi-port hub with HDMI,",
       "Multi-port hub with HDMI, USB", "Multi-port hub with HDMI, USB 3.0,",
       "Multi-port hub with HDMI, USB 3.0, and", "Multi-port hub with HDMI, USB 3.0, and SD",
       "Multi-port hub with HDMI, USB 3.0, and SD card",
       "Multi-port hub with HDMI, USB 3.0, and SD card reader"],
      ["Multi-port", "hub", "with", "HDMI,", "USB", "3.0,", "and", "SD", "card", "reader"], "wireless");
  }

  lemma WirelessNotInRetroTitle()
    ensures !FoldedIncludes("Small Classic Retro Handheld 400 Games", "wireless")
  {
    WordsExclude(["Small", "Small Classic", "Small Classic Retro", "Small Classic Retro Handheld",
       "Small Classic Retro Handheld 400", "Small Classic Retro Handheld 400 Games"],
      ["Small", "Classic", "Retro", "Handheld", "400", "Games"], "wireless");
  }
}

/** What the header search finds in the shipped catalogue (src/data/products.ts
    searched with the filter of src/components/SearchWithResults.tsx). */
module ShippedSearch {
  import opened Text
  import opened Catalog
  import opened Search
  import opened ShippedText

  /** The ids of a list of products, in order. */
  function Ids(ps: seq<Product>): (r: seq<string>)
    ensures |r| == |ps| && forall i :: 0 <= i < |ps| ==> r[i] == ps[i].id
  {
    seq(|ps|, i requires 0 <= i < |ps| => ps[i].id)
  }

  /** With no more matches than the list holds, the list is every match. */
  lemma FewResultsAllShown(c: seq<Product>, t: string)
    requires |Filter(c, t)| <= ResultLimit
    ensures PerformSearch(c, t) == Filter(c, t)
  {
  }

  /** A filter keeps a run of leading matches, in order. */
  lemma {:induction false} LeadingMatchesKept(c: seq<Product>, t: string, n: nat)
    requires n <= |c|
    requires forall i :: 0 <= i < n ==> Matches(c[i], t)
    ensures |Filter(c, t)| >= n && Filter(c, t)[..n] == c[..n]
    decreases n
  {
    if n > 0 {
      LeadingMatchesKept(c[1..], t, n - 1);
      assert c[..n] == [c[0]] + c[1..][..n - 1];
    }
  }

  /** One step of the filter over a catalogue suffix. */
  lemma FilterStep(c: seq<Product>, i: nat, t: string)
    requires i < |c|
    ensures Filter(c[i..], t) == (if Matches(c[i], t) then [c[i]] else []) + Filter(c[i + 1..], t)
  {
    assert c[i..][1..] == c[i + 1..];
  }

  // ---------------------------------------------------------------------------
  // Products (by id) that do not match, and those that do.
  // ---------------------------------------------------------------------------

  lemma SmartMisses1()
    ensures !Matches(Products[0], "smart")
  {
    SmartNotInName1();
    SmartNotInDescription1();
    assert !FoldedIncludes("Headphones", "smart");
  }

  lemma SmartMisses3()
    ensures !Matches(Products[2], "smart")
  {
    SmartNotInName3();
    SmartNotInDescription3();
    assert !FoldedIncludes("Speakers", "smart");
  }

  lemma SmartMisses4()
    ensures !Matches(Products[3], "smart")
  {
    SmartNotInName4();
    SmartNotInDescription4();
    assert !FoldedIncludes("Accessories", "smart");
  }

  lemma SmartMisses5()
    ensures !Matches(Products[4], "smart")
  {
    SmartNotInName5();
    SmartNotInDescription5();
    assert !FoldedIncludes("Gadgets", "smart");
  }

  lemma SmartMisses6()
    ensures !Matches(Products[5], "smart")
  {
    SmartNotInName6();
    SmartNotInDescription6();
    assert !FoldedIncludes("Accessories", "smart");
  }

  lemma SmartMisses8()
    ensures !Matches(Products[7], "smart")
  {
    SmartNotInName8();
    SmartNotInDescription8();
    assert !FoldedIncludes("Headphones", "smart");
  }

  lemma SmartMisses9()
    ensures !Matches(Products[8], "smart")
  {
    SmartNotInName9();
    SmartNotInDescription9();
    assert !FoldedIncludes("Music", "smart");
  }

  lemma SmartMisses10()
    ensures !Matches(Products[9], "smart")
  {
    SmartNotInName10();
    SmartNotInDescription10();
    assert !FoldedIncludes("Accessories", "smart");
  }

  lemma SmartMisses11()
    ensures !Matches(Products[10], "smart")
  {
    SmartNotInRetroTitle();
    assert !FoldedIncludes("Accessories", "smart");
  }

  lemma WirelessMisses2()
    ensures !Matches(Products[1], "wireless")
  {
    WirelessNotInName2();
    WirelessNotInDescription2();
    WirelessNotInSmartTech();
  }

  lemma WirelessMisses3()
    ensures !Matches(Products[2], "wireless")
  {
    WirelessNotInName3();
    WirelessNotInDescription3();
    assert !FoldedIncludes("Speakers", "wireless");
  }

  lemma WirelessMisses4()
    ensures !Matches(Products[3], "wireless")
  {
    WirelessNotInName4();
    WirelessNotInDescription4();
    assert !FoldedIncludes("Accessories", "wireless");
  }

  lemma WirelessMisses5()
    ensures !Matches(Products[4], "wireless")
  {
    WirelessNotInName5();
    WirelessNotInDescription5();
    assert !FoldedIncludes("Gadgets", "wireless");
  }

  lemma WirelessMisses7()
    ensures !Matches(Products[6], "wireless")
  {
    WirelessNotInName7();
    WirelessNotInDescription7();
    WirelessNotInSmartTech();
  }

  lemma WirelessMisses9()
    ensures !Matches(Products[8], "wireless")
  {
    WirelessNotInName9();
    WirelessNotInDescription9();
    assert !FoldedIncludes("Music", "wireless");
  }

  lemma WirelessMisses10()
    ensures !Matches(Products[9], "wireless")
  {
    WirelessNotInName10();
    WirelessNotInDescription10();
    assert !FoldedIncludes("Accessories", "wireless");
  }

  lemma WirelessMisses11()
    ensures !Matches(Products[10], "wireless")
  {
    WirelessNotInRetroTitle();
    assert !FoldedIncludes("Accessories", "wireless");
  }

  // ---------------------------------------------------------------------------
  // The filter over the catalogue from position `i` on (`XFromI`).
  // ---------------------------------------------------------------------------

  lemma SmartFrom11()
    ensures Filter(Products[11..], "smart") == []
  {
    assert Products[11..] == [];
  }

  lemma SmartFrom10()
    ensures Filter(Products[10..], "smart") == []
  {
    SmartMisses11();
    FilterStep(Products, 10, "smart");
    SmartFrom11();
  }

  lemma SmartFrom9()
    ensures Filter(Products[9..], "smart") == []
  {
    SmartMisses10();
    FilterStep(Products, 9, "smart");
    SmartFrom10();
  }

  lemma SmartFrom8()
    ensures Filter(Products[8..], "smart") == []
  {
    SmartMisses9();
    FilterStep(Products, 8, "smart");
    SmartFrom9();
  }

  lemma SmartFrom7()
    ensures Filter(Products[7..], "smart") == []
  {
    SmartMisses8();
    FilterStep(Products, 7, "smart");
    SmartFrom8();
  }

  lemma SmartFrom6()
    ensures Filter(Products[6..], "smart") == [Products[6]]
  {
    SmartHits7();
    FilterStep(Products, 6, "smart");
    SmartFrom7();
  }

  lemma SmartFrom5()
    ensures Filter(Products[5..], "smart") == [Products[6]]
  {
    SmartMisses6();
    FilterStep(Products, 5, "smart");
    SmartFrom6();
  }

  lemma SmartFrom4()
    ensures Filter(Products[4..], "smart") == [Products[6]]
  {
    SmartMisses5();
    FilterStep(Products, 4, "smart");
    SmartFrom5();
  }

  lemma SmartFrom3()
    ensures Filter(Products[3..], "smart") == [Products[6]]
  {
    SmartMisses4();
    FilterStep(Products, 3, "smart");
    SmartFrom4();
  }

  lemma SmartFrom2()
    ensures Filter(Products[2..], "smart") == [Products[6]]
  {
    SmartMisses3();
    FilterStep(Products, 2, "smart");
    SmartFrom3();
  }

  lemma SmartFrom1()
    ensures Filter(Products[1..], "smart") == [Products[1], Products[6]]
  {
    SmartHits2();
    FilterStep(Products, 1, "smart");
    SmartFrom2();
  }

  lemma SmartFrom0()
    ensures Filter(Products[0..], "smart") == [Products[1], Products[6]]
  {
    SmartMisses1();
    FilterStep(Products, 0, "smart");
    SmartFrom1();
  }

  lemma WirelessFrom11()
    ensures Filter(Products[11..], "wireless") == []
  {
    assert Products[11..] == [];
  }

  lemma WirelessFrom10()
    ensures Filter(Products[10..], "wireless") == []
  {
    WirelessMisses11();
    FilterStep(Products, 10, "wireless");
    WirelessFrom11();
  }

  lemma WirelessFrom9()
    ensures Filter(Products[9..], "wireless") == []
  {
    WirelessMisses10();
    FilterStep(Products, 9, "wireless");
    WirelessFrom10();
  }

  lemma WirelessFrom8()
    ensures Filter(Products[8..], "wireless") == []
  {
    WirelessMisses9();
    FilterStep(Products, 8, "wireless");
    WirelessFrom9();
  }

  lemma WirelessFrom7()
    ensures Filter(Products[7..], "wireless") == [Products[7]]
  {
    WirelessHits8();
    FilterStep(Products, 7, "wireless");
    WirelessFrom8();
  }

  lemma WirelessFrom6()
    ensures Filter(Products[6..], "wireless") == [Products[7]]
  {
    WirelessMisses7();
    FilterStep(Products, 6, "wireless");
    WirelessFrom7();
  }

  lemma WirelessFrom5()
    ensures Filter(Products[5..], "wireless") == [Products[5], Products[7]]
  {
    WirelessHits6();
    FilterStep(Products, 5, "wireless");
    WirelessFrom6();
  }

  lemma WirelessFrom4()
    ensures Filter(Products[4..], "wireless") == [Products[5], Products[7]]
  {
    WirelessMisses5();
    FilterStep(Products, 4, "wireless");
    WirelessFrom5();
  }

  lemma WirelessFrom3()
    ensures Filter(Products[3..], "wireless") == [Products[5], Products[7]]
  {
    WirelessMisses4();
    FilterStep(Products, 3, "wireless");
    WirelessFrom4();
  }

  lemma WirelessFrom2()
    ensures Filter(Products[2..], "wireless") == [Products[5], Products[7]]
  {
    WirelessMisses3();
    FilterStep(Products, 2, "wireless");
    WirelessFrom3();
  }

  lemma WirelessFrom1()
    ensures Filter(Products[1..], "wireless") == [Products[5], Products[7]]
  {
    WirelessMisses2();
    FilterStep(Products, 1, "wireless");
    WirelessFrom2();
  }

  lemma WirelessFrom0()
    ensures Filter(Products[0..], "wireless") == [Products[0], Products[5], Products[7]]
  {
    WirelessHits1();
    FilterStep(Products, 0, "wireless");
    WirelessFrom1();
  }

  // Every category of the first seven products holds an "e".

  lemma ShortHits2()
    ensures Matches(Products[1], "e")
  {
    assert FoldedIncludes("Smart Tech", "e");
  }

  lemma ShortHits3()
    ensures Matches(Products[2], "e")
  {
    assert FoldedIncludes("Speakers", "e");
  }

  lemma ShortHits4()
    ensures Matches(Products[3], "e")
  {
    assert FoldedIncludes("Accessories", "e");
  }

  lemma ShortHits5()
    ensures Matches(Products[4], "e")
  {
    assert FoldedIncludes("Gadgets", "e");
  }

  lemma ShortHits6()
    ensures Matches(Products[5], "e")
  {
    assert FoldedIncludes("Accessories", "e");
  }

  lemma ShortHits7()
    ensures Matches(Products[6], "e")
  {
    assert FoldedIncludes("Smart Tech", "e");
  }

  lemma SmartHits2()
    ensures Matches(Products[1], "smart")
  {
    assert FoldedIncludes("Smart Tech", "smart");
  }

  lemma SmartHits7()
    ensures Matches(Products[6], "smart")
  {
    assert FoldedIncludes("Smart Tech", "smart");
  }

  lemma WirelessHits1()
    ensures Matches(Products[0], "wireless")
  {
    WirelessInName1();
  }

  lemma WirelessHits6()
    ensures Matches(Products[5], "wireless")
  {
    WirelessInName6();
  }

  lemma WirelessHits8()
    ensures Matches(Products[7], "wireless")
  {
    WirelessInDescription8();
  }

  lemma ShortHits1()
    ensures Matches(Products[0], "e")
  {
    assert FoldedIncludes("Headphones", "e");
  }

  /** "smart" finds the fitness tracker and the home hub, through their
      "Smart Tech" category. */
  lemma SmartSearch()
    ensures Filter(Products, "smart") == [Products[1], Products[6]]
    ensures Ids(PerformSearch(Products, "smart")) == ["2", "7"]
  {
    SmartFilter();
    FewResultsAllShown(Products, "smart");
    SmartIds();
  }

  lemma SmartFilter()
    ensures Filter(Products, "smart") == [Products[1], Products[6]]
  {
    SmartFrom0();
    assert Products[0..] == Products;
  }

  lemma SmartIds()
    ensures Ids([Products[1], Products[6]]) == ["2", "7"]
  {
  }

  lemma WirelessFilter()
    ensures Filter(Products, "wireless") == [Products[0], Products[5], Products[7]]
  {
    WirelessFrom0();
    assert Products[0..] == Products;
  }

  /** "wireless" finds the headphones and the charging pad by name and the
      earbuds by description. */
  lemma WirelessSearch()
    ensures Filter(Products, "wireless") == [Products[0], Products[5], Products[7]]
    ensures Ids(PerformSearch(Products, "wireless")) == ["1", "6", "8"]
  {
    WirelessFilter();
    FewResultsAllShown(Products, "wireless");
    WirelessIds();
  }

  lemma WirelessIds()
    ensures Ids([Products[0], Products[5], Products[7]]) == ["1", "6", "8"]
  {
  }

  /** A one-letter term matches more products than the list holds: the list
      is cut to the first six, ids 1 to 6, and "View all results" shows. */
  lemma ShortTermFillsList()
    ensures |Filter(Products, "e")| > ResultLimit
    ensures PerformSearch(Products, "e") == Products[..6]
    ensures Ids(PerformSearch(Products, "e")) == ["1", "2", "3", "4", "5", "6"]
    ensures ShowPanel(true, false, PerformSearch(Products, "e"), "e") == ResultList(Products[..6], true)
  {
    forall i | 0 <= i < 7
      ensures Matches(Products[i], "e")
    {
      if i == 0 { ShortHits1(); }
      else if i == 1 { ShortHits2(); }
      else if i == 2 { ShortHits3(); }
      else if i == 3 { ShortHits4(); }
      else if i == 4 { ShortHits5(); }
      else if i == 5 { ShortHits6(); }
      else { ShortHits7(); }
    }
    LeadingMatchesKept(Products, "e", 7);
    LeadingMatchesKept(Products, "e", 6);
    ShortIds();
  }

  lemma ShortIds()
    ensures Ids(Products[..6]) == ["1", "2", "3", "4", "5", "6"]
  {
    assert Products[..6] == [Products[0], Products[1], Products[2], Products[3], Products[4], Products[5]];
  }
}

=== FILE: slideshow.dfy ===
/** The product-page gallery (src/components/ProductMediaSlideshow.tsx): the
    wrap-around index arithmetic behind the arrows, what one render shows for a
    gallery and a position, and the arrow-key mapping of
    `useKeyboardNavigation`. */
module Slideshow {
  import opened Wrappers
  import opened Media

  // ---------------------------------------------------------------------------
  // Index arithmetic over a non-empty gallery of n items
  // ---------------------------------------------------------------------------

  /** `goToNext`: the last slide wraps round to the first. */
  function Next(i: nat, n: nat): (r: nat)
    requires n > 0
    ensures i < n ==> r < n && r == (i + 1) % n
  {
    if i == n - 1 then 0 else i + 1
  }

  /** `goToPrevious`: the first slide wraps round to the last. */
  function Previous(i: nat, n: nat): (r: nat)
    requires n > 0
    ensures i < n ==> r < n && r == (i + n - 1) % n
  {
    if i == 0 then n - 1 else i - 1
  }

  /** Each arrow undoes the other. */
  lemma NextPreviousInverse(i: nat, n: nat)
    requires i < n
    ensures Previous(Next(i, n), n) == i
    ensures Next(Previous(i, n), n) == i
  {
  }

  /** The position after pressing "next" k times. */
  function Forward(k: nat, i: nat, n: nat): nat
    requires n > 0
  {
    if k == 0 then i else Next(Forward(k - 1, i, n), n)
  }

  /** Pressing "next" k times moves k places round the circle. */
  lemma {:induction false} ForwardIsModular(k: nat, i: nat, n: nat)
    requires i < n
    ensures Forward(k, i, n) == (i + k) % n
  {
    if k > 0 {
      ForwardIsModular(k - 1, i, n);
      var j := Forward(k - 1, i, n);
      assert j == (i + k - 1) % n;
      ModSucc(i + k - 1, n);
    }
  }

  lemma {:induction false} ModSucc(a: nat, n: nat)
    requires n > 0
    ensures ((a % n) + 1) % n == (a + 1) % n
  {
    var q, r := a / n, a % n;
    assert a == q * n + r;
    if r + 1 < n {
      ModUnique(r + 1, 0, n, r + 1);
      ModUnique(a + 1, q, n, r + 1);
    } else {
      assert r + 1 == n;
      ModUnique(r + 1, 1, n, 0);
      assert a + 1 == (q + 1) * n + 0;
      ModUnique(a + 1, q + 1, n, 0);
    }
  }

  /** The remainder is determined by any quotient-remainder decomposition. */
  lemma {:induction false} ModUnique(x: int, q: int, n: int, r: int)
    requires n > 0 && 0 <= r < n && x == q * n + r
    ensures x % n == r
  {
    var q', r' := x / n, x % n;
    assert (q - q') * n == r' - r;
    if q > q' {
      MulAtLeast(q - q', n);
    } else if q < q' {
      MulAtLeast(q' - q, n);
    }
  }

  lemma MulAtLeast(k: int, n: int)
    requires k >= 1 && n > 0
    ensures k * n >= n
  {
  }

  /** A full round of n presses comes back to the starting slide. */
  lemma {:induction false} FullRound(i: nat, n: nat)
    requires i < n
    ensures Forward(n, i, n) == i
  {
    ForwardIsModular(n, i, n);
    ModUnique(i + n, 1, n, i);
  }

  /** With a single item both arrows stay on it. */
  lemma SingleItemStays()
    ensures Next(0, 1) == 0 && Previous(0, 1) == 0
  {
  }

  // ---------------------------------------------------------------------------
  // One render
  // ---------------------------------------------------------------------------

  /** A thumbnail button: the item it shows, its 1-based position (used in the
      alt text) and whether it carries the highlight ring. */
  datatype Thumb = Thumb(item: MediaFile, position: nat, highlighted: bool)

  /** What the component renders. */
  datatype View =
    | Placeholder                                 // "No media available"
    | Stage(
        shown: MediaFile,                         // the large image or video
        spinner: bool,                            // the first-render overlay
        arrows: bool,                             // previous/next buttons
        counter: Option<(nat, nat)>,              // "k / n"
        videoBadge: bool,                         // the "Video" tag
        thumbs: seq<Thumb>,
        hint: bool)                               // "Use arrow keys ..."

  function Thumbs(media: seq<MediaFile>, index: nat): (r: seq<Thumb>)
    ensures |r| == |media|
    ensures forall k :: 0 <= k < |r| ==>
              r[k] == Thumb(media[k], k + 1, k == index)
  {
    seq(|media|, k requires 0 <= k < |media| => Thumb(media[k], k + 1, k == index))
  }

  /** The component's output for a gallery, the current position and the
      loading flag.  An empty gallery shows the placeholder and never reads
      the list; otherwise the current item is shown and the arrows, counter,
      thumbnails and hint all appear exactly when there is more than one item. */
  function Render(media: seq<MediaFile>, index: nat, isLoading: bool): (r: View)
    requires |media| == 0 || index < |media|
    ensures r.Placeholder? <==> |media| == 0
    ensures r.Stage? ==>
              && r.shown == media[index]
              && r.spinner == isLoading
              && r.videoBadge == (media[index].kind == Video)
              && (r.arrows <==> |media| > 1)
              && (r.hint <==> |media| > 1)
              && (r.counter.Some? <==> |media| > 1)
              && (r.counter.Some? ==> r.counter.value == (index + 1, |media|))
              && (|media| > 1 ==> |r.thumbs| == |media|
                                  && forall k :: 0 <= k < |media| ==> r.thumbs[k].item == media[k])
              && (|media| <= 1 ==> r.thumbs == [])
  {
    if |media| == 0 then Placeholder
    else
      var multiple := |media| > 1;
      Stage(media[index], isLoading, multiple,
            if multiple then Some((index + 1, |media|)) else None,
            media[index].kind == Video,
            if multiple then Thumbs(media, index) else [],
            multiple)
  }

  /** The counter reads between 1 and n, and exactly one thumbnail, the
      current one, is highlighted. */
  lemma RenderHighlightsOne(media: seq<MediaFile>, index: nat, isLoading: bool)
    requires 1 < |media| && index < |media|
    ensures var v := Render(media, index, isLoading);
            && v.Stage?
            && 1 <= v.counter.value.0 <= v.counter.value.1
            && v.thumbs[index].highlighted
            && forall k :: 0 <= k < |v.thumbs| && v.thumbs[k].highlighted ==> k == index
  {
  }

  // ---------------------------------------------------------------------------
  // Keys
  // ---------------------------------------------------------------------------

  datatype Key = ArrowLeft | ArrowRight | OtherKey(name: string)

  /** The callbacks the gallery offers. */
  datatype Action = GoPrevious | GoNext | GoTo(index: nat)

  /** `useKeyboardNavigation`'s listener: `None` when the hook is inactive and
      installs no listener, otherwise the callback the key triggers (if any). */
  function KeyAction(isActive: bool, key: Key): (r: Option<Option<Action>>)
    ensures r.None? <==> !isActive
    ensures r == Some(Some(GoPrevious)) <==> isActive && key == ArrowLeft
    ensures r == Some(Some(GoNext)) <==> isActive && key == ArrowRight
    ensures r == Some(None) <==> isActive && key.OtherKey?
  {
    if !isActive then None
    else match key
      case ArrowLeft => Some(Some(GoPrevious))
      case ArrowRight => Some(Some(GoNext))
      case OtherKey(_) => Some(None)
  }

  /** The listener calls `preventDefault` exactly for the two arrow keys. */
  predicate PreventsDefault(isActive: bool, key: Key) {
    KeyAction(isActive, key).Some? && KeyAction(isActive, key).value.Some?
  }

  lemma PreventsDefaultSpec(isActive: bool, key: Key)
    ensures PreventsDefault(isActive, key) <==> isActive && !key.OtherKey?
  {
  }

  // ---------------------------------------------------------------------------
  // The gallery's state
  // ---------------------------------------------------------------------------

  /** `currentIndex` and `isLoading`. */
  datatype Gallery = Gallery(index: nat, loading: bool)

  /** The first render: at the first item, with the spinner. */
  const Initial := Gallery(0, true)

  /** The mount effect clears the spinner. */
  function Mounted(g: Gallery): (r: Gallery)
    ensures r.index == g.index && !r.loading
  {
    g.(loading := false)
  }

  /** An action offered by the rendered gallery: thumbnails only exist for
      positions of the gallery. */
  predicate Offered(a: Action, n: nat) {
    a.GoTo? ==> a.index < n
  }

  /** Applying a callback to a gallery of n items. */
  function Apply(g: Gallery, a: Action, n: nat): (r: Gallery)
    requires n > 0
    ensures r.loading == g.loading
    ensures g.index < n && Offered(a, n) ==> r.index < n
    ensures a.GoTo? ==> r.index == a.index
    ensures a == GoNext ==> r.index == Next(g.index, n)
    ensures a == GoPrevious ==> r.index == Previous(g.index, n)
  {
    match a
    case GoPrevious => g.(index := Previous(g.index, n))
    case GoNext => g.(index := Next(g.index, n))
    case GoTo(k) => g.(index := k)
  }

  /** Every position reachable by offered actions is a valid index, so the
      render never reads past the list. */
  function ApplyAll(g: Gallery, actions: seq<Action>, n: nat): (r: Gallery)
    requires n > 0
    requires g.index < n
    requires forall k :: 0 <= k < |actions| ==> Offered(actions[k], n)
    ensures r.index < n
    decreases |actions|
  {
    if |actions| == 0 then g
    else ApplyAll(Apply(g, actions[0], n), actions[1..], n)
  }

  /** Every item can be brought into view by "next" presses from the start. */
  lemma EveryItemReachable(n: nat, j: nat)
    requires j < n
    ensures Forward(j, Initial.index, n) == j
  {
    ForwardIsModular(j, 0, n);
  }

  // ---------------------------------------------------------------------------
  // Keyboard wiring
  // ---------------------------------------------------------------------------

  /** As written, the component shows "Use arrow keys or click thumbnails to
      navigate" for a multi-item gallery but never calls
      `useKeyboardNavigation`, so no key listener exists and a key press
      leaves the gallery unchanged. */
  function PressAsWritten(g: Gallery, key: Key, n: nat): (r: Gallery)
    ensures r == g
  {
    g
  }

  /** The hint is shown, yet the right arrow does not advance. */
  lemma HintWithoutListener()
    ensures var media := [MediaFile("/a/main.png", Image, "main.png"),
                          MediaFile("/a/side.png", Image, "side.png")];
            && Render(media, 0, false).hint
            && PressAsWritten(Gallery(0, false), ArrowRight, |media|).index == 0
            && Next(0, |media|) == 1
  {
  }

  /** The evident intent: the hook active while there is more than one item,
      wired to `goToPrevious` and `goToNext`. */
  function Press(g: Gallery, key: Key, n: nat): (r: Gallery)
    requires n > 0
    ensures g.index < n ==> r.index < n
    ensures n > 1 && key == ArrowRight ==> r.index == Next(g.index, n)
    ensures n > 1 && key == ArrowLeft ==> r.index == Previous(g.index, n)
    ensures n <= 1 || key.OtherKey? ==> r == g
  {
    match KeyAction(n > 1, key)
    case Some(Some(a)) => Apply(g, a, n)
    case _ => g
  }

  /** With the keys wired, the left arrow undoes the right arrow. */
  lemma PressInverse(g: Gallery, n: nat)
    requires g.index < n
    ensures Press(Press(g, ArrowRight, n), ArrowLeft, n) == g
    ensures Press(Press(g, ArrowLeft, n), ArrowRight, n) == g
  {
    if n > 1 {
      NextPreviousInverse(g.index, n);
    }
  }
}

=== FILE: stores.dfy ===
/** The persisted preferences (src/lib/stores.ts): the locale, currency and
    dark-mode atoms, how `initializeStores` restores them from `localStorage`
    and writes every later change back, and the currency symbols.  The
    storage is a map from keys to strings. */
module Stores {
  import opened Wrappers

  type Storage = map<string, string>

  /** The three atoms' values. */
  datatype Prefs = Prefs(locale: string, currency: string, darkMode: bool)

  const Defaults := Prefs("en", "GBP", false)

  /** `String(value)` for a boolean. */
  function BoolText(b: bool): (r: string)
    ensures r == "true" <==> b
  {
    if b then "true" else "false"
  }

  /** Restoring one text preference: a missing or empty saved value keeps
      the current one. */
  function RestoreText(storage: Storage, key: string, current: string): (r: string)
    ensures key in storage && storage[key] != "" ==> r == storage[key]
    ensures key !in storage || storage[key] == "" ==> r == current
  {
    if key in storage && storage[key] != "" then storage[key] else current
  }

  /** The restoring half of `initializeStores`: the dark mode is exactly
      whether the saved text is "true", when one is saved. */
  function Restore(storage: Storage, p: Prefs): (r: Prefs)
    ensures r.locale == RestoreText(storage, "locale", p.locale)
    ensures r.currency == RestoreText(storage, "currency", p.currency)
    ensures "darkMode" in storage ==> (r.darkMode <==> storage["darkMode"] == "true")
    ensures "darkMode" !in storage ==> r.darkMode == p.darkMode
  {
    Prefs(RestoreText(storage, "locale", p.locale),
          RestoreText(storage, "currency", p.currency),
          if "darkMode" in storage then storage["darkMode"] == "true" else p.darkMode)
  }

  /** Any saved dark-mode text other than exactly "true" restores false. */
  lemma OnlyTrueIsDark(storage: Storage)
    requires "darkMode" in storage && storage["darkMode"] != "true"
    ensures !Restore(storage, Defaults).darkMode
  {
  }

  /** What the subscriptions write for a set of preferences. */
  function Persisted(storage: Storage, p: Prefs): (r: Storage)
    ensures r.Keys == storage.Keys + {"locale", "currency", "darkMode"}
    ensures r["locale"] == p.locale && r["currency"] == p.currency
    ensures r["darkMode"] == BoolText(p.darkMode)
    ensures forall k :: k in storage && k !in {"locale", "currency", "darkMode"} ==> r[k] == storage[k]
  {
    storage["locale" := p.locale]["currency" := p.currency]["darkMode" := BoolText(p.darkMode)]
  }

  /** Persisting then restoring gives the preferences back, provided the
      texts are not empty (an empty text is not restored). */
  lemma PersistRestore(storage: Storage, p: Prefs, start: Prefs)
    requires p.locale != "" && p.currency != ""
    ensures Restore(Persisted(storage, p), start) == p
  {
  }

  /** An empty locale is written but not read back: the default returns. */
  lemma EmptyLocaleNotRestored(storage: Storage)
    ensures Restore(Persisted(storage, Defaults.(locale := "")), Defaults).locale == "en"
  {
  }

  // ---------------------------------------------------------------------------
  // The stores over time
  // ---------------------------------------------------------------------------

  /** The preferences, the storage, whether the subscriptions are installed,
      the `currency-change` events sent and whether the page has the `dark`
      class. */
  datatype Stores = Stores(
    prefs: Prefs,
    storage: Storage,
    subscribed: bool,
    currencyEvents: seq<string>,
    darkClass: bool)

  function Start(storage: Storage): Stores {
    Stores(Defaults, storage, false, [], false)
  }

  /** `initializeStores`.  Without `localStorage` nothing happens.  Otherwise
      the preferences are restored and the three subscriptions installed;
      a nanostores subscription runs at once, so each value is written back,
      a `currency-change` event sent and the `dark` class set straight away. */
  function Initialize(hasStorage: bool, s: Stores): (r: Stores)
    ensures !hasStorage ==> r == s
    ensures hasStorage ==>
              && r.subscribed
              && r.prefs == Restore(s.storage, s.prefs)
              && r.storage == Persisted(s.storage, r.prefs)
              && r.currencyEvents == s.currencyEvents + [r.prefs.currency]
              && r.darkClass == r.prefs.darkMode
  {
    if !hasStorage then s
    else
      var p := Restore(s.storage, s.prefs);
      Stores(p, Persisted(s.storage, p), true, s.currencyEvents + [p.currency], p.darkMode)
  }

  /** The storage and the page agree with the preferences. */
  predicate Synced(s: Stores) {
    && s.subscribed
    && "locale" in s.storage && s.storage["locale"] == s.prefs.locale
    && "currency" in s.storage && s.storage["currency"] == s.prefs.currency
    && "darkMode" in s.storage && s.storage["darkMode"] == BoolText(s.prefs.darkMode)
    && s.darkClass == s.prefs.darkMode
  }

  /** A change to one atom.  An atom set to its current value does not notify
      its listeners; otherwise an installed subscription writes the new value
      under the atom's key. */
  datatype Change = SetLocale(locale: string) | SetCurrency(currency: string) | SetDarkMode(dark: bool)

  /** The change reaches the subscriptions: they are installed and the atom's
      value actually changes. */
  predicate Notifies(s: Stores, c: Change) {
    && s.subscribed
    && match c
       case SetLocale(v) => v != s.prefs.locale
       case SetCurrency(v) => v != s.prefs.currency
       case SetDarkMode(v) => v != s.prefs.darkMode
  }

  function Apply(s: Stores, c: Change): (r: Stores)
    ensures r.subscribed == s.subscribed
    ensures !s.subscribed ==> r.storage == s.storage && r.currencyEvents == s.currencyEvents
    ensures !Notifies(s, c) ==> r.storage == s.storage && r.darkClass == s.darkClass
    ensures r.currencyEvents ==
              if Notifies(s, c) && c.SetCurrency? then s.currencyEvents + [c.currency] else s.currencyEvents
    ensures Notifies(s, c) && c.SetLocale? ==> r.storage == s.storage["locale" := c.locale]
    ensures Notifies(s, c) && c.SetCurrency? ==> r.storage == s.storage["currency" := c.currency]
    ensures Notifies(s, c) && c.SetDarkMode? ==>
              r.storage == s.storage["darkMode" := BoolText(c.dark)] && r.darkClass == c.dark
    ensures !c.SetDarkMode? ==> r.darkClass == s.darkClass
    ensures c.SetLocale? ==> r.prefs == s.prefs.(locale := c.locale)
    ensures c.SetCurrency? ==> r.prefs == s.prefs.(currency := c.currency)
    ensures c.SetDarkMode? ==> r.prefs == s.prefs.(darkMode := c.dark)
    ensures s.subscribed && c.SetCurrency? && c.currency != s.prefs.currency ==>
              r.currencyEvents == s.currencyEvents + [c.currency]
    ensures forall k :: k in s.storage && k !in {"locale", "currency", "darkMode"} ==>
              k in r.storage && r.storage[k] == s.storage[k]
  {
    match c
    case SetLocale(v) =>
      if v == s.prefs.locale || !s.subscribed then s.(prefs := s.prefs.(locale := v))
      else s.(prefs := s.prefs.(locale := v), storage := s.storage["locale" := v])
    case SetCurrency(v) =>
      if v == s.prefs.currency || !s.subscribed then s.(prefs := s.prefs.(currency := v))
      else s.(prefs := s.prefs.(currency := v), storage := s.storage["currency" := v],
              currencyEvents := s.currencyEvents + [v])
    case SetDarkMode(v) =>
      if v == s.prefs.darkMode || !s.subscribed then s.(prefs := s.prefs.(darkMode := v))
      else s.(prefs := s.prefs.(darkMode := v), storage := s.storage["darkMode" := BoolText(v)],
              darkClass := v)
  }

  function ApplyAll(s: Stores, changes: seq<Change>): Stores
    decreases |changes|
  {
    if |changes| == 0 then s else ApplyAll(Apply(s, changes[0]), changes[1..])
  }

  lemma InitializeSyncs(s: Stores)
    ensures Synced(Initialize(true, s))
  {
  }

  lemma ApplyKeepsSynced(s: Stores, c: Change)
    requires Synced(s)
    ensures Synced(Apply(s, c))
  {
  }

  /** After initialisation, whatever changes follow, the storage holds the
      current preferences, so a reload restores them. */
  lemma {:induction false} ChangesArePersisted(s: Stores, changes: seq<Change>)
    requires Synced(s)
    ensures Synced(ApplyAll(s, changes))
    ensures var r := ApplyAll(s, changes);
            r.prefs.locale != "" && r.prefs.currency != "" ==>
              Restore(r.storage, Defaults) == r.prefs
    decreases |changes|
  {
    if |changes| > 0 {
      ApplyKeepsSynced(s, changes[0]);
      ChangesArePersisted(Apply(s, changes[0]), changes[1..]);
    }
  }

  /** Without `localStorage` the atoms still change but nothing is written. */
  lemma {:induction false} NoStorageNoWrites(s: Stores, changes: seq<Change>)
    requires !s.subscribed
    ensures ApplyAll(Initialize(false, s), changes).storage == s.storage
    decreases |changes|
  {
    if |changes| > 0 {
      NoStorageNoWrites(Apply(s, changes[0]), changes[1..]);
    }
  }

  /** `currencySymbols`. */
  const CurrencySymbols: map<string, string> := map["USD" := "$", "EUR" := "€", "GBP" := "£"]

  lemma CurrencySymbolsSpec()
    ensures CurrencySymbols.Keys == {"USD", "EUR", "GBP"}
    ensures CurrencySymbols["USD"] == "$" && CurrencySymbols["EUR"] == "€" && CurrencySymbols["GBP"] == "£"
    ensures CurrencySymbols["USD"] != CurrencySymbols["EUR"]
    ensures CurrencySymbols["EUR"] != CurrencySymbols["GBP"]
    ensures CurrencySymbols["GBP"] != CurrencySymbols["USD"]
  {
  }
}

=== FILE: text.dfy ===
/** String operations the storefront borrows from JavaScript's `String`, written
    out over `seq<char>`.  Case mapping covers ASCII letters only; JavaScript's
    `toLowerCase`/`toUpperCase` map the whole of Unicode. */
module Text {

  // ---------------------------------------------------------------------------
  // Case mapping (ASCII)
  // ---------------------------------------------------------------------------

  function LowerChar(c: char): char {
    if 'A' <= c <= 'Z' then (c as int + 32) as char else c
  }

  function UpperChar(c: char): char {
    if 'a' <= c <= 'z' then (c as int - 32) as char else c
  }

  function Lower(s: string): (r: string)
    ensures |r| == |s|
    ensures forall i :: 0 <= i < |s| ==> r[i] == LowerChar(s[i])
  {
    seq(|s|, i requires 0 <= i < |s| => LowerChar(s[i]))
  }

  function Upper(s: string): (r: string)
    ensures |r| == |s|
    ensures forall i :: 0 <= i < |s| ==> r[i] == UpperChar(s[i])
  {
    seq(|s|, i requires 0 <= i < |s| => UpperChar(s[i]))
  }

  /** Upper-casing leaves no lower-case ASCII letter behind. */
  lemma UpperHasNoLowerCase(s: string)
    ensures forall i :: 0 <= i < |Upper(s)| ==> !('a' <= Upper(s)[i] <= 'z')
  {
  }

  // ---------------------------------------------------------------------------
  // Prefixes, suffixes, substrings
  // ---------------------------------------------------------------------------

  predicate StartsWith(s: string, prefix: string) {
    |prefix| <= |s| && s[..|prefix|] == prefix
  }

  predicate EndsWith(s: string, suffix: string) {
    |suffix| <= |s| && s[|s| - |suffix|..] == suffix
  }

  /** `t` occurs in `s` starting at position `i`. */
  predicate OccursAt(t: string, s: string, i: int) {
    0 <= i && i + |t| <= |s| && s[i..i + |t|] == t
  }

  /** `s.includes(t)`: `t` occurs in `s` at some position. */
  predicate IsSubstring(t: string, s: string) {
    exists i | 0 <= i <= |s| :: OccursAt(t, s, i)
  }

  /** Case-folded comparison of `t` against `s` at offset `i`, from `t[j]` on. */
  predicate FoldedMatchFrom(s: string, t: string, i: nat, j: nat)
    requires i + |t| <= |s| && j <= |t|
    decreases |t| - j
  {
    j == |t| || (LowerChar(s[i + j]) == LowerChar(t[j]) && FoldedMatchFrom(s, t, i, j + 1))
  }

  /** Case-folded search for `t` in `s` at offsets `i` and later. */
  predicate FoldedIncludesFrom(s: string, t: string, i: nat)
    decreases |s| - i
  {
    i + |t| <= |s| && (FoldedMatchFrom(s, t, i, 0) || FoldedIncludesFrom(s, t, i + 1))
  }

  /** `s.toLowerCase().includes(t.toLowerCase())`, as a scan that never builds
      the lower-cased copies. */
  predicate FoldedIncludes(s: string, t: string) {
    FoldedIncludesFrom(s, t, 0)
  }

  lemma {:induction false} FoldedMatchFromSpec(s: string, t: string, i: nat, j: nat)
    requires i + |t| <= |s| && j <= |t|
    ensures FoldedMatchFrom(s, t, i, j) <==>
            forall k :: j <= k < |t| ==> LowerChar(s[i + k]) == LowerChar(t[k])
    decreases |t| - j
  {
    if j < |t| {
      FoldedMatchFromSpec(s, t, i, j + 1);
    }
  }

  lemma FoldedMatchIsSlice(s: string, t: string, i: nat)
    requires i + |t| <= |s|
    ensures FoldedMatchFrom(s, t, i, 0) <==> Lower(s)[i..i + |t|] == Lower(t)
  {
    FoldedMatchFromSpec(s, t, i, 0);
    if FoldedMatchFrom(s, t, i, 0) {
      assert forall k :: 0 <= k < |t| ==> Lower(s)[i..i + |t|][k] == Lower(t)[k];
    } else if Lower(s)[i..i + |t|] == Lower(t) {
      forall k | 0 <= k < |t|
        ensures LowerChar(s[i + k]) == LowerChar(t[k])
      {
        assert Lower(s)[i..i + |t|][k] == Lower(t)[k];
      }
    }
  }

  lemma {:induction false} FoldedIncludesFromSpec(s: string, t: string, i: nat)
    ensures FoldedIncludesFrom(s, t, i) <==> exists k :: i <= k && OccursAt(Lower(t), Lower(s), k)
    decreases |s| - i
  {
    if i + |t| <= |s| {
      FoldedMatchIsSlice(s, t, i);
      FoldedIncludesFromSpec(s, t, i + 1);
      if FoldedIncludesFrom(s, t, i) {
        if FoldedMatchFrom(s, t, i, 0) {
          assert OccursAt(Lower(t), Lower(s), i);
        }
      } else {
        forall k | i <= k
          ensures !OccursAt(Lower(t), Lower(s), k)
        {
          if k > i {
            assert i + 1 <= k;
          }
        }
      }
    }
  }

  /** The scan agrees with the declarative reading: the lower-cased term is a
      substring of the lower-cased text. */
  lemma FoldedIncludesSpec(s: string, t: string)
    ensures FoldedIncludes(s, t) <==> IsSubstring(Lower(t), Lower(s))
  {
    FoldedIncludesFromSpec(s, t, 0);
  }

  lemma LowerAppend(a: string, b: string)
    ensures Lower(a + b) == Lower(a) + Lower(b)
  {
  }

  /** An occurrence inside `x + y` lies in `x`, in `y`, or covers the seam. */
  lemma OccursInAppend(t: string, x: string, y: string, k: int)
    requires OccursAt(t, x + y, k) && |t| > 0
    ensures k + |t| <= |x| ==> OccursAt(t, x, k)
    ensures k >= |x| ==> OccursAt(t, y, k - |x|)
    ensures k < |x| < k + |t| ==> t[|x| - k] == (x + y)[|x|]
  {
    if k + |t| <= |x| {
      assert (x + y)[k..k + |t|] == x[k..k + |t|];
    } else if k >= |x| {
      assert (x + y)[k..k + |t|] == y[k - |x|..k - |x| + |t|];
    } else {
      assert (x + y)[k..k + |t|][|x| - k] == (x + y)[|x|];
    }
  }

  /** A term without spaces cannot match across the space joining two words, so
      the scan over `a + " " + w` fails when it fails on both parts. */
  lemma FoldedExcludesAcrossSpace(a: string, w: string, t: string)
    requires forall k :: 0 <= k < |t| ==> t[k] != ' '
    requires !FoldedIncludes(a, t) && !FoldedIncludes(w, t)
    ensures !FoldedIncludes(a + " " + w, t)
  {
    FoldedIncludesSpec(a, t);
    FoldedIncludesSpec(w, t);
    FoldedIncludesSpec(a + " " + w, t);
    var la, lw, lt := Lower(a), Lower(w), Lower(t);
    LowerAppend(a, " " + w);
    LowerAppend(" ", w);
    assert Lower(a + " " + w) == la + (" " + lw) by {
      assert a + " " + w == a + (" " + w);
    }
    forall k | 0 <= k <= |la + (" " + lw)|
      ensures !OccursAt(lt, la + (" " + lw), k)
    {
      if OccursAt(lt, la + (" " + lw), k) && |t| > 0 {
        OccursInAppend(lt, la, " " + lw, k);
        if k > |la| {
          OccursInAppend(lt, " ", lw, k - |la|);
        }
      }
    }
  }

  // ---------------------------------------------------------------------------
  // Whitespace: `s.trim()` is empty exactly when every character is one that
  // JavaScript's trim removes (WhiteSpace and LineTerminator code points).
  // ---------------------------------------------------------------------------

  predicate IsTrimmable(c: char) {
    c == '\t' || c == '\n' || c == '\U{000B}' || c == '\U{000C}' || c == '\r' || c == ' '
    || c == '\U{00A0}' || c == '\U{1680}' || ('\U{2000}' <= c <= '\U{200A}')
    || c == '\U{2028}' || c == '\U{2029}' || c == '\U{202F}' || c == '\U{205F}'
    || c == '\U{3000}' || c == '\U{FEFF}'
  }

  /** `!s.trim()`: the string is empty or whitespace only. */
  predicate Blank(s: string) {
    forall i :: 0 <= i < |s| ==> IsTrimmable(s[i])
  }

  // ---------------------------------------------------------------------------
  // Searching for a character
  // ---------------------------------------------------------------------------

  /** `s.lastIndexOf(c)`: the last position holding `c`, or -1. */
  function LastIndexOf(s: string, c: char): (r: int)
    ensures -1 <= r < |s|
    ensures r == -1 ==> c !in s
    ensures r >= 0 ==> s[r] == c && c !in s[r + 1..]
  {
    if |s| == 0 then -1
    else if s[|s| - 1] == c then |s| - 1
    else
      var r := LastIndexOf(s[..|s| - 1], c);
      assert s[..|s| - 1][r + 1..] + [s[|s| - 1]] == s[r + 1..];
      r
  }

  /** A character missing from a suffix differs from every character there. */
  lemma AbsentFromSuffix(s: string, c: char, from: int)
    requires 0 <= from <= |s|
    ensures c !in s[from..] ==> forall k :: from <= k < |s| ==> s[k] != c
  {
    forall k | from <= k < |s|
      ensures c !in s[from..] ==> s[k] != c
    {
      assert s[k] == s[from..][k - from];
    }
  }

  /** `s.split(sep)` for a one-character separator. */
  function SplitOn(s: string, sep: char): (r: seq<string>)
    ensures |r| >= 1
    decreases |s|
  {
    if |s| == 0 then [""]
    else
      var rest := SplitOn(s[1..], sep);
      if s[0] == sep then [""] + rest else [[s[0]] + rest[0]] + rest[1..]
  }

  /** `pieces.join(sep)`. */
  function JoinWith(pieces: seq<string>, sep: char): string
    requires |pieces| >= 1
    decreases |pieces|
  {
    if |pieces| == 1 then pieces[0] else pieces[0] + [sep] + JoinWith(pieces[1..], sep)
  }

  /** Splitting loses nothing and leaves no separator inside a piece. */
  lemma {:induction false} SplitOnSpec(s: string, sep: char)
    ensures JoinWith(SplitOn(s, sep), sep) == s
    ensures forall k :: 0 <= k < |SplitOn(s, sep)| ==> sep !in SplitOn(s, sep)[k]
    decreases |s|
  {
    if |s| > 0 {
      var rest := SplitOn(s[1..], sep);
      SplitOnSpec(s[1..], sep);
      var r := SplitOn(s, sep);
      if s[0] == sep {
        assert r == [""] + rest;
        assert r[1..] == rest;
        assert JoinWith(r, sep) == "" + [sep] + JoinWith(rest, sep);
        assert s == [s[0]] + s[1..];
        forall k | 0 <= k < |r|
          ensures sep !in r[k]
        {
          if k > 0 {
            assert r[k] == rest[k - 1];
          }
        }
      } else {
        assert r == [[s[0]] + rest[0]] + rest[1..];
        if |rest| == 1 {
          assert JoinWith(r, sep) == [s[0]] + rest[0];
        } else {
          assert r[1..] == rest[1..];
          assert JoinWith(rest, sep) == rest[0] + [sep] + JoinWith(rest[1..], sep);
          assert JoinWith(r, sep) == [s[0]] + rest[0] + [sep] + JoinWith(rest[1..], sep);
        }
        assert s == [s[0]] + s[1..];
        forall k | 0 <= k < |r|
          ensures sep !in r[k]
        {
          if k > 0 {
            assert r[k] == rest[k];
          } else {
            assert sep !in rest[0];
          }
        }
      }
    }
  }

  /** The first piece of a split is the text before the first separator (all
      of it when there is none). */
  lemma {:induction false} SplitOnFirstPiece(s: string, sep: char)
    ensures StartsWith(s, SplitOn(s, sep)[0])
    ensures sep !in SplitOn(s, sep)[0]
    ensures |SplitOn(s, sep)[0]| < |s| ==> s[|SplitOn(s, sep)[0]|] == sep
    decreases |s|
  {
    if |s| > 0 {
      SplitOnFirstPiece(s[1..], sep);
      var rest := SplitOn(s[1..], sep);
      if s[0] != sep {
        var p := SplitOn(s, sep)[0];
        assert p == [s[0]] + rest[0];
        assert s[..|p|] == [s[0]] + s[1..][..|rest[0]|];
      }
    }
  }

  // ---------------------------------------------------------------------------
  // Replacement
  // ---------------------------------------------------------------------------

  /** `s.replace(pattern, replacement)` with a string pattern: only the first
      occurrence is replaced, and an absent pattern leaves `s` alone.  (The
      replacement strings used here contain no `$` patterns.) */
  function ReplaceFirst(s: string, pattern: string, replacement: string): string
    decreases |s|
  {
    if StartsWith(s, pattern) then replacement + s[|pattern|..]
    else if |s| == 0 then s
    else [s[0]] + ReplaceFirst(s[1..], pattern, replacement)
  }

  /** `i` is the position of the first occurrence of `pattern` in `s`. */
  predicate FirstOccurrence(s: string, pattern: string, i: int) {
    OccursAt(pattern, s, i) && forall j :: 0 <= j < i ==> !StartsWith(s[j..], pattern)
  }

  /** Without an occurrence of the pattern, `replace` changes nothing. */
  lemma {:induction false} ReplaceFirstAbsent(s: string, pattern: string, replacement: string)
    requires !IsSubstring(pattern, s)
    ensures ReplaceFirst(s, pattern, replacement) == s
    decreases |s|
  {
    if StartsWith(s, pattern) {
      assert OccursAt(pattern, s, 0);
    } else if |s| > 0 {
      if IsSubstring(pattern, s[1..]) {
        var k :| 0 <= k <= |s[1..]| && OccursAt(pattern, s[1..], k);
        assert s[1..][k..k + |pattern|] == s[k + 1..k + 1 + |pattern|];
        assert OccursAt(pattern, s, k + 1);
      }
      ReplaceFirstAbsent(s[1..], pattern, replacement);
    }
  }

  lemma FirstOccurrenceTail(s: string, pattern: string, i: int)
    requires FirstOccurrence(s, pattern, i) && i > 0
    ensures FirstOccurrence(s[1..], pattern, i - 1)
  {
    forall j | 0 <= j < i - 1
      ensures !StartsWith(s[1..][j..], pattern)
    {
      assert s[1..][j..] == s[j + 1..];
    }
    assert s[1..][i - 1..i - 1 + |pattern|] == s[i..i + |pattern|];
  }

  /** With a first occurrence at `i`, `replace` swaps exactly that occurrence. */
  lemma {:induction false} ReplaceFirstAt(s: string, pattern: string, replacement: string, i: int)
    requires FirstOccurrence(s, pattern, i)
    ensures ReplaceFirst(s, pattern, replacement) == s[..i] + replacement + s[i + |pattern|..]
    decreases |s|
  {
    if i == 0 {
      assert StartsWith(s, pattern);
    } else {
      assert !StartsWith(s[0..], pattern);
      assert s[0..] == s;
      FirstOccurrenceTail(s, pattern, i);
      ReplaceFirstAt(s[1..], pattern, replacement, i - 1);
      var tail := s[1..];
      calc {
        ReplaceFirst(s, pattern, replacement);
        [s[0]] + ReplaceFirst(tail, pattern, replacement);
        [s[0]] + (tail[..i - 1] + replacement + tail[i - 1 + |pattern|..]);
        { assert tail[..i - 1] == s[1..i];
          assert tail[i - 1 + |pattern|..] == s[i + |pattern|..]; }
        [s[0]] + (s[1..i] + replacement + s[i + |pattern|..]);
        { assert s[..i] == [s[0]] + s[1..i]; }
        s[..i] + replacement + s[i + |pattern|..];
      }
    }
  }
}

=== FILE: uri.dfy ===
/** The URI-component encoding the search box uses when it navigates to the
    search page (the `encodeURIComponent` global of ECMA-262), with the
    matching decoder.  Strings are sequences of Unicode
    scalar values, so the lone surrogates on which the encoder throws cannot
    occur. */
module Uri {
  import opened Wrappers

  /** The characters `encodeURIComponent` leaves as they are. */
  predicate Unreserved(c: char) {
    || ('A' <= c <= 'Z') || ('a' <= c <= 'z') || ('0' <= c <= '9')
    || c == '-' || c == '_' || c == '.' || c == '!' || c == '~'
    || c == '*' || c == '\'' || c == '(' || c == ')'
  }

  predicate IsHexDigit(c: char) {
    ('0' <= c <= '9') || ('A' <= c <= 'F') || ('a' <= c <= 'f')
  }

  function HexDigit(n: nat): (c: char)
    requires n < 16
    ensures IsHexDigit(c) && !('a' <= c <= 'f')
  {
    if n < 10 then (48 + n) as char else (55 + n) as char
  }

  function HexValue(c: char): (r: Option<nat>)
    ensures r.Some? <==> IsHexDigit(c)
    ensures r.Some? ==> r.value < 16
  {
    if '0' <= c <= '9' then Some(c as int - 48)
    else if 'A' <= c <= 'F' then Some(c as int - 55)
    else if 'a' <= c <= 'f' then Some(c as int - 87)
    else None
  }

  lemma HexDigitValue(n: nat)
    requires n < 16
    ensures HexValue(HexDigit(n)) == Some(n)
  {
  }

  /** `%XX` with upper-case hex digits. */
  function Percent(b: nat): (r: string)
    requires b < 256
    ensures |r| == 3 && r[0] == '%'
  {
    ['%', HexDigit(b / 16), HexDigit(b % 16)]
  }

  /** The UTF-8 encoding of one scalar value. */
  function Utf8(c: char): (r: seq<nat>)
    ensures 1 <= |r| <= 4
    ensures forall i :: 0 <= i < |r| ==> r[i] < 256
  {
    var cp := c as int;
    if cp < 0x80 then [cp]
    else if cp < 0x800 then [0xC0 + cp / 64, 0x80 + cp % 64]
    else if cp < 0x10000 then [0xE0 + cp / 4096, 0x80 + (cp / 64) % 64, 0x80 + cp % 64]
    else [0xF0 + cp / 262144, 0x80 + (cp / 4096) % 64, 0x80 + (cp / 64) % 64, 0x80 + cp % 64]
  }

  function PercentAll(bytes: seq<nat>): (r: string)
    requires forall i :: 0 <= i < |bytes| ==> bytes[i] < 256
    ensures |r| == 3 * |bytes|
  {
    if |bytes| == 0 then [] else Percent(bytes[0]) + PercentAll(bytes[1..])
  }

  function EncodeChar(c: char): (r: string)
    ensures |r| > 0
  {
    if Unreserved(c) then [c] else PercentAll(Utf8(c))
  }

  /** `encodeURIComponent`. */
  function EncodeURIComponent(s: string): string {
    if |s| == 0 then [] else EncodeChar(s[0]) + EncodeURIComponent(s[1..])
  }

  /** The character a URI component may contain after encoding. */
  predicate Safe(c: char) {
    Unreserved(c) || c == '%' || IsHexDigit(c)
  }

  /** The encoding contains only unreserved characters and `%XX` escapes, so
      no `&`, `=`, `#`, `?`, '/' or space survives into the query string. */
  lemma {:induction false} EncodedIsSafe(s: string)
    ensures forall i :: 0 <= i < |EncodeURIComponent(s)| ==> Safe(EncodeURIComponent(s)[i])
    decreases |s|
  {
    if |s| > 0 {
      EncodedIsSafe(s[1..]);
      var e := EncodeChar(s[0]);
      assert forall i :: 0 <= i < |e| ==> Safe(e[i]) by {
        if !Unreserved(s[0]) {
          PercentAllSafe(Utf8(s[0]));
        }
      }
    }
  }

  lemma {:induction false} PercentAllSafe(bytes: seq<nat>)
    requires forall i :: 0 <= i < |bytes| ==> bytes[i] < 256
    ensures forall i :: 0 <= i < |PercentAll(bytes)| ==> Safe(PercentAll(bytes)[i])
    decreases |bytes|
  {
    if |bytes| > 0 {
      PercentAllSafe(bytes[1..]);
    }
  }

  /** A string of unreserved characters is its own encoding. */
  lemma {:induction false} UnreservedUnchanged(s: string)
    requires forall i :: 0 <= i < |s| ==> Unreserved(s[i])
    ensures EncodeURIComponent(s) == s
    decreases |s|
  {
    if |s| > 0 {
      UnreservedUnchanged(s[1..]);
      assert s == [s[0]] + s[1..];
    }
  }

  // ---------------------------------------------------------------------------
  // Decoding
  // ---------------------------------------------------------------------------

  /** The byte written as `%XX` at position `i`. */
  function ReadByte(s: string, i: nat): (r: Option<nat>)
    ensures r.Some? ==> i + 3 <= |s| && r.value < 256
  {
    if i + 3 <= |s| && s[i] == '%' && HexValue(s[i + 1]).Some? && HexValue(s[i + 2]).Some? then
      Some(16 * HexValue(s[i + 1]).value + HexValue(s[i + 2]).value)
    else None
  }

  /** A continuation byte `10xxxxxx` at position `i`, as its six payload bits. */
  function ReadTail(s: string, i: nat): (r: Option<nat>)
    ensures r.Some? ==> i + 3 <= |s| && r.value < 64
  {
    match ReadByte(s, i)
    case Some(b) => if 0x80 <= b < 0xC0 then Some(b - 0x80) else None
    case None => None
  }

  function ScalarOf(cp: int): Option<char> {
    if 0 <= cp < 0xD800 || 0xE000 <= cp < 0x110000 then Some(cp as char) else None
  }

  /** A decoded scalar value, rejected when it is below the smallest value
      its byte count may encode (an overlong form) or is not a scalar value. */
  function Complete(cp: int, least: int, length: nat): Option<(char, nat)> {
    if cp < least then None
    else match ScalarOf(cp)
      case Some(c) => Some((c, length))
      case None => None
  }

  /** The first character of an encoded string and the length of its encoding.
      Malformed escapes, overlong forms and surrogates are rejected. */
  function DecodeOne(s: string): (r: Option<(char, nat)>)
    requires |s| > 0
    ensures r.Some? ==> 0 < r.value.1 <= |s|
  {
    if s[0] != '%' then Some((s[0], 1))
    else match ReadByte(s, 0)
      case None => None
      case Some(b0) =>
        if b0 < 0x80 then Some((b0 as char, 3))
        else if 0xC2 <= b0 < 0xE0 then
          match ReadTail(s, 3)
          case None => None
          case Some(t1) => Some((((b0 - 0xC0) * 64 + t1) as char, 6))
        else if 0xE0 <= b0 < 0xF0 then
          match (ReadTail(s, 3), ReadTail(s, 6))
          case (Some(t1), Some(t2)) =>
            Complete((b0 - 0xE0) * 4096 + t1 * 64 + t2, 0x800, 9)
          case _ => None
        else if 0xF0 <= b0 < 0xF5 then
          match (ReadTail(s, 3), ReadTail(s, 6), ReadTail(s, 9))
          case (Some(t1), Some(t2), Some(t3)) =>
            Complete((b0 - 0xF0) * 262144 + t1 * 4096 + t2 * 64 + t3, 0x10000, 12)
          case _ => None
        else None
  }

  /** `decodeURIComponent`, with `None` where it throws `URIError`. */
  function DecodeURIComponent(s: string): Option<string>
    decreases |s|
  {
    if |s| == 0 then Some("")
    else match DecodeOne(s)
      case None => None
      case Some((c, n)) =>
        match DecodeURIComponent(s[n..])
        case None => None
        case Some(rest) => Some([c] + rest)
  }

  lemma PercentAt(b: nat, s: string, i: nat)
    requires b < 256 && i + 3 <= |s| && s[i..i + 3] == Percent(b)
    ensures ReadByte(s, i) == Some(b)
  {
    assert s[i] == '%' && s[i + 1] == HexDigit(b / 16) && s[i + 2] == HexDigit(b % 16);
    HexDigitValue(b / 16);
    HexDigitValue(b % 16);
  }

  lemma {:induction false} PercentAllAt(bytes: seq<nat>, s: string, i: nat, k: nat)
    requires forall j :: 0 <= j < |bytes| ==> bytes[j] < 256
    requires k < |bytes|
    requires i + 3 * |bytes| <= |s| && s[i..i + 3 * |bytes|] == PercentAll(bytes)
    ensures ReadByte(s, i + 3 * k) == Some(bytes[k])
    decreases k
  {
    assert PercentAll(bytes)[..3] == Percent(bytes[0]);
    assert s[i..i + 3] == PercentAll(bytes)[..3];
    if k == 0 {
      PercentAt(bytes[0], s, i);
    } else {
      assert PercentAll(bytes)[3..] == PercentAll(bytes[1..]);
      assert s[i + 3..i + 3 + 3 * |bytes[1..]|] == PercentAll(bytes)[3..];
      PercentAllAt(bytes[1..], s, i + 3, k - 1);
    }
  }

  /** Decoding undoes the encoding of one character. */
  lemma DecodeEncodedChar(c: char, rest: string)
    ensures DecodeOne(EncodeChar(c) + rest) == Some((c, |EncodeChar(c)|))
  {
    var s := EncodeChar(c) + rest;
    if !Unreserved(c) {
      var bytes := Utf8(c);
      assert s[0..3 * |bytes|] == PercentAll(bytes);
      forall k | 0 <= k < |bytes|
        ensures ReadByte(s, 3 * k) == Some(bytes[k])
      {
        PercentAllAt(bytes, s, 0, k);
      }
      Utf8Decodes(c);
    }
  }

  /** The arithmetic of UTF-8: the bytes of `c` decode back to `c`. */
  lemma Utf8Decodes(c: char)
    ensures var b := Utf8(c);
            var cp := c as int;
            && (|b| == 1 ==> b[0] == cp && b[0] < 0x80)
            && (|b| == 2 ==> 0xC2 <= b[0] < 0xE0 && 0x80 <= b[1] < 0xC0
                             && (b[0] - 0xC0) * 64 + (b[1] - 0x80) == cp)
            && (|b| == 3 ==> 0xE0 <= b[0] < 0xF0 && 0x80 <= b[1] < 0xC0 && 0x80 <= b[2] < 0xC0
                             && (b[0] - 0xE0) * 4096 + (b[1] - 0x80) * 64 + (b[2] - 0x80) == cp
                             && 0x800 <= cp)
            && (|b| == 4 ==> 0xF0 <= b[0] < 0xF5 && 0x80 <= b[1] < 0xC0 && 0x80 <= b[2] < 0xC0
                             && 0x80 <= b[3] < 0xC0
                             && (b[0] - 0xF0) * 262144 + (b[1] - 0x80) * 4096 + (b[2] - 0x80) * 64
                                + (b[3] - 0x80) == cp
                             && 0x10000 <= cp)
  {
    var cp := c as int;
    if 0x800 <= cp < 0x10000 {
      assert cp == (cp / 4096) * 4096 + ((cp / 64) % 64) * 64 + cp % 64;
    } else if 0x10000 <= cp {
      assert cp == (cp / 262144) * 262144 + ((cp / 4096) % 64) * 4096 + ((cp / 64) % 64) * 64 + cp % 64;
    }
  }

  lemma EncodeCons(s: string)
    requires |s| > 0
    ensures EncodeURIComponent(s) == EncodeChar(s[0]) + EncodeURIComponent(s[1..])
  {
  }

  /** `decodeURIComponent(encodeURIComponent(s)) == s`. */
  lemma {:induction false} RoundTrip(s: string)
    ensures DecodeURIComponent(EncodeURIComponent(s)) == Some(s)
    decreases |s|
  {
    if |s| > 0 {
      var e := EncodeChar(s[0]);
      var rest := EncodeURIComponent(s[1..]);
      EncodeCons(s);
      DecodeEncodedChar(s[0], rest);
      assert (e + rest)[|e|..] == rest;
      RoundTrip(s[1..]);
      assert s == [s[0]] + s[1..];
    }
  }

  /** Distinct queries give distinct search addresses. */
  lemma EncodingInjective(s: string, t: string)
    requires EncodeURIComponent(s) == EncodeURIComponent(t)
    ensures s == t
  {
    RoundTrip(s);
    RoundTrip(t);
  }

  lemma Examples()
    ensures EncodeURIComponent("a b") == "a%20b"
    ensures EncodeURIComponent("&") == "%26"
  {
    assert Utf8(' ') == [32];
    assert PercentAll([32]) == "%20";
    assert EncodeURIComponent("a b") == EncodeChar('a') + EncodeURIComponent(" b");
    assert EncodeURIComponent(" b") == EncodeChar(' ') + EncodeURIComponent("b");
    assert Utf8('&') == [38];
    assert PercentAll([38]) == "%26";
  }
}

=== FILE: user_menu.dfy ===
/** The header's account menu (src/components/auth/UserMenu.tsx): the display
    name and initials derived from a user, which of the three faces the
    component shows, and how the drop-down opens and closes. */
module UserMenu {
  import opened Wrappers
  import opened Text

  /** What the menu reads from the signed-in user. */
  datatype UserInfo = UserInfo(email: Option<string>, metaName: Option<string>)

  /** `user.email?.split('@')[0]`: the text before the first '@', or all of it. */
  function LocalPart(email: string): (r: string)
    ensures StartsWith(email, r) && '@' !in r
    ensures |r| < |email| ==> email[|r|] == '@'
  {
    SplitOnFirstPiece(email, '@');
    SplitOn(email, '@')[0]
  }

  /** `userName`: the metadata name, else the e-mail's local part, else
      "User"; empty strings count as missing. */
  function UserName(u: UserInfo): (r: string)
    ensures r != ""
    ensures u.metaName.Some? && u.metaName.value != "" ==> r == u.metaName.value
    ensures (u.metaName.None? || u.metaName.value == "") && u.email.Some? && LocalPart(u.email.value) != ""
            ==> r == LocalPart(u.email.value)
    ensures (u.metaName.None? || u.metaName.value == "") && (u.email.None? || LocalPart(u.email.value) == "")
            ==> r == "User"
  {
    if u.metaName.Some? && u.metaName.value != "" then u.metaName.value
    else if u.email.Some? && LocalPart(u.email.value) != "" then LocalPart(u.email.value)
    else "User"
  }

  /** The local part is everything before the first '@'. */
  lemma LocalPartBeforeAt(a: string, domain: string)
    requires '@' !in a
    ensures LocalPart(a + "@" + domain) == a
  {
    var s := a + "@" + domain;
    var r := LocalPart(s);
    assert s[|a|] == '@';
    assert forall k :: 0 <= k < |a| ==> s[k] == a[k];
    assert forall k :: 0 <= k < |r| ==> r[k] == s[k];
    assert |r| == |a|;
    assert s[..|a|] == a;
  }

  /** An e-mail address starting with '@' falls through to "User". */
  lemma NameFallbacks()
    ensures UserName(UserInfo(Some("ada@example.com"), None)) == "ada"
    ensures UserName(UserInfo(Some("ada@example.com"), Some(""))) == "ada"
    ensures UserName(UserInfo(Some("@example.com"), None)) == "User"
    ensures UserName(UserInfo(None, None)) == "User"
  {
    LocalPartBeforeAt("ada", "example.com");
    assert "ada" + "@" + "example.com" == "ada@example.com";
    LocalPartBeforeAt("", "example.com");
    assert "" + "@" + "example.com" == "@example.com";
  }

  // ---------------------------------------------------------------------------
  // Initials
  // ---------------------------------------------------------------------------

  /** `words.map(n => n[0]).join('')`: the first character of every word, an
      empty word contributing nothing (`undefined` joins as ""). */
  function Firsts(words: seq<string>): (r: string)
    ensures |r| <= |words|
    decreases |words|
  {
    if |words| == 0 then ""
    else (if |words[0]| > 0 then [words[0][0]] else "") + Firsts(words[1..])
  }

  /** An independent reading of "the first letter of each word": every
      non-space character that opens the string or follows a space.
      `afterSpace` says whether the text before `s` ended in a space (or was
      empty). */
  function WordStarts(s: string, afterSpace: bool): string
    decreases |s|
  {
    if |s| == 0 then ""
    else (if s[0] != ' ' && afterSpace then [s[0]] else "") + WordStarts(s[1..], s[0] == ' ')
  }

  /** Splitting on ' ' and taking first characters picks exactly the word
      starts. */
  lemma {:induction false} FirstsAreWordStarts(s: string)
    ensures Firsts(SplitOn(s, ' ')) == WordStarts(s, true)
    ensures Firsts(SplitOn(s, ' ')[1..]) == WordStarts(s, false)
    decreases |s|
  {
    if |s| > 0 {
      FirstsAreWordStarts(s[1..]);
      var rest := SplitOn(s[1..], ' ');
      var pieces := SplitOn(s, ' ');
      if s[0] == ' ' {
        assert pieces == [""] + rest;
        assert pieces[1..] == rest;
      } else {
        assert pieces == [[s[0]] + rest[0]] + rest[1..];
        assert pieces[1..] == rest[1..];
      }
    }
  }

  /** Word starts of a concatenation. */
  lemma {:induction false} WordStartsAppend(a: string, b: string, afterSpace: bool)
    ensures WordStarts(a + b, afterSpace) ==
              WordStarts(a, afterSpace)
              + WordStarts(b, if |a| == 0 then afterSpace else a[|a| - 1] == ' ')
    decreases |a|
  {
    if |a| > 0 {
      assert (a + b)[1..] == a[1..] + b;
      WordStartsAppend(a[1..], b, a[0] == ' ');
    } else {
      assert a + b == b;
    }
  }

  /** `userInitials`: the upper-cased word starts, at most two of them. */
  function Initials(name: string): (r: string)
    ensures |r| <= 2
    ensures forall i :: 0 <= i < |r| ==> !('a' <= r[i] <= 'z')
    ensures r == Upper(WordStarts(name, true))[..Min(2, |WordStarts(name, true)|)]
  {
    var firsts := Firsts(SplitOn(name, ' '));
    FirstsAreWordStarts(name);
    UpperHasNoLowerCase(firsts);
    var up := Upper(firsts);
    if |up| <= 2 then up else up[..2]
  }

  /** A word without spaces has one start when it opens a word, none
      otherwise. */
  lemma {:induction false} WordStartsOfWord(w: string, afterSpace: bool)
    requires ' ' !in w
    ensures WordStarts(w, afterSpace) == if afterSpace && |w| > 0 then [w[0]] else ""
    decreases |w|
  {
    if |w| > 0 {
      assert w[0] != ' ';
      WordStartsOfWord(w[1..], false);
    }
  }

  /** Three words give the upper-cased first letters of the first two, so
      "Ada Lovelace King" gives "AL". */
  lemma {:induction false} InitialsOfThreeWords(a: string, b: string, c: string)
    requires |a| > 0 && |b| > 0
    requires ' ' !in a && ' ' !in b && ' ' !in c
    ensures Initials(a + " " + b + " " + c) == [UpperChar(a[0]), UpperChar(b[0])]
  {
    var ws := WordStarts(a + " " + b + " " + c, true);
    ThreeWordStarts(a, b, c);
    assert |ws| >= 2;
    assert Upper(ws)[..2] == [UpperChar(ws[0]), UpperChar(ws[1])];
  }

  /** The word starts of three words are their first characters. */
  lemma {:induction false} ThreeWordStarts(a: string, b: string, c: string)
    requires |a| > 0 && |b| > 0
    requires ' ' !in a && ' ' !in b && ' ' !in c
    ensures WordStarts(a + " " + b + " " + c, true) == [a[0], b[0]] + WordStarts(c, true)
  {
    var bc := b + " " + c;
    calc {
      WordStarts(a + " " + b + " " + c, true);
      { assert a + " " + b + " " + c == a + " " + bc; }
      WordStarts(a + " " + bc, true);
      { WordThenRest(a, bc, true); }
      [a[0]] + WordStarts(bc, true);
      { WordThenRest(b, c, true); }
      [a[0]] + ([b[0]] + WordStarts(c, true));
      [a[0], b[0]] + WordStarts(c, true);
    }
  }

  /** A word contributes its first character when it opens a word, and the
      text after the following space starts afresh. */
  lemma {:induction false} WordThenRest(w: string, rest: string, afterSpace: bool)
    requires |w| > 0 && ' ' !in w
    ensures WordStarts(w + " " + rest, afterSpace) ==
              (if afterSpace then [w[0]] else "") + WordStarts(rest, true)
    decreases |w|
  {
    var s := w + " " + rest;
    assert s[0] == w[0];
    if |w| == 1 {
      assert s[1..] == " " + rest;
      assert (" " + rest)[1..] == rest;
    } else {
      assert s[1..] == w[1..] + " " + rest;
      assert w[1] in w;
      WordThenRest(w[1..], rest, false);
    }
  }

  /** A space at either end, or doubled between words, changes nothing. */
  lemma InitialsIgnoreExtraSpaces(s: string, t: string)
    ensures Initials(" " + s) == Initials(s)
    ensures Initials(s + " ") == Initials(s)
    ensures Initials(s + "  " + t) == Initials(s + " " + t)
  {
    WordStartsAppend(" ", s, true);
    WordStartsAppend(s, " ", true);
    assert WordStarts(" ", if |s| == 0 then true else s[|s| - 1] == ' ') == "";
    assert s + "  " + t == s + ("  " + t);
    assert s + " " + t == s + (" " + t);
    WordStartsAppend(s, "  " + t, true);
    WordStartsAppend(s, " " + t, true);
    WordStartsAppend("  ", t, false);
    WordStartsAppend(" ", t, false);
    WordStartsAppend("  ", t, true);
    WordStartsAppend(" ", t, true);
  }

  // ---------------------------------------------------------------------------
  // The component
  // ---------------------------------------------------------------------------

  /** What the component shows. */
  datatype Face =
    | Skeleton                                      // the pulsing placeholder
    | SignInButton
    | Menu(initials: string, name: string, open: bool)

  /** Loading wins over everything, then a missing user, then the menu. */
  function Render(loading: bool, user: Option<UserInfo>, open: bool): (r: Face)
    ensures r.Skeleton? <==> loading
    ensures r.SignInButton? <==> !loading && user.None?
    ensures r.Menu? ==> user.Some? && r.name == UserName(user.value)
                        && r.initials == Initials(r.name) && r.open == open
  {
    if loading then Skeleton
    else if user.None? then SignInButton
    else
      var name := UserName(user.value);
      Menu(Initials(name), name, open)
  }

  /** Clicks that reach the menu's state. */
  datatype MenuEvent =
    | ToggleClick                                   // the avatar button
    | DocumentClick(insideMenu: bool)               // any click; inside `.user-menu` or not
    | LinkClick                                     // "My Account" or "My Orders"
    | SignOutDone(succeeded: bool)

  /** `isMenuOpen` after an event.  The avatar button and the links lie inside
      `.user-menu`, so the document listener leaves those clicks alone. */
  function OnMenuEvent(open: bool, e: MenuEvent): (r: bool)
    ensures e == ToggleClick ==> r == !open
    ensures e == DocumentClick(false) || e == LinkClick || e == SignOutDone(true) ==> !r
    ensures e == DocumentClick(true) || e == SignOutDone(false) ==> r == open
  {
    match e
    case ToggleClick => !open
    case DocumentClick(inside) => if inside then open else false
    case LinkClick => false
    case SignOutDone(ok) => if ok then false else open
  }

  /** Two clicks on the avatar restore the menu; a click outside always
      leaves it closed. */
  lemma MenuToggles(open: bool)
    ensures OnMenuEvent(OnMenuEvent(open, ToggleClick), ToggleClick) == open
    ensures !OnMenuEvent(OnMenuEvent(open, ToggleClick), DocumentClick(false))
  {
  }
}

=== FILE: wrappers.dfy ===
/** Failure-carrying values shared by every module of the storefront model.
    `Option` stands for the source's `T | null` / `T | undefined` values, and
    `Result` for a call that either returns or throws an `Error` with a message. */
module Wrappers {

  datatype Option<+T> = None | Some(value: T) {

    /** The value, or `default` when there is none (the source's `x ?? default`). */
    function GetOr(default: T): T {
      match this
      case Some(v) => v
      case None => default
    }
  }

  datatype Result<+T> = Ok(value: T) | Err(message: string) {

    predicate IsFailure() {
      Err?
    }

    function PropagateFailure<U>(): Result<U>
      requires Err?
    {
      Err(message)
    }

    function Extract(): T
      requires Ok?
    {
      value
    }
  }

  function Min(a: int, b: int): int {
    if a <= b then a else b
  }
}
